=== FILE: README.md ===
# orchestra install engine and git helpers, modelled in Dafny

This project models the filesystem bookkeeping of orchestra's install engine and the
git helpers next to it. It covers:

- installing a build into a staging prefix (`TMP_ROOT$ORCHESTRA_ROOT`);
- recording which paths the build added, merging them into the shared root, and writing
  the component's manifest ("index file");
- uninstalling a component from that manifest later;
- the `InstallAnyBuildAction` selection node;
- the per-line NDEBUG rewrite of installed headers and the RPATH replacement string;
- `run_git`, `ls_remote`, `is_root_of_git_repo` and `get_worktree_root`.

The engine exists twice in the repository, as `orchestra/actions/install.py` and
`orchestra/model/actions/install.py`, and the two differ in places. Where they differ the
model takes a `Variant`:

- `FilesAndLinks` is the first file;
- `RegularFilesOnly` is the second.

The filesystem is a finite map from root-relative path to `File`, `Dir` or
`Symlink(target)`, with `""` as the root. `os.path.isfile`, `isdir` and `exists` follow
links for at most 40 hops, as Linux does.

Modules:

- **Wrappers**: `Option` and `Result`.
- **Text**: the Python `str` operations used. This covers `remove_prefix`, `strip`,
  `lstrip`, `readlines` (cut after each `\n`, which is kept) and universal newlines, as
  well as join and split.
- **Order**: Python string order, and `sort(reverse=True)` as a descending permutation.
- **FileSystem**: the abstract tree, parent and child relations, and link resolution.
- **Manifest**: the index file as written and as read back, and the order in which
  uninstall visits it.
- **Uninstall**: both versions of `uninstall`.
- **Install**: the recorded paths, the environment, removal of the previous build,
  merge, manifest writing, dependencies and satisfaction, and `InstallAnyBuildAction`.
- **Tmproot**: `_prepare_tmproot` as a series of `mkdir -p`, `ln -s`, `test -L` and
  `touch` steps over the abstract tree.
- **NDebug**: the four `sed` substitutions of `_replace_ndebug`, applied to one line.
- **Rpath**: the `$ORIGIN/...` replacement of `_fix_rpath`.
- **PosixPath**: the part of `pathlib.PurePosixPath` that `get_worktree_root` relies on.
- **GitUtils**: `orchestra/gitutils/__init__.py`.

## Model

| member | source | states |
|---|---|---|
| Text.RemovePrefix | orchestra/actions/install.py:176-180 | With the prefix present, prefix + result is the input; otherwise the result is the input unchanged |
| Install.StripListing | orchestra/model/actions/install.py:139-144 | Every listed path loses the staging prefix; a path outside it is kept verbatim; the listing keeps its length and order |
| Install.NewFiles | orchestra/actions/install.py:40-41 | A path is in the diff exactly when it is in the later listing and not in the earlier one |
| Install.NewFilesAppend | orchestra/actions/install.py:41 | The diff keeps the later listing's order: it distributes over concatenation of that listing |
| Install.NewFilesDistinct | orchestra/actions/install.py:41 | A listing without repeats yields a diff without repeats |
| Install.RecordedPaths | orchestra/model/actions/install.py:26-31 | The second version records the listing taken right after the install script, minus the one taken before it; the first version uses the listing taken after post-processing (orchestra/actions/install.py:23-41) |
| Install.RecordedIgnoresPostprocess | orchestra/model/actions/install.py:30-37 | In the second version, whatever the hardlink, RPATH and NDEBUG passes change has no effect on the recorded paths |
| Install.InstallEnvironment | orchestra/model/actions/install.py:146-150 | The environment is the per-action one with DESTDIR added and set to TMP_ROOT, every other key unchanged; a missing TMP_ROOT is the KeyError |
| Install.InstallEnvironmentIdempotent | orchestra/actions/install.py:132-136 | Applying the DESTDIR overlay twice is the same as applying it once |
| Install.InstalledBuild | orchestra/actions/install.py:113-117 | The installed build is absent exactly when the component has no manifest |
| Install.InstalledQueriesAgree | orchestra/actions/install.py:58-59 | `is_installed(component, build)` holds exactly when the installed-build query names that build |
| Install.UninstallCurrent | orchestra/model/actions/install.py:123-129 | Without an installed build nothing changes and nothing fails. With one, the component is uninstalled: its manifest goes (on success), unlisted paths stay and nothing is added. Its listed files go (and, in the first version, its listed links); dangling links stay in the second version. Visited children first, a listed directory survives exactly when it still has an entry. A listed tree with nothing unlisted inside goes entirely. A failure stops at a listed link to an empty directory, and a manifest that lists no link cannot fail. In the second version, a listed link to a file through unlisted paths goes, and one to an empty directory rules out success |
| Install.Merge | orchestra/actions/install.py:121-123 | Every staged entry ends up in the root, replacing what was there; other root entries are kept; nothing else appears |
| Install.RunInstall | orchestra/actions/install.py:16-56 | The first version reads `args.no_merge` only after the script and the listings, but before touching the shared root or the manifests: without `args` the run fails (the `AttributeError`) and under `no_merge` nothing changes. Otherwise, on success, manifest line 1 names the build and the other lines read back as exactly the recorded paths. Other components' manifests are untouched and every staged entry is in the root. The previous build's listed files are gone unless staged again, and its unlisted paths stay. A later uninstall visits exactly the recorded paths, children first, and so every staged path the run added when the post-listing names the staged tree. Uninstalling the previous build fails only at a listed link to an empty directory, and the run cannot fail when the old manifest lists no link |
| Install.ReplaceBuild | orchestra/model/actions/install.py:39-50 | Uninstalling the recorded build, merging and writing the manifest: a failure leaves the manifests alone. On success the staged tree is on the root, nothing else appears, the old build's listed files are gone unless staged again, and the manifest reads back as `b` and the recorded paths. It fails only at a listed link to an empty directory, and never when the old manifest lists no link |
| Install.Reinstall | orchestra/actions/install.py:40-56 | Installing one build of a component and then another leaves no file the first one added, unless the second stages it again. The manifest then records the second build and its paths. With no links in the root or the first staged tree, neither run fails |
| Install.RenderedRecord | orchestra/actions/install.py:40-56 | The manifest a run writes is visited by a later uninstall in exactly the recorded paths, children first, and covers every entry the run added to a fully listed staging tree |
| Install.ImplicitDependencies | orchestra/actions/install.py:138-153 | An install depends on exactly its own build's configure; an install-any node depends on exactly the install of its chosen build |
| Install.ChooseBuild | orchestra/actions/install.py:144-148 | The installed build is chosen when one is named (a name that is not a build fails with the KeyError); otherwise, and for an empty name, the requested build is chosen |
| Install.MakeInstallAny | orchestra/actions/install.py:142-150 | Construction yields an install-any node that remembers the requested build |
| Install.InstallAnyPrefersInstalled | orchestra/actions/install.py:144-159 | With another build installed, the node picks it and is already satisfied, whichever build was requested |
| Install.InstallAnyFallsBack | orchestra/actions/install.py:144-159 | With nothing installed, the requested build is chosen and the node is unsatisfied |
| Install.InstallAnyDelegates | orchestra/actions/install.py:152-159 | An install-any node is satisfied exactly when its one dependency, the chosen build's install, is satisfied |
| Install.RunAction | orchestra/actions/install.py:155-156 | Running an install-any node changes nothing and never reads `args`. An install without `args` fails. A successful install with a recordable name and paths leaves its own action satisfied |
| Manifest.ReadLinesOfRender | orchestra/actions/install.py:53-56 | A written manifest reads back as line 1 (the qualified name and its newline) followed by one line per path, each but the last with its newline |
| Manifest.FirstLineOfRender | orchestra/model/actions/install.py:44-49 | Line 1 of a written manifest reads back as the qualified build name |
| Manifest.ReadPathsOfRender | orchestra/actions/install.py:185-191 | Skipping line 1 and stripping each remaining line gives exactly the written paths, in order, when no path has a line break or edge whitespace |
| Manifest.VisitOrder | orchestra/actions/install.py:189-194 | Uninstall visits one root-relative path per listed line, and every such path is visited |
| Manifest.VisitOrderChildrenFirst | orchestra/actions/install.py:189-191 | Sorting the raw lines in reverse puts every entry before its parent directory, for lines of the shape the engine writes |
| Manifest.RenderedVisitOrder | orchestra/model/actions/install.py:166-168 | A manifest the engine wrote for `/`-prefixed paths is visited children first |
| Manifest.RenderedKeys | orchestra/model/actions/install.py:166-174 | Uninstall visits `k` in a manifest the engine wrote for `/`-prefixed clean paths exactly when `/k` is one of those paths |
| Order.SortDesc | orchestra/actions/install.py:190 | `sort(reverse=True)` yields a descending permutation of the lines |
| Uninstall.VisitEntry | orchestra/actions/install.py:193-204 | One entry is visited. A missing path is skipped, and nothing but the visited path can disappear. A directory goes exactly when it is empty. The first version deletes files and links unconditionally; the second deletes only what resolves to a regular file, keeps dangling links, and fails exactly on a link to an empty directory |
| Uninstall.RemoveListed | orchestra/model/actions/install.py:170-181 | After the loop: unlisted paths survive and nothing is added; listed files (and, in the first version, links) are gone; a removed listed directory was empty; dangling links survive in the second version. Visited children first, a listed directory survives exactly when it still has an entry. A failure stops at a listed link to an empty directory, with every earlier listed file gone and every earlier directory gone exactly when it was empty. In the second version, a finished loop has removed every listed link that resolves to a file through unlisted paths only, and no listed link with such a chain leads to an empty directory, since that makes it fail |
| Uninstall.UninstallComponent | orchestra/actions/install.py:183-207 | A missing manifest is the error and nothing changes. Otherwise all of the above holds over the manifest's visiting order. The manifest is deleted only when every entry was handled. A listed directory that holds something unlisted stays. A listed tree with nothing unlisted inside is removed entirely. It fails only at a listed link to an empty directory, with the earlier entries handled, and it cannot fail when the manifest lists no link. In the second version, a listed link to a file through unlisted paths goes, and one to an empty directory rules out success |
| Uninstall.TreeGone | orchestra/actions/install.py:189-204 | When every listed file is gone and every surviving listed directory has an entry, nothing of a closed listed tree survives |
| Uninstall.ListedTargetStrandsLink | orchestra/model/actions/install.py:166-181 | With `a -> b` and `b` both listed, the second version visits and removes `b` first, then keeps `a` as a dangling link; the first version removes `a` |
| Tmproot.MakeDirs | orchestra/model/actions/install.py:84-85 | `makedirs(exist_ok=True)` only adds entries, and only directories |
| Tmproot.MakeDirsWalks | orchestra/model/actions/install.py:84-85 | After a successful `makedirs` the whole path resolves to a directory |
| Tmproot.MakeDirsExisting | orchestra/model/actions/install.py:85 | `exist_ok`: creating a path that already resolves changes nothing |
| Tmproot.MakeDirsIdempotent | orchestra/model/actions/install.py:85 | Repeating a successful `makedirs` is harmless |
| Tmproot.WalkSubmap | orchestra/model/actions/install.py:84-85 | A path that resolves keeps resolving to the same directory when entries are added |
| Tmproot.RunStepsWalks | orchestra/model/actions/install.py:60-85 | In a successful run, every `mkdir -p` step's path resolves to a directory at the end |
| Tmproot.ModelTmprootPrepared | orchestra/model/actions/install.py:54-85 | On a fresh prefix the preparation succeeds and `lib` is the link to `lib64`. Each of the eleven listed directories resolves to a directory, with `lib/...` going through the link into `lib64`. Creating any of them again changes nothing |
| Tmproot.ActionsTmprootPrepared | orchestra/actions/install.py:61-75 | On a fresh prefix the script succeeds and `lib` links to `lib64`. `share/info/dir` is a file. Every directory the script creates resolves to a directory |
| NDebug.LastOccurrence | orchestra/actions/install.py:107-108 | The greedy `.*` finds the last occurrence of the pattern after the `#if` head, or reports that there is none |
| NDebug.PatchLineNoNDEBUG | orchestra/actions/install.py:104-108 | A line that does not mention NDEBUG is left exactly as it was |
| NDebug.IfndefGuard | orchestra/actions/install.py:99-105 | `#ifndef NDEBUG` (any spacing) becomes `#if 1` when debugging is enabled and `#if 0` otherwise, with the rest of the line kept when it does not mention NDEBUG again |
| NDebug.IfdefGuard | orchestra/actions/install.py:99-106 | `#ifdef NDEBUG` becomes `#if 0` when debugging is enabled and `#if 1` otherwise, with the rest of the line kept when it does not mention NDEBUG again |
| NDebug.NotDefinedGuard | orchestra/actions/install.py:107 | On an `#if` line, `!defined(NDEBUG)` becomes the debug digit; everything before and after it is kept when neither part mentions NDEBUG again |
| NDebug.DefinedGuard | orchestra/actions/install.py:108 | On an `#if` line, a `defined(NDEBUG)` not preceded by `!` becomes the ndebug digit; everything before and after it is kept when neither part mentions NDEBUG again |
| Rpath.RpathResolvesToRoot | orchestra/actions/install.py:89 | The replacement starts with `$ORIGIN/`. Walking its relative part from the file's directory ends exactly at the prefix root |
| Rpath.FewerUpsStayBelow | orchestra/model/actions/install.py:99 | One `..` fewer than the file's depth stays strictly below the root, so the count is the least that reaches it |
| PosixPath.ParseStr | orchestra/gitutils/__init__.py:58-60 | Parsing the printed form of a valid path gives the path back |
| PosixPath.StrInjective | orchestra/gitutils/__init__.py:61 | Two valid paths compare equal exactly when they print the same |
| GitUtils.GitArgv | orchestra/gitutils/__init__.py:17-23 | The argv is `git`, then `-C <workdir>` exactly when the workdir is truthy (a non-empty `str`, or any `Path`), then the arguments in order |
| GitUtils.DecodeGitArgv | orchestra/gitutils/__init__.py:17-23 | When the arguments do not start with `-C`, the argv determines the working directory and the arguments |
| GitUtils.LsRemote | orchestra/gitutils/__init__.py:32-38 | A failed command gives the empty map; otherwise the keys are exactly the branches the pattern finds |
| GitUtils.ToMap | orchestra/gitutils/__init__.py:38 | The keys are the branches; each maps to the commit of the last pair naming it |
| GitUtils.LaterDuplicateWins | orchestra/gitutils/__init__.py:38 | A later pair for the same branch overwrites an earlier one |
| GitUtils.FindAllRender | orchestra/gitutils/__init__.py:36-38 | `findall` over `git ls-remote` output recovers every `(commit, branch)` pair, in order |
| GitUtils.LsRemoteRender | orchestra/gitutils/__init__.py:28-38 | `ls_remote` on such output maps every branch to the commit on its last line |
| GitUtils.IsRootOfGitRepo | orchestra/gitutils/__init__.py:50-52 | A missing path is `False`; a file raises; otherwise the answer is whether the directory holds a `.git` entry |
| GitUtils.RootOfRealDirectory | orchestra/gitutils/__init__.py:52 | For a real directory the answer is whether `.git` is listed, even when `.git` is a dangling link |
| GitUtils.Nearest | orchestra/gitutils/__init__.py:61-64 | Gives the longest ancestor-or-self holding `.git`, with none longer, or reports that none exists |
| GitUtils.WorktreeRootSpec | orchestra/gitutils/__init__.py:55-70 | A relative path is the assertion failure. On success the result has the path's root and is the nearest ancestor-or-self holding `.git`, with no longer ancestor holding one. The call fails exactly when no ancestor-or-self holds one |
| GitUtils.GetWorktreeRoot | orchestra/gitutils/__init__.py:55-70 | The walk upward from the path terminates and returns what `WorktreeRootSpec` describes, including the error cases |
| GitUtils.AsWrittenAgrees | orchestra/gitutils/__init__.py:59-70 | With a root of `/`, the loop as written returns the intended result within one iteration per component |
| GitUtils.DoubleSlashNeverReturns | orchestra/gitutils/__init__.py:61-64 | For `//x` outside any worktree, the loop as written never returns, where an `InternalException` is intended |

## Left out

- Running the install script, `hard-to-symbolic.py`, `elf-replace-dynstr.py`, `find`,
  `file` and `head` are external processes. Their combined effect on the staging area is
  the input `staged` of `Install.RunInstall`, and their listings are the input `Listings`.
- Install.Merge: `cp -farl` is modelled as a map overlay. Directory merging, hard links
  and the ownership and time flags are left out. Kind conflicts are not modelled: `cp`
  refuses to overwrite a directory with a non-directory, where the overlay replaces the
  entry silently; and a staged file at `a` over a root directory `a` leaves the root's
  `a/x` in place, under a file.
- `glob` traversal order is left out. A listing is any sequence, and the diff keeps its
  order.
- `get_installed_build`, `is_installed`, `global_env`, `per_action_env` and the index
  paths live in files that are not part of this model. The manifests are a map from
  component name to manifest text. The installed build is read from manifest line 1, in
  the format the engine writes.
- The Executor, the `Action` base class and the graph names (`name_for_graph`,
  `name_for_components`) are left out. Only the dependency edges and satisfaction are
  modelled.
- Install.RunInstall: the listings and the staged tree are independent inputs. That the
  post-listing names every staged entry (`Install.ListsTree`) is a hypothesis of the
  contract, not derived. `glob("**")` skips hidden names, so a staged `.name` is not
  recorded, and a later uninstall does not remove it.
- Install.IsSatisfied: only `_is_satisfied` is modelled. The `recursively` and
  `already_checked` arguments that the install-any node forwards to its build's install
  (orchestra/actions/install.py:158-159) drive the walk over dependencies in the `Action`
  base class, which is not part of this model.
- Install.RunInstall: does not model writes that fail (`open`, `makedirs` of the index
  directory), because the model has no I/O errors; its manifest map update always
  succeeds.
- Uninstall.VisitEntry: follows links only at the last path component. Symbolic links in
  intermediate directories of a listed path are not resolved, because the abstract tree
  stores whole root-relative paths.
- Uninstall.RemoveListed: in the second version, removal of a listed link to a file, and
  failure at a listed link to an empty directory, are promised only for links whose chain
  passes through unlisted paths. A chain through a listed path can change during the loop.
  `Uninstall.ListedTargetStrandsLink` shows one such link left dangling.
- Uninstall.UninstallComponent: the second version can fail half-way, exactly at a listed
  link to an empty directory, where `os.rmdir` raises. Its guarantee then covers only the
  entries before that link (files gone, directories gone exactly when empty), and it keeps
  the manifest. Success is promised for manifests that list no link; a listed link to a
  non-empty directory or to a file does not fail either, but the contract does not say so.
- Install.Reinstall: success of both runs is promised only when the root and the first
  staged tree hold no symbolic link. `hard-to-symbolic.py` does create links, and only a
  listed link to an empty directory makes a run fail, so this sufficient condition is
  narrower than the source's behaviour.
- `_replace_ndebug` is modelled per line (`NDebug.PatchLine`). Finding the headers with
  `find include/ -name "*.h"` and rewriting them in place are left out.
- NDebug.IsSedSpace: `\s` is GNU sed's C-locale class (space and `\t` to `\r`). Other
  locales may add Unicode spaces.
- GitUtils.IsWord: `\W` treats every non-ASCII character as a word character. This
  follows Python's Unicode `\w` for letters but not for Unicode punctuation.
- GitUtils.GetWorktreeRoot: `(p / ".git").exists()` is a set of directories given as
  input (`gitDirs`). A `.git` reached through links, and races with a changing tree, are
  left out.
- The `assert` of `get_worktree_root` is modelled as an error. Under `python -O` it is
  stripped, and the loop then runs on a relative path. That case is not modelled.
- `run_git` stops at the argument vector. Running the subprocess and raising on a non-zero
  exit are left out. `ls_remote` receives the command's output, or `None` when it failed.
  The SSH and askpass environment is left out.
- `current_branch_info` and `orchestra/gitutils/lfs.py` are thin wrappers around
  subprocesses and are left out.
- Tmproot: `rm -rf "$TMP_ROOT"` and `shutil.rmtree` are modelled as starting from an empty
  prefix (`Tmproot.Fresh`). A script command that fails is taken to stop the script.
  Errors from `mkdir -p` are collapsed into `FileExists`, `TooManyLinks` and
  `NotASymlink`.
- Rpath: `realpath` is applied to a path that already has no links and no `.` or `..`
  components. The real RPATH computation resolves links first.

## Findings

| source | as written | input that shows it | evidently intended | confidence | as-written member | corrected member |
|---|---|---|---|---|---|---|
| orchestra/gitutils/__init__.py:60-64 | The loop stops only when the path equals `Path("/")`. pathlib keeps a leading `//` as a separate root, and `Path("//").parent` is `Path("//")`, so the loop never reaches `Path("/")` | `get_worktree_root("//x")` with no `.git` in `/x` or `/` | Stop at the root of the given path, and raise `InternalException` when no ancestor holds `.git` | not executed | GitUtils.DoubleSlashNeverReturns | GitUtils.GetWorktreeRoot |

=== FILE: filesystem.dfy ===
/** An abstract filesystem under one prefix: a map from root-relative path (no leading `/`;
    the empty string is the prefix root itself) to the kind of node stored there. */
module FileSystem {
  import opened Wrappers

  /** A symbolic link records its target already resolved to a root-relative path. */
  datatype Node = File | Dir | Symlink(target: string)

  type Fs = map<string, Node>

  /** Linux refuses to follow more than 40 symbolic links while resolving a path (ELOOP). */
  const MaxSymlinkHops: nat := 40

  /** Index of the last `/` in `k`, or `|k|` when there is none. */
  function LastSlash(k: string): (i: nat)
    ensures i <= |k|
    ensures i < |k| ==> k[i] == '/' && forall j :: i < j < |k| ==> k[j] != '/'
    ensures i == |k| ==> forall j :: 0 <= j < |k| ==> k[j] != '/'
  {
    if |k| == 0 then 0
    else if k[|k| - 1] == '/' then |k| - 1
    else
      var i := LastSlash(k[..|k| - 1]);
      if i == |k| - 1 then |k| else i
  }

  /** The directory that holds `k`: everything before its last `/`, the root for a
      top-level entry, and the root for the root itself. */
  function Parent(k: string): (p: string)
    ensures |p| < |k| || k == []
    ensures p == [] || (|p| < |k| && k[..|p|] == p && k[|p|] == '/')
  {
    var i := LastSlash(k);
    if i < |k| then k[..i] else []
  }

  /** `os.path.join(d, c)` for a root-relative directory `d` and a single name `c`. */
  function JoinPath(d: string, c: string): string {
    if d == [] then c else d + "/" + c
  }

  /** A single path component: non-empty and free of `/`. */
  predicate IsName(c: string) {
    |c| > 0 && forall j :: 0 <= j < |c| ==> c[j] != '/'
  }

  /** Joining a name onto a directory and taking the parent gives the directory back. */
  lemma ParentOfJoin(d: string, c: string)
    requires IsName(c)
    ensures Parent(JoinPath(d, c)) == d
  {
    var k := JoinPath(d, c);
    if d == [] {
      assert LastSlash(k) == |k|;
    } else {
      assert k[|d|] == '/';
      assert forall j :: |d| < j < |k| ==> k[j] == c[j - |d| - 1];
      assert LastSlash(k) == |d|;
      assert k[..|d|] == d;
    }
  }

  /** `c` is an entry directly inside directory `d`. */
  predicate IsChildOf(c: string, d: string) {
    c != d && Parent(c) == d
  }

  /** `os.listdir(d)` is non-empty. */
  predicate HasChild(fs: Fs, d: string) {
    exists c :: c in fs && IsChildOf(c, d)
  }

  /** No path in `keys` comes after its parent directory. */
  predicate ChildrenFirst(keys: seq<string>) {
    forall i, j :: 0 <= i < j < |keys| ==> !IsChildOf(keys[j], keys[i])
  }

  /** Every entry of `small` is in `big` with the same kind. */
  predicate Submap(small: Fs, big: Fs) {
    forall k :: k in small ==> k in big && big[k] == small[k]
  }

  /** Follows symbolic links starting at `k` for at most `fuel` hops; `None` is a link
      cycle (or a chain too long to follow). The result is the first path that is not a
      symbolic link, whether or not anything is stored there. */
  function Follow(fs: Fs, k: string, fuel: nat): (r: Option<string>)
    ensures r.Some? ==> r.value !in fs || !fs[r.value].Symlink?
    ensures k !in fs || !fs[k].Symlink? ==> r == Some(k)
    decreases fuel
  {
    if k in fs && fs[k].Symlink? then
      if fuel == 0 then None else Follow(fs, fs[k].target, fuel - 1)
    else Some(k)
  }

  /** Resolution that reaches an existing node is unaffected by adding entries. */
  lemma {:induction false} FollowSubmap(small: Fs, big: Fs, k: string, fuel: nat)
    requires Submap(small, big)
    requires Follow(small, k, fuel).Some? && Follow(small, k, fuel).value in small
    ensures Follow(big, k, fuel) == Follow(small, k, fuel)
    decreases fuel
  {
    if k in small && small[k].Symlink? {
      FollowSubmap(small, big, small[k].target, fuel - 1);
    }
  }

  /** The paths the resolution of `k` passes through after `k` itself, up to and including
      the path it ends at. */
  function Hops(fs: Fs, k: string, fuel: nat): (r: set<string>)
    ensures k in fs && fs[k].Symlink? && Follow(fs, k, fuel).Some? ==> Follow(fs, k, fuel).value in r
    decreases fuel
  {
    if k in fs && fs[k].Symlink? && fuel > 0 then {fs[k].target} + Hops(fs, fs[k].target, fuel - 1)
    else {}
  }

  /** Resolution is unaffected by deleting entries off its path. */
  lemma {:induction false} FollowKept(small: Fs, big: Fs, k: string, fuel: nat)
    requires Submap(small, big) && (k in big ==> k in small)
    requires forall h :: h in Hops(big, k, fuel) && h in big ==> h in small
    ensures Follow(small, k, fuel) == Follow(big, k, fuel)
    decreases fuel
  {
    if k in big && big[k].Symlink? && fuel > 0 {
      var t := big[k].target;
      assert t in Hops(big, k, fuel);
      FollowKept(small, big, t, fuel - 1);
    }
  }

  /** The node `k` names once symbolic links are followed, if it exists. */
  function Resolve(fs: Fs, k: string): (r: Option<Node>)
    ensures r.Some? ==> !r.value.Symlink?
  {
    match Follow(fs, k, MaxSymlinkHops)
    case Some(t) => if t in fs then Some(fs[t]) else None
    case None => None
  }

  /** `os.path.exists`, `os.path.isfile` and `os.path.isdir`: they follow symbolic links. */
  predicate Exists(fs: Fs, k: string) { Resolve(fs, k).Some? }
  predicate IsFile(fs: Fs, k: string) { Resolve(fs, k) == Some(File) }
  predicate IsDir(fs: Fs, k: string) { Resolve(fs, k) == Some(Dir) }

  /** A symbolic link that leads to no file or directory: dangling, or part of a cycle. */
  predicate Dangling(fs: Fs, k: string) {
    k in fs && fs[k].Symlink? && !Exists(fs, k)
  }

  /** Deleting entries never makes a dangling link point to something again. */
  lemma DanglingStaysDangling(small: Fs, big: Fs, k: string)
    requires Submap(small, big)
    requires Dangling(big, k) && k in small
    ensures Dangling(small, k)
  {
    var r := Follow(small, k, MaxSymlinkHops);
    if r.Some? && r.value in small {
      FollowSubmap(small, big, k, MaxSymlinkHops);
    }
  }

  /** The state the install engine works on: the shared root and the per-component
      manifests (index files) that record what each installed build placed there. */
  datatype State = State(root: Fs, manifests: map<string, string>)
}

=== FILE: gitutils.dfy ===
/** `orchestra/gitutils/__init__.py`: the argument vector of `run_git`, the parser of
    `git ls-remote` output, and the two repository-root queries. Running git is outside the
    model: `ls_remote` receives the command's output (or `None` when it failed), and the
    worktree walk receives the set of directories in which `.git` exists. */
module GitUtils {
  import opened Wrappers
  import opened Text
  import opened FileSystem
  import opened PosixPath

  datatype GitError =
    | NotAbsolute                 // the `assert` on `is_absolute()`
    | NotInWorktree(path: string) // `InternalException`
    | NotADirectory(path: string) // `os.listdir` on a file

  // ---------------------------------------------------------------------------
  // run_git

  /** The `workdir` keyword: absent, a `str`, or a `Path` (which is always truthy). */
  datatype Workdir = NoWorkdir | StrDir(s: string) | PathDir(p: PurePath)

  /** The value passed after `-C`, when `workdir` is truthy. */
  function WorkdirArg(w: Workdir): (r: Option<string>)
    ensures r.Some? <==> (w.StrDir? && w.s != "") || w.PathDir?
  {
    match w
    case NoWorkdir => None
    case StrDir(s) => if s == "" then None else Some(s)
    case PathDir(p) => Some(Str(p))
  }

  /** The argument vector `run_git(*args, workdir=w)` hands to the subprocess. */
  function GitArgv(args: seq<string>, w: Workdir): (argv: seq<string>)
    ensures |argv| > |args| && argv[0] == "git"
    ensures argv[|argv| - |args|..] == args
    ensures WorkdirArg(w).Some? ==> |argv| == 3 + |args| && argv[1] == "-C" && argv[2] == WorkdirArg(w).value
    ensures WorkdirArg(w).None? ==> |argv| == 1 + |args|
  {
    match WorkdirArg(w)
    case Some(d) => ["git", "-C", d] + args
    case None => ["git"] + args
  }

  /** Reads an argument vector back into working directory and git arguments. */
  function DecodeArgv(argv: seq<string>): (Option<string>, seq<string>)
    requires |argv| > 0
  {
    if |argv| >= 3 && argv[1] == "-C" then (Some(argv[2]), argv[3..]) else (None, argv[1..])
  }

  /** The vector determines the working directory and the arguments, as long as the
      arguments do not themselves start with `-C`. */
  lemma DecodeGitArgv(args: seq<string>, w: Workdir)
    requires |args| == 0 || args[0] != "-C"
    ensures DecodeArgv(GitArgv(args, w)) == (WorkdirArg(w), args)
  {
  }

  /** Without that condition the vector is ambiguous. */
  lemma GitArgvAmbiguous(d: string, rest: seq<string>)
    requires d != ""
    ensures GitArgv(["-C", d] + rest, NoWorkdir) == GitArgv(rest, StrDir(d))
  {
  }

  // ---------------------------------------------------------------------------
  // ls_remote

  /** A `(commit, branch)` pair found by `findall`. */
  datatype Ref = Ref(commit: string, branch: string)

  /** `[a-f0-9]` */
  predicate IsHex(c: char) {
    ('0' <= c <= '9') || ('a' <= c <= 'f')
  }

  /** `\w` of a `str` pattern: ASCII letters, digits and `_`; every non-ASCII character is
      counted as a word character. */
  predicate IsWord(c: char) {
    ('a' <= c <= 'z') || ('A' <= c <= 'Z') || ('0' <= c <= '9') || c == '_' || c > '\U{7f}'
  }

  predicate AllHex(s: string) {
    forall k :: 0 <= k < |s| ==> IsHex(s[k])
  }

  /** End of the longest run of hexadecimal digits starting at `i`. */
  function HexEnd(s: string, i: nat): (j: nat)
    requires i <= |s|
    ensures i <= j <= |s|
    ensures forall k :: i <= k < j ==> IsHex(s[k])
    ensures j < |s| ==> !IsHex(s[j])
    decreases |s| - i
  {
    if i < |s| && IsHex(s[i]) then HexEnd(s, i + 1) else i
  }

  /** End of the longest run of non-word characters starting at `i`. */
  function NonWordEnd(s: string, i: nat): (j: nat)
    requires i <= |s|
    ensures i <= j <= |s|
    ensures forall k :: i <= k < j ==> !IsWord(s[k])
    ensures j < |s| ==> IsWord(s[j])
    decreases |s| - i
  {
    if i < |s| && !IsWord(s[i]) then NonWordEnd(s, i + 1) else i
  }

  /** End of `.*` starting at `i`: the next newline, or the end of the text. */
  function LineEnd(s: string, i: nat): (j: nat)
    requires i <= |s|
    ensures i <= j <= |s|
    ensures forall k :: i <= k < j ==> s[k] != '\n'
    ensures j < |s| ==> s[j] == '\n'
    decreases |s| - i
  {
    if i < |s| && s[i] != '\n' then LineEnd(s, i + 1) else i
  }

  /** `(?P<commit>[a-f0-9]*)\W*refs/heads/(?P<branch>.*)` tried at the start of `s`. Both
      starred groups are greedy, and giving characters back never helps (the literal starts
      with `r`, which is neither a hex digit nor a non-word character), so the first
      alternative the regex engine tries is the only one that can succeed. The result
      holds the captured pair and where the match ends. */
  function MatchHere(s: string): (r: Option<(Ref, nat)>)
    ensures r.Some? ==> 11 <= r.value.1 <= |s|
    ensures r.Some? ==> AllHex(r.value.0.commit) && Free(r.value.0.branch, '\n')
  {
    var h := HexEnd(s, 0);
    var w := NonWordEnd(s, h);
    if HasAt(s, w, "refs/heads/") then
      var e := LineEnd(s, w + 11);
      Some((Ref(s[..h], s[w + 11..e]), e))
    else None
  }

  /** `parse_regex.findall(s)`: matches are searched from left to right, and the search
      resumes where the previous match ended. */
  function FindAll(s: string): (r: seq<Ref>)
    ensures forall k :: 0 <= k < |r| ==> AllHex(r[k].commit) && Free(r[k].branch, '\n')
    decreases |s|
  {
    if |s| == 0 then []
    else
      match MatchHere(s)
      case Some((ref, e)) => [ref] + FindAll(s[e..])
      case None => FindAll(s[1..])
  }

  /** No later pair names the same branch as pair `k`. */
  predicate LastFor(refs: seq<Ref>, k: int)
    requires 0 <= k < |refs|
  {
    forall j :: k < j < |refs| ==> refs[j].branch != refs[k].branch
  }

  /** `{branch: commit for commit, branch in refs}` */
  function ToMap(refs: seq<Ref>): (m: map<string, string>)
    ensures m.Keys == set k | 0 <= k < |refs| :: refs[k].branch
    ensures forall k :: 0 <= k < |refs| && LastFor(refs, k) ==> m[refs[k].branch] == refs[k].commit
  {
    if |refs| == 0 then map[]
    else
      var last := refs[|refs| - 1];
      var m := ToMap(refs[..|refs| - 1]);
      assert forall k :: 0 <= k < |refs| - 1 ==> refs[..|refs| - 1][k] == refs[k];
      m[last.branch := last.commit]
  }

  /** A later pair for the same branch wins. */
  lemma LaterDuplicateWins(refs: seq<Ref>, c: string, b: string)
    ensures ToMap(refs + [Ref(c, b)])[b] == c
  {
    var all := refs + [Ref(c, b)];
    assert all[|all| - 1] == Ref(c, b);
  }

  /** `ls_remote(remote)` given the output of `git ls-remote -h --refs` (`None` when the
      command failed). */
  function LsRemote(output: Option<string>): (m: map<string, string>)
    ensures output.None? ==> m == map[]
    ensures output.Some? ==> m.Keys == set r | r in FindAll(output.value) :: r.branch
  {
    match output
    case None => map[]
    case Some(out) => ToMap(FindAll(out))
  }

  /** One line of `git ls-remote`: the commit, a tab, `refs/heads/`, the branch. */
  function RenderLine(r: Ref): string {
    r.commit + "\trefs/heads/" + r.branch + "\n"
  }

  function Render(refs: seq<Ref>): string {
    if |refs| == 0 then "" else RenderLine(refs[0]) + Render(refs[1..])
  }

  predicate WellFormed(r: Ref) {
    AllHex(r.commit) && Free(r.branch, '\n')
  }

  /** The match at the start of `s`, given the shape of `s` position by position: hex
      digits up to `h`, non-word characters up to `w`, the literal, then the branch up to
      `e`. */
  lemma MatchHereAt(s: string, h: nat, w: nat, e: nat)
    requires h <= w && w + 11 <= e <= |s|
    requires AllHex(s[..h]) && !IsHex(s[h])
    requires forall k :: h <= k < w ==> !IsWord(s[k])
    requires IsWord(s[w])
    requires s[w..w + 11] == "refs/heads/"
    requires Free(s[w + 11..e], '\n')
    requires e < |s| ==> s[e] == '\n'
    ensures MatchHere(s) == Some((Ref(s[..h], s[w + 11..e]), e))
  {
    HexRunEnds(s, h);
    LineRunEnds(s, w + 11, e);
    assert NonWordEnd(s, h) == w;
  }

  lemma HexRunEnds(s: string, h: nat)
    requires h < |s| && AllHex(s[..h]) && !IsHex(s[h])
    ensures HexEnd(s, 0) == h
  {
    forall k | 0 <= k < h ensures IsHex(s[k]) {
      assert s[k] == s[..h][k];
    }
  }

  lemma LineRunEnds(s: string, i: nat, e: nat)
    requires i <= e <= |s| && Free(s[i..e], '\n') && (e < |s| ==> s[e] == '\n')
    ensures LineEnd(s, i) == e
  {
    forall k | i <= k < e ensures s[k] != '\n' {
      assert s[k] == s[i..e][k - i];
    }
  }

  /** A rendered line followed by `rest`, grouped from the right. */
  lemma LineShape(r: Ref, rest: string)
    ensures RenderLine(r) + rest == r.commit + ("\trefs/heads/" + (r.branch + ("\n" + rest)))
  {
  }

  lemma ConcatSlices(a: string, b: string)
    ensures (a + b)[..|a|] == a && (a + b)[|a|..] == b
  {
  }

  lemma SuffixSlice(s: string, i: nat, j: nat, k: nat)
    requires i + k <= |s| && j <= k
    ensures s[i..][j..k] == s[i + j..i + k]
  {
  }

  /** The pieces of a rendered line, as slices. */
  lemma LineSlices(r: Ref, rest: string)
    ensures var s := RenderLine(r) + rest;
      var c, b := |r.commit|, |r.branch|;
      && |s| == c + 13 + b + |rest|
      && s[..c] == r.commit
      && s[c] == '\t'
      && s[c + 1..c + 12] == "refs/heads/"
      && s[c + 12..c + 12 + b] == r.branch
      && s[c + 12 + b..] == "\n" + rest
  {
    var s := RenderLine(r) + rest;
    var c, b := |r.commit|, |r.branch|;
    var u := r.branch + ("\n" + rest);
    var t := "\trefs/heads/" + u;
    LineShape(r, rest);
    ConcatSlices(r.commit, t);
    ConcatSlices("\trefs/heads/", u);
    ConcatSlices(r.branch, "\n" + rest);
    assert s[c] == t[0];
    SuffixSlice(s, c, 1, 12);
    assert t[1..12] == t[..12][1..12];
    SuffixSlice(s, c, 12, 12 + b);
    assert u[..b] == t[12..][..b] == t[12..12 + b];
    assert s[c + 12 + b..] == s[c..][12 + b..] == t[12 + b..] == t[12..][b..];
  }

  /** The regex recognises a rendered line and stops before its newline. */
  lemma MatchLine(r: Ref, rest: string)
    requires WellFormed(r)
    ensures var s := RenderLine(r) + rest;
      var e := |r.commit| + 12 + |r.branch|;
      && MatchHere(s) == Some((r, e))
      && s[e..] == "\n" + rest
  {
    LineSlices(r, rest);
    MatchSliced(RenderLine(r) + rest, r, rest);
  }

  /** The match on any text laid out as a rendered line followed by `rest`. */
  lemma MatchSliced(s: string, r: Ref, rest: string)
    requires WellFormed(r)
    requires var c, b := |r.commit|, |r.branch|;
      && |s| == c + 13 + b + |rest|
      && s[..c] == r.commit
      && s[c] == '\t'
      && s[c + 1..c + 12] == "refs/heads/"
      && s[c + 12..c + 12 + b] == r.branch
      && s[c + 12 + b..] == "\n" + rest
    ensures MatchHere(s) == Some((r, |r.commit| + 12 + |r.branch|))
  {
    var c, b := |r.commit|, |r.branch|;
    assert s[c + 1] == s[c + 1..c + 12][0];
    assert s[c + 12 + b] == s[c + 12 + b..][0];
    MatchHereAt(s, c, c + 1, c + 12 + b);
  }

  /** A line with an empty commit also matches from the newline before it. */
  lemma MatchAfterNewline(r: Ref, rest: string)
    requires WellFormed(r) && r.commit == ""
    ensures var s := "\n" + (RenderLine(r) + rest);
      var e := 13 + |r.branch|;
      && MatchHere(s) == Some((r, e))
      && s[e..] == "\n" + rest
  {
    var t := RenderLine(r) + rest;
    var s := "\n" + t;
    var b := |r.branch|;
    LineSlices(r, rest);
    assert s[2..13] == t[1..12];
    assert s[13..13 + b] == t[12..12 + b];
    assert s[13 + b..] == t[12 + b..];
    assert s[2] == s[2..13][0];
    MatchHereAt(s, 0, 2, 13 + b);
    assert s[..0] == r.commit;
  }

  /** A line with a non-empty commit does not match from the newline before it. */
  lemma NoMatchAtNewline(r: Ref, rest: string)
    requires WellFormed(r) && r.commit != ""
    ensures MatchHere("\n" + RenderLine(r) + rest) == None
  {
    var t := RenderLine(r) + rest;
    var s := "\n" + t;
    LineSlices(r, rest);
    assert s[1] == t[0] == t[..|r.commit|][0] == r.commit[0];
    assert HexEnd(s, 0) == 0;
    assert NonWordEnd(s, 0) == 1;
    assert !HasAt(s, 1, "refs/heads/") by {
      assert s[1..12][0] == s[1];
    }
    assert "\n" + RenderLine(r) + rest == s;
  }

  /** One step of `findall` on a non-empty text. */
  lemma FindAllStep(s: string)
    requires |s| > 0
    ensures MatchHere(s).Some? ==> FindAll(s) == [MatchHere(s).value.0] + FindAll(s[MatchHere(s).value.1..])
    ensures MatchHere(s).None? ==> FindAll(s) == FindAll(s[1..])
  {
  }

  /** `findall` after a match at the start: the pair, then the search from its end. */
  lemma FindAllAfterMatch(s: string, r: Ref, e: nat, t: string)
    requires |s| > 0 && MatchHere(s) == Some((r, e)) && s[e..] == t
    ensures FindAll(s) == [r] + FindAll(t)
  {
    FindAllStep(s);
  }

  /** `findall` after a failed match at the start: the search from the next position. */
  lemma FindAllAfterMiss(s: string, t: string)
    requires |s| > 0 && MatchHere(s).None? && s[1..] == t
    ensures FindAll(s) == FindAll(t)
  {
    FindAllStep(s);
  }

  /** `findall` on a rendered line followed by `rest`. */
  lemma FindAllLine(r: Ref, rest: string)
    requires WellFormed(r)
    ensures FindAll(RenderLine(r) + rest) == [r] + FindAll("\n" + rest)
  {
    MatchLine(r, rest);
    FindAllAfterMatch(RenderLine(r) + rest, r, |r.commit| + 12 + |r.branch|, "\n" + rest);
  }

  /** `findall` on a newline followed by a rendered line and `rest`. */
  lemma FindAllNewlineLine(r: Ref, rest: string)
    requires WellFormed(r)
    ensures FindAll("\n" + RenderLine(r) + rest) == [r] + FindAll("\n" + rest)
  {
    if r.commit == "" {
      FindAllNewlineEmptyCommit(r, rest);
    } else {
      FindAllNewlineCommit(r, rest);
    }
  }

  lemma FindAllNewlineEmptyCommit(r: Ref, rest: string)
    requires WellFormed(r) && r.commit == ""
    ensures FindAll("\n" + RenderLine(r) + rest) == [r] + FindAll("\n" + rest)
  {
    MatchAfterNewline(r, rest);
    PrependNewline(RenderLine(r), rest);
    FindAllAfterMatch("\n" + RenderLine(r) + rest, r, 13 + |r.branch|, "\n" + rest);
  }

  lemma DropNewline(a: string, b: string)
    ensures ("\n" + a + b)[1..] == a + b
  {
    assert ("\n" + a + b) == "\n" + (a + b);
  }

  lemma FindAllNewlineCommit(r: Ref, rest: string)
    requires WellFormed(r) && r.commit != ""
    ensures FindAll("\n" + RenderLine(r) + rest) == [r] + FindAll("\n" + rest)
  {
    var t := RenderLine(r) + rest;
    var s := "\n" + RenderLine(r) + rest;
    NoMatchAtNewline(r, rest);
    DropNewline(RenderLine(r), rest);
    FindAllAfterMiss(s, t);
    FindAllLine(r, rest);
  }

  /** A trailing newline matches nothing. */
  lemma LoneNewline()
    ensures FindAll("\n") == [] && FindAll("") == []
  {
    var s := "\n";
    assert NonWordEnd(s, 0) == 1;
    assert MatchHere(s) == None;
    FindAllStep(s);
    assert s[1..] == "";
  }

  lemma PrependNewline(a: string, b: string)
    ensures "\n" + (a + b) == "\n" + a + b
  {
  }

  /** The newline left behind by a match is skipped without producing anything. */
  lemma SkipNewline(refs: seq<Ref>)
    requires forall k :: 0 <= k < |refs| ==> WellFormed(refs[k])
    ensures FindAll("\n" + Render(refs)) == FindAll(Render(refs))
  {
    if |refs| == 0 {
      LoneNewline();
      assert Render(refs) == "";
    } else {
      var r := refs[0];
      var tail := Render(refs[1..]);
      assert Render(refs) == RenderLine(r) + tail;
      PrependNewline(RenderLine(r), tail);
      FindAllLine(r, tail);
      FindAllNewlineLine(r, tail);
    }
  }

  /** Parsing rendered output gives back exactly the rendered pairs, in order. */
  lemma {:induction false} FindAllRender(refs: seq<Ref>)
    requires forall k :: 0 <= k < |refs| ==> WellFormed(refs[k])
    ensures FindAll(Render(refs)) == refs
  {
    if |refs| > 0 {
      var r := refs[0];
      var tail := Render(refs[1..]);
      assert Render(refs) == RenderLine(r) + tail;
      FindAllLine(r, tail);
      SkipNewline(refs[1..]);
      FindAllRender(refs[1..]);
      assert refs == [r] + refs[1..];
    }
  }

  /** `ls_remote` on the output of `git ls-remote` maps every branch to the commit on its
      last line. */
  lemma LsRemoteRender(refs: seq<Ref>)
    requires forall k :: 0 <= k < |refs| ==> WellFormed(refs[k])
    ensures LsRemote(Some(Render(refs))) == ToMap(refs)
    ensures forall k :: 0 <= k < |refs| && LastFor(refs, k) ==> LsRemote(Some(Render(refs)))[refs[k].branch] == refs[k].commit
  {
    FindAllRender(refs);
  }

  // ---------------------------------------------------------------------------
  // is_root_of_git_repo

  /** `os.path.exists(path) and ".git" in os.listdir(path)`; `listdir` on a file raises. */
  function IsRootOfGitRepo(fs: Fs, k: string): (r: Result<bool, GitError>)
    ensures !Exists(fs, k) ==> r == Success(false)
    ensures r.Failure? <==> IsFile(fs, k)
    ensures r == Success(true) <==>
      IsDir(fs, k) && JoinPath(Follow(fs, k, MaxSymlinkHops).value, ".git") in fs
  {
    if !Exists(fs, k) then Success(false)
    else
      var t := Follow(fs, k, MaxSymlinkHops).value;
      if fs[t].Dir? then Success(JoinPath(t, ".git") in fs) else Failure(NotADirectory(k))
  }

  /** For a real directory, the answer is whether a `.git` entry sits directly in it;
      `listdir` also lists a dangling `.git` link, which `exists` would reject. */
  lemma RootOfRealDirectory(fs: Fs, k: string)
    requires k in fs && fs[k].Dir?
    ensures IsRootOfGitRepo(fs, k) == Success(JoinPath(k, ".git") in fs)
    ensures Dangling(fs, JoinPath(k, ".git")) ==>
      IsRootOfGitRepo(fs, k) == Success(true) && !Exists(fs, JoinPath(k, ".git"))
  {
  }

  // ---------------------------------------------------------------------------
  // get_worktree_root

  /** The largest `n <= m` such that the first `n` components name a directory holding
      `.git`: the nearest ancestor-or-self of `parts[..m]` inside a worktree. */
  function Nearest(gitDirs: set<seq<string>>, parts: seq<string>, m: nat): (r: Option<nat>)
    requires m <= |parts|
    ensures r.Some? ==> r.value <= m && parts[..r.value] in gitDirs
    ensures r.Some? ==> forall n :: r.value < n <= m ==> parts[..n] !in gitDirs
    ensures r.None? ==> forall n :: 0 <= n <= m ==> parts[..n] !in gitDirs
    decreases m
  {
    if parts[..m] in gitDirs then Some(m)
    else if m == 0 then None
    else Nearest(gitDirs, parts, m - 1)
  }

  /** What `get_worktree_root` is meant to return: the nearest ancestor-or-self holding
      `.git`, an error for a relative path, and an error naming the root otherwise. */
  function WorktreeRootSpec(gitDirs: set<seq<string>>, path: string): (r: Result<PurePath, GitError>)
    ensures r == Failure(NotAbsolute) <==> !IsAbsolute(Parse(path))
    ensures r.Success? ==>
      var p := Parse(path);
      && r.value.root == p.root
      && r.value.parts <= p.parts
      && r.value.parts in gitDirs
      && forall n :: |r.value.parts| < n <= |p.parts| ==> p.parts[..n] !in gitDirs
    ensures IsAbsolute(Parse(path)) ==>
      (r.Success? <==> exists n :: 0 <= n <= |Parse(path).parts| && Parse(path).parts[..n] in gitDirs)
  {
    var p := Parse(path);
    if !IsAbsolute(p) then Failure(NotAbsolute)
    else
      match Nearest(gitDirs, p.parts, |p.parts|)
      case Some(n) => Success(PurePath(p.root, p.parts[..n]))
      case None => Failure(NotInWorktree(p.root))
  }

  /** The walk of `get_worktree_root`, with the loop stopping at a bare root (a path that
      is its own parent) rather than only at `Path("/")`. */
  method GetWorktreeRoot(gitDirs: set<seq<string>>, path: string) returns (r: Result<PurePath, GitError>)
    ensures r == WorktreeRootSpec(gitDirs, path)
  {
    var p := Parse(path);
    if !IsAbsolute(p) {
      return Failure(NotAbsolute);
    }
    var cur := p;
    assert p.parts[..|p.parts|] == p.parts;
    while |cur.parts| > 0
      invariant WalkInvariant(gitDirs, p, cur)
      decreases |cur.parts|
    {
      if cur.parts in gitDirs {
        WalkFound(gitDirs, path, cur);
        return Success(cur);
      }
      WalkStep(gitDirs, p, cur);
      cur := ParentOf(cur);
    }
    if cur.parts in gitDirs {
      WalkFound(gitDirs, path, cur);
      return Success(cur);
    }
    WalkExhausted(gitDirs, path, cur);
    r := Failure(NotInWorktree(Str(cur)));
  }

  /** The walk's current path is an ancestor-or-self of `p` with the same root, and the
      nearest `.git` holder at or above it is the nearest one at or above `p`. */
  predicate WalkInvariant(gitDirs: set<seq<string>>, p: PurePath, cur: PurePath) {
    && cur.root == p.root
    && |cur.parts| <= |p.parts|
    && cur.parts == p.parts[..|cur.parts|]
    && Nearest(gitDirs, p.parts, |p.parts|) == Nearest(gitDirs, p.parts, |cur.parts|)
  }

  /** Moving to the parent of a path without `.git` keeps the walk's invariant. */
  lemma WalkStep(gitDirs: set<seq<string>>, p: PurePath, cur: PurePath)
    requires WalkInvariant(gitDirs, p, cur)
    requires |cur.parts| > 0 && cur.parts !in gitDirs
    ensures WalkInvariant(gitDirs, p, ParentOf(cur))
  {
    var m := |cur.parts|;
    assert ParentOf(cur).parts == p.parts[..m - 1];
  }

  /** A walk that meets `.git` has found the intended worktree root. */
  lemma WalkFound(gitDirs: set<seq<string>>, path: string, cur: PurePath)
    requires IsAbsolute(Parse(path))
    requires WalkInvariant(gitDirs, Parse(path), cur)
    requires cur.parts in gitDirs
    ensures WorktreeRootSpec(gitDirs, path) == Success(cur)
  {
    var p := Parse(path);
    assert Nearest(gitDirs, p.parts, |cur.parts|) == Some(|cur.parts|);
  }

  /** A walk that reaches the bare root without meeting `.git` fails naming the root. */
  lemma WalkExhausted(gitDirs: set<seq<string>>, path: string, cur: PurePath)
    requires IsAbsolute(Parse(path))
    requires WalkInvariant(gitDirs, Parse(path), cur)
    requires |cur.parts| == 0 && cur.parts !in gitDirs
    ensures WorktreeRootSpec(gitDirs, path) == Failure(NotInWorktree(Str(cur)))
  {
    var p := Parse(path);
    assert p.parts[..0] == cur.parts;
    assert Nearest(gitDirs, p.parts, 0) == None;
    assert Str(cur) == p.root;
  }

  /** The loop as written: it stops only when the path equals `Path("/")`, checks `/`
      after the loop, and is given `fuel` iterations; `None` means the fuel ran out. */
  function AsWrittenWalk(gitDirs: set<seq<string>>, cur: PurePath, fuel: nat): Option<Result<PurePath, GitError>>
    decreases fuel
  {
    if cur == PurePath("/", []) then
      Some(if cur.parts in gitDirs then Success(cur) else Failure(NotInWorktree(Str(cur))))
    else if fuel == 0 then None
    else if cur.parts in gitDirs then Some(Success(cur))
    else AsWrittenWalk(gitDirs, ParentOf(cur), fuel - 1)
  }

  function GetWorktreeRootAsWritten(gitDirs: set<seq<string>>, path: string, fuel: nat): Option<Result<PurePath, GitError>> {
    var p := Parse(path);
    if !IsAbsolute(p) then Some(Failure(NotAbsolute)) else AsWrittenWalk(gitDirs, p, fuel)
  }

  /** From `parts[..m]` the loop as written ends as intended whenever the root is `/`, or
      an ancestor holds `.git`. */
  lemma {:induction false} AsWrittenWalkFrom(gitDirs: set<seq<string>>, root: string, parts: seq<string>, m: nat, fuel: nat)
    requires root == "/" || root == "//"
    requires m <= |parts| && fuel > m
    requires root == "/" || Nearest(gitDirs, parts, m).Some?
    ensures AsWrittenWalk(gitDirs, PurePath(root, parts[..m]), fuel) ==
      match Nearest(gitDirs, parts, m)
      case Some(n) => Some(Success(PurePath(root, parts[..n])))
      case None => Some(Failure(NotInWorktree(root)))
    decreases m
  {
    var cur := PurePath(root, parts[..m]);
    if m == 0 {
      assert parts[..0] == [];
      assert Str(PurePath("/", [])) == "/";
    } else if parts[..m] !in gitDirs {
      assert ParentOf(cur) == PurePath(root, parts[..m - 1]);
      AsWrittenWalkFrom(gitDirs, root, parts, m - 1, fuel - 1);
    }
  }

  /** On every path whose root is `/`, the loop as written agrees with the intended result
      once it has one iteration per component. */
  lemma AsWrittenAgrees(gitDirs: set<seq<string>>, path: string, fuel: nat)
    requires RootOf(path) != "//" && fuel > |Parse(path).parts|
    ensures GetWorktreeRootAsWritten(gitDirs, path, fuel) == Some(WorktreeRootSpec(gitDirs, path))
  {
    var p := Parse(path);
    if IsAbsolute(p) {
      assert p.parts[..|p.parts|] == p.parts;
      AsWrittenWalkFrom(gitDirs, p.root, p.parts, |p.parts|, fuel);
    }
  }

  /** A path that starts with exactly two slashes and has no `.git` on the way up never
      reaches `Path("/")`: `Path("//").parent` is `Path("//")`. */
  lemma {:induction false} AsWrittenWalkHangs(gitDirs: set<seq<string>>, parts: seq<string>, m: nat, fuel: nat)
    requires m <= |parts|
    requires Nearest(gitDirs, parts, m).None?
    ensures AsWrittenWalk(gitDirs, PurePath("//", parts[..m]), fuel) == None
    decreases fuel
  {
    var cur := PurePath("//", parts[..m]);
    if fuel > 0 {
      if m == 0 {
        assert ParentOf(cur) == cur;
        AsWrittenWalkHangs(gitDirs, parts, 0, fuel - 1);
      } else {
        assert ParentOf(cur) == PurePath("//", parts[..m - 1]);
        AsWrittenWalkHangs(gitDirs, parts, m - 1, fuel - 1);
      }
    }
  }

  /** `get_worktree_root("//x")` outside any worktree runs out of every amount of fuel,
      where the intended result is an `InternalException`. */
  lemma DoubleSlashNeverReturns(gitDirs: set<seq<string>>, fuel: nat)
    requires forall n :: 0 <= n <= 1 ==> ["x"][..n] !in gitDirs
    ensures GetWorktreeRootAsWritten(gitDirs, "//x", fuel) == None
    ensures WorktreeRootSpec(gitDirs, "//x") == Failure(NotInWorktree("//"))
  {
    ParseDoubleSlash();
    assert ["x"][..1] == ["x"];
    assert Nearest(gitDirs, ["x"], 1) == None;
    AsWrittenWalkHangs(gitDirs, ["x"], 1, fuel);
  }

  /** `PurePosixPath("//x")` keeps `//` as its root. */
  lemma ParseDoubleSlash()
    ensures Parse("//x") == PurePath("//", ["x"])
  {
    DoubleSlashRoot();
    DoubleSlashStripped();
    SplitSingle();
    KeepSingle();
  }

  lemma DoubleSlashRoot()
    ensures RootOf("//x") == "//"
  {
    assert "//x"[2] == 'x';
  }

  lemma DoubleSlashStripped()
    ensures LStrip("//x", '/') == "x"
  {
    assert "//x"[1..] == "/x";
    assert "/x"[1..] == "x";
  }

  lemma SplitSingle()
    ensures Split("x", '/') == ["x"]
  {
    assert IndexOf("x", '/') == 1;
  }

  lemma KeepSingle()
    ensures Keep(["x"]) == ["x"]
  {
    assert ["x"][1..] == [];
    assert Keep(["x"]) == ["x"] + Keep([]);
  }
}

=== FILE: install.dfy ===
/** The bookkeeping of `InstallAction` and `InstallAnyBuildAction`: which paths a run
    records, how the manifest is written and read, when the previous build is removed,
    what the install environment is, and how satisfaction and dependencies are derived. */
module Install {
  import opened Wrappers
  import opened Text
  import opened FileSystem
  import opened Manifest
  import opened Uninstall

  /** One build of a component; its qualified name is `component~name`. */
  datatype Build = Build(component: string, name: string)

  /** A component and the names of its builds. */
  datatype Component = Component(name: string, builds: set<string>)

  /** `_index_directory(..., strip_prefix)`: every listed path with the staging prefix
      cut off; a path outside the prefix is kept as it was listed. */
  function StripListing(paths: seq<string>, prefix: string): (r: seq<string>)
    ensures |r| == |paths|
    ensures forall i :: 0 <= i < |paths| && StartsWith(paths[i], prefix) ==> prefix + r[i] == paths[i]
    ensures forall i :: 0 <= i < |paths| && !StartsWith(paths[i], prefix) ==> r[i] == paths[i]
  {
    seq(|paths|, i requires 0 <= i < |paths| => RemovePrefix(paths[i], prefix))
  }

  /** `[f for f in post if f not in pre]` */
  function NewFiles(post: seq<string>, pre: seq<string>): (r: seq<string>)
    ensures forall f :: f in r <==> f in post && f !in pre
    ensures |r| <= |post|
  {
    if |post| == 0 then []
    else (if post[0] in pre then [] else [post[0]]) + NewFiles(post[1..], pre)
  }

  /** The diff keeps the listing's order: it distributes over concatenation. */
  lemma {:induction false} NewFilesAppend(a: seq<string>, b: seq<string>, pre: seq<string>)
    ensures NewFiles(a + b, pre) == NewFiles(a, pre) + NewFiles(b, pre)
    decreases |a|
  {
    if |a| > 0 {
      var h := if a[0] in pre then [] else [a[0]];
      NewFilesCons(a, b, pre);
      NewFilesAppend(a[1..], b, pre);
      Reassociate(h, NewFiles(a[1..], pre), NewFiles(b, pre));
    } else {
      assert a + b == b;
    }
  }

  /** The diff of a listing with a head `a[0]` starts with that head, unless it pre-existed. */
  lemma NewFilesCons(a: seq<string>, b: seq<string>, pre: seq<string>)
    requires |a| > 0
    ensures NewFiles(a + b, pre) == (if a[0] in pre then [] else [a[0]]) + NewFiles(a[1..] + b, pre)
  {
    assert (a + b)[0] == a[0] && (a + b)[1..] == a[1..] + b;
  }

  lemma Reassociate(x: seq<string>, y: seq<string>, z: seq<string>)
    ensures x + (y + z) == (x + y) + z
  {
  }

  /** A listing without repetitions gives a diff without repetitions. */
  lemma {:induction false} NewFilesDistinct(post: seq<string>, pre: seq<string>)
    requires forall i, j :: 0 <= i < j < |post| ==> post[i] != post[j]
    ensures forall i, j :: 0 <= i < j < |NewFiles(post, pre)| ==> NewFiles(post, pre)[i] != NewFiles(post, pre)[j]
    decreases |post|
  {
    if |post| > 0 {
      NewFilesDistinct(post[1..], pre);
      assert post[0] !in post[1..];
      assert post[0] !in NewFiles(post[1..], pre);
    }
  }

  /** The three listings a run takes of the staging area. */
  datatype Listings = Listings(
    pre: seq<string>,              // after the staging area is prepared
    afterScript: seq<string>,      // right after the install script
    afterPostprocess: seq<string>) // after the hardlink, RPATH and NDEBUG passes

  /** The paths a run records: the newer listing minus the one taken before the script.
      The first version lists after post-processing, the second right after the script. */
  function RecordedPaths(v: Variant, l: Listings, prefix: string): (r: seq<string>)
    ensures forall f :: f in r ==> f !in StripListing(l.pre, prefix)
    ensures v == RegularFilesOnly ==> forall f :: f in r <==> f in StripListing(l.afterScript, prefix) && f !in StripListing(l.pre, prefix)
    ensures v == FilesAndLinks ==> forall f :: f in r <==> f in StripListing(l.afterPostprocess, prefix) && f !in StripListing(l.pre, prefix)
  {
    NewFiles(StripListing(PostListing(v, l), prefix), StripListing(l.pre, prefix))
  }

  /** The listing a version diffs against the one taken before the script. */
  function PostListing(v: Variant, l: Listings): seq<string> {
    if v == FilesAndLinks then l.afterPostprocess else l.afterScript
  }

  /** A listing that names every entry of the staged tree below its root as `/<path>`,
      as `glob("**")` does for a tree without hidden names. */
  predicate ListsTree(listing: seq<string>, staged: Fs) {
    forall k :: k in staged && k != "" ==> "/" + k in listing
  }

  /** In the second version what post-processing adds or renames never reaches the
      manifest. */
  lemma RecordedIgnoresPostprocess(l1: Listings, l2: Listings, prefix: string)
    requires l1.pre == l2.pre && l1.afterScript == l2.afterScript
    ensures RecordedPaths(RegularFilesOnly, l1, prefix) == RecordedPaths(RegularFilesOnly, l2, prefix)
  {
  }

  /** The `environment` property: the per-action environment with `DESTDIR` set to
      `TMP_ROOT`; a missing `TMP_ROOT` raises `KeyError`. */
  function InstallEnvironment(env: map<string, string>): (r: Result<map<string, string>, string>)
    ensures "TMP_ROOT" !in env ==> r == Failure("TMP_ROOT")
    ensures "TMP_ROOT" in env ==>
      && r.Success?
      && r.value.Keys == env.Keys + {"DESTDIR"}
      && r.value["DESTDIR"] == env["TMP_ROOT"]
      && forall k :: k in env && k != "DESTDIR" ==> r.value[k] == env[k]
  {
    if "TMP_ROOT" in env then Success(env["DESTDIR" := env["TMP_ROOT"]]) else Failure("TMP_ROOT")
  }

  /** Applying the overlay twice is the same as once. */
  lemma InstallEnvironmentIdempotent(env: map<string, string>)
    requires "TMP_ROOT" in env
    ensures InstallEnvironment(InstallEnvironment(env).value) == InstallEnvironment(env)
  {
    var e := InstallEnvironment(env).value;
    assert e["DESTDIR" := e["TMP_ROOT"]] == e;
  }

  /** `get_installed_build(component)`: the build recorded on line 1 of the component's
      manifest, or `None` when there is no manifest. */
  function InstalledBuild(manifests: map<string, string>, component: string): (r: Option<string>)
    ensures r.None? <==> component !in manifests
  {
    if component in manifests
    then Some(RemovePrefix(FirstLine(manifests[component]), component + "~"))
    else None
  }

  /** `is_installed(component, wanted_build=build)`: the manifest records exactly this
      qualified build. */
  predicate IsInstalled(manifests: map<string, string>, component: string, build: string) {
    component in manifests && FirstLine(manifests[component]) == QualifiedName(component, build)
  }

  /** For a manifest whose line 1 names a build of this component, the two queries agree. */
  lemma InstalledQueriesAgree(manifests: map<string, string>, component: string, build: string)
    requires component in manifests && StartsWith(FirstLine(manifests[component]), component + "~")
    ensures IsInstalled(manifests, component, build) <==> InstalledBuild(manifests, component) == Some(build)
  {
    var line := FirstLine(manifests[component]);
    var p := component + "~";
    var rest := RemovePrefix(line, p);
    assert p + rest == line;
    if line == QualifiedName(component, build) {
      assert line[|p|..] == build;
    }
  }

  /** No path the component's manifest lists is a symbolic link in the root, so the
      uninstall of its build cannot fail. */
  ghost predicate CleanUninstall(st: State, component: string) {
    component in st.manifests ==> NoListedLink(VisitOrder(st.manifests[component]), st.root)
  }

  /** No entry of `fs` is a symbolic link. */
  predicate NoLinks(fs: Fs) {
    forall q :: q in fs ==> !fs[q].Symlink?
  }

  /** `_uninstall_currently_installed_build`: uninstall only when some build of the
      component is installed; otherwise nothing happens. */
  method UninstallCurrent(v: Variant, st: State, component: string) returns (st': State, err: Option<UninstallError>)
    ensures component !in st.manifests ==> st' == st && err.None?
    ensures Submap(st'.root, st.root)
    ensures err.Some? ==> st'.manifests == st.manifests && v == RegularFilesOnly
    ensures err.None? ==> st'.manifests == st.manifests - {component}
    ensures component in st.manifests ==>
      var keys := VisitOrder(st.manifests[component]);
      && Submap(st'.root, st.root)
      && (forall q :: q in st.root && q !in keys ==> q in st'.root)
      && (err.None? ==> st'.manifests == st.manifests - {component})
      && (err.Some? ==> st'.manifests == st.manifests && v == RegularFilesOnly)
      && ListedRemoved(v, keys, st.root, st'.root, err.None?)
    ensures v == FilesAndLinks ==> err.None?
    ensures err.Some? ==> component in st.manifests && StoppedAt(VisitOrder(st.manifests[component]), st.root, st'.root, err.value)
  {
    if InstalledBuild(st.manifests, component).None? {
      return st, None;
    }
    st', err := UninstallComponent(v, st, component);
  }

  /** `cp -farl "$TMP_ROOT/$ORCHESTRA_ROOT/." "$ORCHESTRA_ROOT"`, seen as its effect on the
      tree: every staged entry replaces whatever the shared root held at that path. */
  function Merge(root: Fs, staged: Fs): (r: Fs)
    ensures forall q :: q in r <==> q in root || q in staged
    ensures forall q :: q in staged ==> r[q] == staged[q]
    ensures forall q :: q in root && q !in staged ==> r[q] == root[q]
  {
    root + staged
  }

  /** The kinds of entry uninstall deletes outright: anything but a directory in the first
      version, a regular file in the second. */
  predicate RemovedKind(v: Variant, n: Node) {
    if v == FilesAndLinks then !n.Dir? else n.File?
  }

  /** How an install run fails: `args.no_merge` on a missing `args` (`AttributeError`),
      or the uninstall of the previous build. */
  datatype InstallError =
    | NoArguments
    | Uninstalling(cause: UninstallError)

  /** Whether a run gets past the listings to uninstall, merge and record: always in the
      second version, and in the first when `args` is given with `no_merge` off. */
  predicate Merges(v: Variant, args: Option<bool>) {
    v == RegularFilesOnly || args == Some(false)
  }

  /** `InstallAction._run` from the listings on: record the new paths, remove the
      previous installation, merge, write the manifest. In the first version `args` is the
      command-line namespace (`None` when absent) holding `no_merge`; the second version's
      `perform_merge` parameter is never read, so it always merges. The tree the script and
      the post-processing passes leave in the staging area is `staged`. */
  method RunInstall(v: Variant, st: State, b: Build, l: Listings, staged: Fs, prefix: string, args: Option<bool>)
    returns (st': State, err: Option<InstallError>)
    // the first version reads `args.no_merge` before touching the shared root or the manifests
    ensures v == FilesAndLinks && args.None? ==> st' == st && err == Some(NoArguments)
    ensures v == FilesAndLinks && args == Some(true) ==> st' == st && err.None?
    ensures v == FilesAndLinks ==> (err.None? <==> args.Some?)
    ensures v == RegularFilesOnly ==> err.None? || err.value.Uninstalling?
    ensures err.Some? ==> st'.manifests == st.manifests
    // uninstalling the previous build fails only at a listed link to an empty directory
    ensures Merges(v, args) && CleanUninstall(st, b.component) ==> err.None?
    ensures err.Some? && err.value.Uninstalling? ==>
      b.component in st.manifests && StoppedAt(VisitOrder(st.manifests[b.component]), st.root, st'.root, err.value.cause)
    // other components' manifests are untouched, and this one is (re)written
    ensures err.None? && Merges(v, args) ==>
      && b.component in st'.manifests
      && forall c :: c in st.manifests && c != b.component ==> c in st'.manifests && st'.manifests[c] == st.manifests[c]
    ensures err.None? && Merges(v, args) && NoLineBreak(QualifiedName(b.component, b.name))
      && (forall i :: 0 <= i < |RecordedPaths(v, l, prefix)| ==> Recordable(RecordedPaths(v, l, prefix)[i]))
      ==> IsInstalled(st'.manifests, b.component, b.name) && ReadPaths(st'.manifests[b.component]) == RecordedPaths(v, l, prefix)
    // the staged tree lands on the root, and nothing else appears
    ensures err.None? && Merges(v, args) ==>
      && (forall q :: q in staged ==> q in st'.root && st'.root[q] == staged[q])
      && (forall q :: q in st'.root ==> q in staged || q in st.root)
      && (forall q :: q in st'.root && q !in staged ==> st'.root[q] == st.root[q])
    ensures err.None? && Merges(v, args) && b.component !in st.manifests ==> st'.root == Merge(st.root, staged)
    // the previous build's listed files are gone unless staged again, its unlisted paths stay
    ensures err.None? && Merges(v, args) && b.component in st.manifests ==>
      var keys := VisitOrder(st.manifests[b.component]);
      && (forall q :: q in st.root && q !in keys ==> q in st'.root)
      && (forall q :: q in keys && q in st.root && q !in staged && RemovedKind(v, st.root[q]) ==> q !in st'.root)
      && (ChildrenFirst(keys) && ClosedTree(st.root, keys) ==> forall q :: q in keys && q !in staged ==> q !in st'.root)
    // a later uninstall visits exactly the recorded paths, children first, and so every new
    // staged path when the post-listing names the staged tree
    ensures err.None? && Merges(v, args) && NoLineBreak(QualifiedName(b.component, b.name))
      && (forall i :: 0 <= i < |RecordedPaths(v, l, prefix)| ==> EnginePath(RecordedPaths(v, l, prefix)[i]))
      ==> RecordsStaged(v, l, prefix, staged, st'.manifests[b.component])
  {
    var recorded := RecordedPaths(v, l, prefix);
    if v == FilesAndLinks {
      if args.None? {
        return st, Some(NoArguments);
      }
      if args.value {
        return st, None;
      }
    }
    var e;
    st', e := ReplaceBuild(v, st, b, recorded, staged);
    if e.Some? {
      return st', Some(Uninstalling(e.value));
    }
    err := None;
    var q := QualifiedName(b.component, b.name);
    if NoLineBreak(q) && forall i :: 0 <= i < |recorded| ==> EnginePath(recorded[i]) {
      RenderedRecord(v, l, prefix, staged, q);
    }
  }

  /** The merging half of `_run`: uninstall the build recorded for the component, copy
      the staged tree over the root, and write a manifest naming `b` and `recorded`. */
  method ReplaceBuild(v: Variant, st: State, b: Build, recorded: seq<string>, staged: Fs)
    returns (st': State, err: Option<UninstallError>)
    ensures v == FilesAndLinks ==> err.None?
    ensures CleanUninstall(st, b.component) ==> err.None?
    ensures err.Some? ==> st'.manifests == st.manifests
    ensures err.Some? ==> b.component in st.manifests && StoppedAt(VisitOrder(st.manifests[b.component]), st.root, st'.root, err.value)
    ensures err.None? ==>
      && b.component in st'.manifests
      && st'.manifests[b.component] == Render(QualifiedName(b.component, b.name), recorded)
      && forall c :: c in st.manifests && c != b.component ==> c in st'.manifests && st'.manifests[c] == st.manifests[c]
    ensures err.None? && NoLineBreak(QualifiedName(b.component, b.name)) && (forall i :: 0 <= i < |recorded| ==> Recordable(recorded[i]))
      ==> IsInstalled(st'.manifests, b.component, b.name) && ReadPaths(st'.manifests[b.component]) == recorded
    ensures err.None? ==>
      && (forall q :: q in staged ==> q in st'.root && st'.root[q] == staged[q])
      && (forall q :: q in st'.root ==> q in staged || q in st.root)
      && (forall q :: q in st'.root && q !in staged ==> st'.root[q] == st.root[q])
    ensures err.None? && b.component !in st.manifests ==> st'.root == Merge(st.root, staged)
    ensures err.None? && b.component in st.manifests ==>
      var keys := VisitOrder(st.manifests[b.component]);
      && (forall q :: q in st.root && q !in keys ==> q in st'.root)
      && (forall q :: q in keys && q in st.root && q !in staged && RemovedKind(v, st.root[q]) ==> q !in st'.root)
      && (ChildrenFirst(keys) && ClosedTree(st.root, keys) ==> forall q :: q in keys && q !in staged ==> q !in st'.root)
  {
    var mid, e := UninstallCurrent(v, st, b.component);
    if e.Some? {
      StopNamesLink(VisitOrder(st.manifests[b.component]), st.root, mid.root, e.value);
      return mid, e;
    }
    var q := QualifiedName(b.component, b.name);
    if b.component in st.manifests {
      MergeAfterUninstall(v, st.root, mid.root, staged, VisitOrder(st.manifests[b.component]));
    }
    OthersKept(st.manifests, mid.manifests, b.component, Render(q, recorded));
    st' := State(Merge(mid.root, staged), mid.manifests[b.component := Render(q, recorded)]);
    err := None;
    if NoLineBreak(q) && forall i :: 0 <= i < |recorded| ==> Recordable(recorded[i]) {
      FirstLineOfRender(q, recorded);
      ReadPathsOfRender(q, recorded);
    }
  }

  /** Dropping and then rewriting one component's manifest keeps every other one. */
  lemma OthersKept(m0: map<string, string>, mid: map<string, string>, component: string, text: string)
    requires mid == m0 || mid == m0 - {component}
    ensures forall c :: c in m0 && c != component ==> c in mid[component := text] && mid[component := text][c] == m0[c]
  {
  }

  /** What a later uninstall of a manifest `text` visits: exactly the recorded paths,
      children first, and so every staged path the run added when the post-listing names
      the staged tree. */
  ghost predicate RecordsStaged(v: Variant, l: Listings, prefix: string, staged: Fs, text: string) {
    var keys := VisitOrder(text);
    && (forall k :: k in keys <==> "/" + k in RecordedPaths(v, l, prefix))
    && ChildrenFirst(keys)
    && (ListsTree(StripListing(PostListing(v, l), prefix), staged) ==>
          forall k :: k in staged && k != "" && "/" + k !in StripListing(l.pre, prefix) ==> k in keys)
  }

  /** The manifest a run writes for `/`-prefixed clean paths records what it staged. */
  lemma RenderedRecord(v: Variant, l: Listings, prefix: string, staged: Fs, q: string)
    requires NoLineBreak(q)
    requires forall i :: 0 <= i < |RecordedPaths(v, l, prefix)| ==> EnginePath(RecordedPaths(v, l, prefix)[i])
    ensures RecordsStaged(v, l, prefix, staged, Render(q, RecordedPaths(v, l, prefix)))
  {
    var recorded := RecordedPaths(v, l, prefix);
    RenderedKeys(q, recorded);
    RenderedVisitOrder(q, recorded);
    RecordedMembership(v, l, prefix);
    StagedKeys(VisitOrder(Render(q, recorded)), recorded, StripListing(PostListing(v, l), prefix),
      StripListing(l.pre, prefix), staged);
  }

  /** A path is recorded exactly when the post-listing has it and the first listing not. */
  lemma RecordedMembership(v: Variant, l: Listings, prefix: string)
    ensures forall f :: f in RecordedPaths(v, l, prefix) <==>
      f in StripListing(PostListing(v, l), prefix) && f !in StripListing(l.pre, prefix)
  {
  }

  /** Keys that are the recorded paths without `/` cover every new entry of a listed tree. */
  lemma StagedKeys(keys: seq<string>, recorded: seq<string>, post: seq<string>, pre: seq<string>, staged: Fs)
    requires forall k :: k in keys <==> "/" + k in recorded
    requires forall f :: f in recorded <==> f in post && f !in pre
    ensures ListsTree(post, staged) ==> forall k :: k in staged && k != "" && "/" + k !in pre ==> k in keys
  {
  }

  /** Merging the staged tree over what the uninstall of the previous build left: the
      staged entries win, unlisted paths stay, and the previous build's deleted entries are
      back only where the staged tree has them. */
  lemma MergeAfterUninstall(v: Variant, root0: Fs, mid: Fs, staged: Fs, keys: seq<string>)
    requires Submap(mid, root0)
    requires forall q :: q in root0 && q !in keys ==> q in mid
    requires ListedRemoved(v, keys, root0, mid, true)
    ensures forall q :: q in root0 && q !in keys ==> q in Merge(mid, staged)
    ensures forall q :: q in Merge(mid, staged) ==> q in staged || q in root0
    ensures forall q :: q in keys && q in root0 && q !in staged && RemovedKind(v, root0[q]) ==> q !in Merge(mid, staged)
    ensures ChildrenFirst(keys) && ClosedTree(root0, keys) ==>
      forall q :: q in keys && q !in staged ==> q !in Merge(mid, staged)
  {
  }

  /** Installing `b1` and then `b2` of the same component: no file `b1` added survives
      unless `b2` stages it again, and the manifest records `b2` alone. */
  method Reinstall(v: Variant, st: State, b1: Build, l1: Listings, staged1: Fs,
                   b2: Build, l2: Listings, staged2: Fs, prefix: string, args: Option<bool>)
    returns (st2: State, err: Option<InstallError>)
    requires b1.component == b2.component
    // with no symbolic links in the root or the first staged tree, neither uninstall fails
    ensures Merges(v, args) && NoLinks(st.root) && NoLinks(staged1) ==> err.None?
    ensures err.None? && Merges(v, args) && NoLineBreak(QualifiedName(b1.component, b1.name))
      && (forall i :: 0 <= i < |RecordedPaths(v, l1, prefix)| ==> EnginePath(RecordedPaths(v, l1, prefix)[i]))
      && ListsTree(StripListing(PostListing(v, l1), prefix), staged1)
      ==> forall k :: k in staged1 && k != "" && "/" + k !in StripListing(l1.pre, prefix) && k !in staged2
            && RemovedKind(v, staged1[k])
            ==> k !in st2.root
    ensures err.None? && Merges(v, args) && NoLineBreak(QualifiedName(b2.component, b2.name))
      && (forall i :: 0 <= i < |RecordedPaths(v, l2, prefix)| ==> Recordable(RecordedPaths(v, l2, prefix)[i]))
      ==> IsInstalled(st2.manifests, b2.component, b2.name) && ReadPaths(st2.manifests[b2.component]) == RecordedPaths(v, l2, prefix)
  {
    var st1, e1 := RunInstall(v, st, b1, l1, staged1, prefix, args);
    if e1.Some? {
      return st1, e1;
    }
    if Merges(v, args) && NoLinks(st.root) && NoLinks(staged1) {
      MergedNoLinks(st.root, staged1, st1.root);
      NoLinksClean(st1, b2.component);
    }
    st2, err := RunInstall(v, st1, b2, l2, staged2, prefix, args);
  }

  /** A merge of two link-free trees is link-free. */
  lemma MergedNoLinks(root0: Fs, staged: Fs, root: Fs)
    requires NoLinks(root0) && NoLinks(staged)
    requires forall q :: q in staged ==> q in root && root[q] == staged[q]
    requires forall q :: q in root ==> q in staged || q in root0
    requires forall q :: q in root && q !in staged ==> root[q] == root0[q]
    ensures NoLinks(root)
  {
  }

  /** A link-free root has no listed link for any component. */
  lemma NoLinksClean(st: State, component: string)
    requires NoLinks(st.root)
    ensures CleanUninstall(st, component)
  {
  }

  /** The kinds of action this model knows about. Configure actions appear only as the
      target of a dependency. */
  datatype Action =
    | ConfigureAction(build: Build)
    | InstallAction(build: Build)
    | InstallAnyBuildAction(build: Build, original: Build)  // `build` is the chosen one

  /** `_implicit_dependencies`: an install depends on its own build's configure; an
      install-any node depends on the install of the build it chose. */
  function ImplicitDependencies(a: Action): (r: set<Action>)
    requires !a.ConfigureAction?
    ensures |r| == 1
    ensures forall d :: d in r ==> d.build == a.build && !d.InstallAnyBuildAction?
    ensures a.InstallAction? ==> forall d :: d in r ==> d.ConfigureAction?
    ensures a.InstallAnyBuildAction? ==> forall d :: d in r ==> d.InstallAction?
  {
    match a
    case InstallAction(b) => {ConfigureAction(b)}
    case InstallAnyBuildAction(b, _) => {InstallAction(b)}
  }

  /** `is_satisfied` of the install kinds: an install is satisfied when its exact build is
      recorded as installed; an install-any node asks the install of its chosen build. */
  predicate IsSatisfied(a: Action, manifests: map<string, string>)
    requires !a.ConfigureAction?
  {
    match a
    case InstallAction(b) => IsInstalled(manifests, b.component, b.name)
    case InstallAnyBuildAction(b, _) => IsInstalled(manifests, b.component, b.name)
  }

  /** The build `InstallAnyBuildAction.__init__` picks: the installed build when
      `get_installed_build` names one (a name that is not a build raises `KeyError`), the
      requested one when it returns nothing (or an empty name, which is falsy). */
  function ChooseBuild(c: Component, requested: Build, installed: Option<string>): (r: Result<Build, string>)
    requires requested.component == c.name
    ensures r.Success? ==> r.value.component == c.name
    ensures r.Success? && r.value != requested ==> installed == Some(r.value.name) && r.value.name in c.builds
    ensures installed.None? || installed == Some("") ==> r == Success(requested)
    ensures installed.Some? && installed.value != "" ==> (r.Success? <==> installed.value in c.builds)
    ensures installed.Some? && installed.value != "" && r.Success? ==> r.value.name == installed.value
  {
    match installed
    case Some(n) =>
      if n == "" then Success(requested)
      else if n in c.builds then Success(Build(c.name, n))
      else Failure(n)
    case None => Success(requested)
  }

  /** Constructing the install-any node against the recorded installations. */
  function MakeInstallAny(c: Component, requested: Build, manifests: map<string, string>): (r: Result<Action, string>)
    requires requested.component == c.name
    ensures r.Success? ==> r.value.InstallAnyBuildAction? && r.value.original == requested
  {
    match ChooseBuild(c, requested, InstalledBuild(manifests, c.name))
    case Success(b) => Success(InstallAnyBuildAction(b, requested))
    case Failure(e) => Failure(e)
  }

  /** With another build of the component already installed, the install-any node picks it
      and is satisfied at once, so nothing is rebuilt, whichever build was requested. */
  lemma InstallAnyPrefersInstalled(c: Component, requested: Build, manifests: map<string, string>, n: string)
    requires requested.component == c.name
    requires c.name in manifests && FirstLine(manifests[c.name]) == QualifiedName(c.name, n)
    requires n in c.builds && n != ""
    ensures MakeInstallAny(c, requested, manifests) == Success(InstallAnyBuildAction(Build(c.name, n), requested))
    ensures IsSatisfied(MakeInstallAny(c, requested, manifests).value, manifests)
  {
    var line := FirstLine(manifests[c.name]);
    assert StartsWith(line, c.name + "~") by { assert line[..|c.name + "~"|] == c.name + "~"; }
    InstalledQueriesAgree(manifests, c.name, n);
  }

  /** With nothing installed the requested build is chosen, and the node is unsatisfied,
      so its dependency (the requested build's install) has to run. */
  lemma InstallAnyFallsBack(c: Component, requested: Build, manifests: map<string, string>)
    requires requested.component == c.name
    requires c.name !in manifests
    ensures MakeInstallAny(c, requested, manifests) == Success(InstallAnyBuildAction(requested, requested))
    ensures !IsSatisfied(MakeInstallAny(c, requested, manifests).value, manifests)
  {
  }

  /** An install-any node is satisfied exactly when its one dependency is. */
  lemma InstallAnyDelegates(a: Action, manifests: map<string, string>)
    requires a.InstallAnyBuildAction?
    ensures IsSatisfied(a, manifests) <==> forall d :: d in ImplicitDependencies(a) ==> IsSatisfied(d, manifests)
  {
    assert InstallAction(a.build) in ImplicitDependencies(a);
  }

  /** `run` of the install kinds: an install runs the transaction above, an install-any
      node does nothing (and never reads `args`). */
  method RunAction(a: Action, v: Variant, st: State, l: Listings, staged: Fs, prefix: string, args: Option<bool>)
    returns (st': State, err: Option<InstallError>)
    requires !a.ConfigureAction?
    ensures a.InstallAnyBuildAction? ==> st' == st && err.None?
    ensures a.InstallAction? && v == FilesAndLinks && args.None? ==> err == Some(NoArguments)
    ensures a.InstallAction? && err.None? && Merges(v, args)
      && NoLineBreak(QualifiedName(a.build.component, a.build.name))
      && (forall i :: 0 <= i < |RecordedPaths(v, l, prefix)| ==> Recordable(RecordedPaths(v, l, prefix)[i]))
      ==> IsSatisfied(a, st'.manifests)
  {
    match a
    case InstallAnyBuildAction(_, _) =>
      return st, None;
    case InstallAction(b) =>
      st', err := RunInstall(v, st, b, l, staged, prefix, args);
  }
}

=== FILE: manifest.dfy ===
/** The per-component manifest ("index file"): line 1 is the qualified name of the
    installed build, the remaining lines are the paths that build placed in the shared
    root, each `/`-prefixed and relative to that root. */
module Manifest {
  import opened Text
  import opened Order
  import opened FileSystem

  /** `build.qualified_name`: `<component>~<build>`. */
  function QualifiedName(component: string, build: string): string {
    component + "~" + build
  }

  /** The text `InstallAction._run` writes: the qualified name and a newline, then the new
      paths joined by newlines (so the last path has no newline after it). */
  function Render(qualifiedName: string, paths: seq<string>): string {
    qualifiedName + "\n" + Join(paths, "\n")
  }

  /** The lines of the manifest as the file object yields them (universal newlines on). */
  function ReadLines(text: string): seq<string> {
    SplitLines(NormalizeNewlines(text))
  }

  /** What `f.readline()` returns first, without its newline: the recorded build. */
  function FirstLine(text: string): (r: string)
    ensures forall k :: 0 <= k < |r| ==> r[k] != '\n'
  {
    var lines := ReadLines(text);
    if |lines| == 0 then []
    else if lines[0][|lines[0]| - 1] == '\n' then lines[0][..|lines[0]| - 1]
    else lines[0]
  }

  /** What `f.readlines()` returns after the first `readline()`: the raw path lines. */
  function ListedLines(text: string): seq<string> {
    var lines := ReadLines(text);
    if |lines| == 0 then [] else lines[1..]
  }

  /** The recorded paths in file order, each `strip()`ped. */
  function ReadPaths(text: string): (r: seq<string>)
    ensures |r| == |ListedLines(text)|
  {
    var lines := ListedLines(text);
    seq(|lines|, i requires 0 <= i < |lines| => Strip(lines[i]))
  }

  /** The root-relative path uninstall derives from one raw line:
      `path.strip()` and then `path.lstrip("/")`. */
  function KeyOfLine(line: string): string {
    LStrip(Strip(line), '/')
  }

  /** The root-relative path of every line, in the same order. */
  function KeysOf(lines: seq<string>): (r: seq<string>)
    ensures |r| == |lines|
    ensures forall i :: 0 <= i < |lines| ==> r[i] == KeyOfLine(lines[i])
  {
    seq(|lines|, i requires 0 <= i < |lines| => KeyOfLine(lines[i]))
  }

  lemma KeysOfMembership(lines: seq<string>, k: string)
    ensures k in KeysOf(lines) <==> exists l :: l in lines && KeyOfLine(l) == k
  {
    var r := KeysOf(lines);
    if k in r {
      var i :| 0 <= i < |r| && r[i] == k;
      assert lines[i] in lines;
    }
    if exists l :: l in lines && KeyOfLine(l) == k {
      var l :| l in lines && KeyOfLine(l) == k;
      var i :| 0 <= i < |lines| && lines[i] == l;
      assert r[i] == k;
    }
  }

  lemma SortDescMembership(lines: seq<string>, l: string)
    ensures l in SortDesc(lines) <==> l in lines
  {
    assert l in SortDesc(lines) <==> l in multiset(SortDesc(lines));
    assert l in lines <==> l in multiset(lines);
  }

  /** The paths uninstall visits, in order: the raw lines sorted in reverse, then each
      turned into a root-relative path. Every listed line is visited, as often as it is
      listed, and nothing else. */
  function VisitOrder(text: string): (r: seq<string>)
    ensures |r| == |ListedLines(text)|
    ensures forall k :: k in r <==> exists l :: l in ListedLines(text) && KeyOfLine(l) == k
  {
    var lines := ListedLines(text);
    var r := KeysOf(SortDesc(lines));
    assert forall k :: k in r <==> exists l :: l in lines && KeyOfLine(l) == k by {
      forall k ensures k in r <==> exists l :: l in lines && KeyOfLine(l) == k {
        KeysOfMembership(SortDesc(lines), k);
        forall l ensures l in SortDesc(lines) <==> l in lines { SortDescMembership(lines, l); }
      }
    }
    r
  }

  /** The lines `Join(paths, "\n")` splits into: every path but the last keeps the newline
      that separated it from the next one. */
  function Terminated(paths: seq<string>): (r: seq<string>)
    ensures |r| == |paths|
  {
    if |paths| == 0 then []
    else if |paths| == 1 then [paths[0]]
    else [paths[0] + "\n"] + Terminated(paths[1..])
  }

  /** A path the manifest can carry: non-empty, on one line, no edge whitespace. */
  predicate Recordable(p: string) {
    |p| > 0 && NoLineBreak(p) && NoEdgeSpace(p)
  }

  lemma {:induction false} SplitJoin(paths: seq<string>)
    requires forall i :: 0 <= i < |paths| ==> Recordable(paths[i])
    ensures SplitLines(Join(paths, "\n")) == Terminated(paths)
    decreases |paths|
  {
    if |paths| == 1 {
      SplitLinesSingle(paths[0]);
    } else if |paths| > 1 {
      SplitJoin(paths[1..]);
      SplitLinesCons(paths[0], Join(paths[1..], "\n"));
    }
  }

  lemma NoCarriageReturnInRender(q: string, paths: seq<string>)
    requires NoLineBreak(q)
    requires forall i :: 0 <= i < |paths| ==> Recordable(paths[i])
    ensures forall k :: 0 <= k < |Render(q, paths)| ==> Render(q, paths)[k] != '\r'
  {
    JoinNoCarriageReturn(paths);
  }

  lemma {:induction false} JoinNoCarriageReturn(paths: seq<string>)
    requires forall i :: 0 <= i < |paths| ==> Recordable(paths[i])
    ensures forall k :: 0 <= k < |Join(paths, "\n")| ==> Join(paths, "\n")[k] != '\r'
    decreases |paths|
  {
    if |paths| > 1 {
      JoinNoCarriageReturn(paths[1..]);
      var t := Join(paths[1..], "\n");
      assert Join(paths, "\n") == paths[0] + "\n" + t;
      forall k | 0 <= k < |Join(paths, "\n")| ensures Join(paths, "\n")[k] != '\r' {
        if k < |paths[0]| { assert Join(paths, "\n")[k] == paths[0][k]; }
        else if k > |paths[0]| { assert Join(paths, "\n")[k] == t[k - |paths[0]| - 1]; }
      }
    }
  }

  /** The lines a rendered manifest is read back as. */
  lemma ReadLinesOfRender(q: string, paths: seq<string>)
    requires NoLineBreak(q)
    requires forall i :: 0 <= i < |paths| ==> Recordable(paths[i])
    ensures ReadLines(Render(q, paths)) == [q + "\n"] + Terminated(paths)
    ensures ListedLines(Render(q, paths)) == Terminated(paths)
  {
    NoCarriageReturnInRender(q, paths);
    NormalizeNewlinesNoCR(Render(q, paths));
    assert Render(q, paths) == q + "\n" + Join(paths, "\n");
    SplitLinesCons(q, Join(paths, "\n"));
    SplitJoin(paths);
  }

  /** Line 1 of a written manifest reads back as the qualified build name. */
  lemma FirstLineOfRender(q: string, paths: seq<string>)
    requires NoLineBreak(q)
    requires forall i :: 0 <= i < |paths| ==> Recordable(paths[i])
    ensures FirstLine(Render(q, paths)) == q
  {
    ReadLinesOfRender(q, paths);
    assert (q + "\n")[..|q|] == q;
  }

  /** Reading a written manifest back (skip line 1, strip each line) gives exactly the
      paths that were written, in order. */
  lemma ReadPathsOfRender(q: string, paths: seq<string>)
    requires NoLineBreak(q)
    requires forall i :: 0 <= i < |paths| ==> Recordable(paths[i])
    ensures ReadPaths(Render(q, paths)) == paths
  {
    ReadLinesOfRender(q, paths);
    var lines := Terminated(paths);
    forall i | 0 <= i < |paths| ensures Strip(lines[i]) == paths[i] {
      TerminatedAt(paths, i);
      if i < |paths| - 1 { StripPadded(paths[i], "\n"); }
      else { StripPadded(paths[i], ""); assert paths[i] + "" == paths[i]; }
    }
  }

  lemma {:induction false} TerminatedAt(paths: seq<string>, i: nat)
    requires i < |paths|
    ensures Terminated(paths)[i] == if i < |paths| - 1 then paths[i] + "\n" else paths[i]
    decreases i
  {
    if i > 0 { TerminatedAt(paths[1..], i - 1); }
  }

  /** A root-relative path as the install engine records it, once the leading `/` is
      gone: not empty, not itself starting with `/`, without whitespace at its edges and
      without control characters up to carriage return (so no line breaks). */
  predicate CleanKey(k: string) {
    |k| > 0 && k[0] != '/' && NoEdgeSpace(k) && forall i :: 0 <= i < |k| ==> k[i] > '\r'
  }

  /** A manifest line of the shape the engine writes: `/`, a clean path, maybe `\n`. */
  predicate EntryLine(l: string) {
    |l| > 0 && l[0] == '/' && CleanKey(LineBody(l))
  }

  /** The line without its leading `/` and trailing newline. */
  function LineBody(l: string): string
    requires |l| > 0
  {
    if |l| > 1 && l[|l| - 1] == '\n' then l[1..|l| - 1] else l[1..]
  }

  /** For an engine-written line, the path uninstall derives is the line's body. */
  lemma KeyOfEntryLine(l: string)
    requires EntryLine(l)
    ensures KeyOfLine(l) == LineBody(l)
  {
    var b := LineBody(l);
    var w := if |l| > 1 && l[|l| - 1] == '\n' then "\n" else "";
    assert l == "/" + b + w;
    assert NoEdgeSpace("/" + b) by { assert ("/" + b)[|b|] == b[|b| - 1]; }
    StripPadded("/" + b, w);
    assert LStrip("/" + b, '/') == LStrip(b, '/');
  }

  /** Reverse order puts an entry before its parent directory: the parent's line is a
      prefix of the child's up to a `/`, where the parent has a newline (which sorts
      before `/`) or nothing at all. */
  lemma ParentLineSortsFirst(parent: string, child: string)
    requires EntryLine(parent) && EntryLine(child)
    requires IsChildOf(LineBody(child), LineBody(parent))
    ensures Less(parent, child)
  {
    var p := LineBody(parent);
    var c := LineBody(child);
    var x := LineSplit(parent);
    var wc := LineSplit(child);
    var d := ChildSuffix(c, p);
    RegroupLine(p, d, wc);
    LessAtFirstDifference("/" + p, x, d + wc);
  }

  /** A line is `/`, its body, and at most a trailing newline. */
  lemma LineSplit(l: string) returns (w: string)
    requires |l| > 0 && l[0] == '/'
    ensures l == "/" + LineBody(l) + w
    ensures w == "" || w == "\n"
  {
    w := if |l| > 1 && l[|l| - 1] == '\n' then "\n" else "";
  }

  /** A child path is its non-empty parent followed by a suffix starting with `/`. */
  lemma ChildSuffix(c: string, p: string) returns (d: string)
    requires IsChildOf(c, p) && p != []
    ensures c == p + d && |d| > 0 && d[0] == '/'
  {
    d := c[|p|..];
    assert c == c[..|p|] + d;
  }

  lemma RegroupLine(p: string, d: string, w: string)
    ensures "/" + (p + d) + w == ("/" + p) + (d + w)
  {
  }

  /** The order uninstall visits a manifest in puts every entry before its parent
      directory, provided every line has the shape the engine writes. */
  lemma VisitOrderChildrenFirst(text: string)
    requires forall l :: l in ListedLines(text) ==> EntryLine(l)
    ensures ChildrenFirst(VisitOrder(text))
  {
    var lines := ListedLines(text);
    var sorted := SortDesc(lines);
    var r := VisitOrder(text);
    forall i, j | 0 <= i < j < |r| ensures !IsChildOf(r[j], r[i]) {
      assert sorted[i] in multiset(lines) && sorted[j] in multiset(lines);
      KeyOfEntryLine(sorted[i]);
      KeyOfEntryLine(sorted[j]);
      if IsChildOf(r[j], r[i]) {
        ParentLineSortsFirst(sorted[i], sorted[j]);
        SmallerComesLater(sorted, i, j);
      }
    }
  }

  /** A path as the engine writes it: `/` followed by a clean root-relative path. */
  predicate EnginePath(p: string) {
    |p| > 0 && p[0] == '/' && CleanKey(p[1..])
  }

  lemma EnginePathRecordable(p: string)
    requires EnginePath(p)
    ensures Recordable(p)
  {
    var k := p[1..];
    assert p == "/" + k;
    assert p[|p| - 1] == k[|k| - 1];
  }

  lemma TerminatedEntryLine(paths: seq<string>, i: nat)
    requires i < |paths|
    requires EnginePath(paths[i])
    ensures EntryLine(Terminated(paths)[i])
    ensures LineBody(Terminated(paths)[i]) == paths[i][1..]
  {
    TerminatedAt(paths, i);
    var k := paths[i][1..];
    var l := Terminated(paths)[i];
    assert k[|k| - 1] != '\n';
    assert LineBody(l) == k;
  }

  /** The lines of a manifest the engine wrote for `/`-prefixed clean paths all have the
      engine's shape, so uninstall visits them children first. */
  lemma RenderedVisitOrder(q: string, paths: seq<string>)
    requires NoLineBreak(q)
    requires forall i :: 0 <= i < |paths| ==> EnginePath(paths[i])
    ensures ChildrenFirst(VisitOrder(Render(q, paths)))
  {
    forall i | 0 <= i < |paths| ensures Recordable(paths[i]) { EnginePathRecordable(paths[i]); }
    ReadLinesOfRender(q, paths);
    var lines := Terminated(paths);
    forall l | l in lines ensures EntryLine(l) {
      var i :| 0 <= i < |lines| && lines[i] == l;
      TerminatedEntryLine(paths, i);
    }
    VisitOrderChildrenFirst(Render(q, paths));
  }

  /** Uninstall visits exactly the paths the engine wrote, each without its leading `/`. */
  lemma RenderedKeys(q: string, paths: seq<string>)
    requires NoLineBreak(q)
    requires forall i :: 0 <= i < |paths| ==> EnginePath(paths[i])
    ensures forall k :: k in VisitOrder(Render(q, paths)) <==> "/" + k in paths
  {
    forall i | 0 <= i < |paths| ensures Recordable(paths[i]) { EnginePathRecordable(paths[i]); }
    ReadLinesOfRender(q, paths);
    var lines := Terminated(paths);
    forall i | 0 <= i < |paths| ensures |paths[i]| > 0 && KeyOfLine(lines[i]) == paths[i][1..] && paths[i] == "/" + paths[i][1..] {
      KeyAt(paths, i);
      SlashThenKey(paths[i]);
    }
    forall k ensures k in VisitOrder(Render(q, paths)) <==> "/" + k in paths {
      KeysMatch(lines, paths, k);
    }
  }

  /** Lines whose keys are the paths without their `/`: some line has key `k` exactly when
      `/k` is one of the paths. */
  lemma KeysMatch(lines: seq<string>, paths: seq<string>, k: string)
    requires |lines| == |paths|
    requires forall i :: 0 <= i < |paths| ==> |paths[i]| > 0 && KeyOfLine(lines[i]) == paths[i][1..] && paths[i] == "/" + paths[i][1..]
    ensures (exists l :: l in lines && KeyOfLine(l) == k) <==> "/" + k in paths
  {
    if exists l :: l in lines && KeyOfLine(l) == k {
      var l :| l in lines && KeyOfLine(l) == k;
      var i :| 0 <= i < |lines| && lines[i] == l;
      assert paths[i] == "/" + k;
    }
    if "/" + k in paths {
      var i :| 0 <= i < |paths| && paths[i] == "/" + k;
      assert ("/" + k)[1..] == k;
      assert lines[i] in lines;
    }
  }

  /** The key of the `i`-th terminated line is the `i`-th path without its `/`. */
  lemma KeyAt(paths: seq<string>, i: nat)
    requires i < |paths| && EnginePath(paths[i])
    ensures KeyOfLine(Terminated(paths)[i]) == paths[i][1..]
  {
    TerminatedEntryLine(paths, i);
    KeyOfEntryLine(Terminated(paths)[i]);
  }

  lemma SlashThenKey(p: string)
    requires EnginePath(p)
    ensures p == "/" + p[1..]
  {
  }
}

=== FILE: ndebug.dfy ===
/** `_replace_ndebug`: the `sed` pass over every installed header. Each line goes through
    four substitutions in order, each replacing at most its first match (no `g` flag):
      1. `^\s*#\s*ifndef\s\+NDEBUG`              -> `#if <debug>`
      2. `^\s*#\s*ifdef\s\+NDEBUG`               -> `#if <ndebug>`
      3. `^\(\s*#\s*if\s\+.*\)!defined(NDEBUG)`  -> `\1<debug>`
      4. `^\(\s*#\s*if\s\+.*\)defined(NDEBUG)`   -> `\1<ndebug>`
    where `<debug>`/`<ndebug>` are `1`/`0` when debugging is enabled and `0`/`1` otherwise.
    The greedy `.*` of rules 3 and 4 makes them act on the LAST occurrence in the line. */
module NDebug {
  import opened Wrappers
  import opened Text

  /** `\s` of GNU sed in the C locale. */
  predicate IsSedSpace(c: char) {
    c == ' ' || ('\t' <= c <= '\r')
  }

  predicate AllSpace(s: string) {
    forall k :: 0 <= k < |s| ==> IsSedSpace(s[k])
  }

  /** `w` occurs nowhere in `s`. */
  ghost predicate NoOcc(s: string, w: string) {
    forall i :: !HasAt(s, i, w)
  }

  /** The index of the first non-space character at or after `i`. */
  function SkipSpaces(s: string, i: nat): (j: nat)
    requires i <= |s|
    ensures i <= j <= |s|
    ensures forall k :: i <= k < j ==> IsSedSpace(s[k])
    ensures j < |s| ==> !IsSedSpace(s[j])
    decreases |s| - i
  {
    if i < |s| && IsSedSpace(s[i]) then SkipSpaces(s, i + 1) else i
  }

  /** Where a match of `^\s*#\s*<kw>` ends, if the line starts with one. */
  function MatchHead(s: string, kw: string): (r: Option<nat>)
    ensures r.Some? ==> r.value <= |s| && r.value >= |kw| && HasAt(s, r.value - |kw|, kw)
  {
    var a := SkipSpaces(s, 0);
    if a < |s| && s[a] == '#' then
      var b := SkipSpaces(s, a + 1);
      if HasAt(s, b, kw) then Some(b + |kw|) else None
    else None
  }

  /** The largest `t` with `from <= t <= hi` at which `w` occurs. */
  function SearchBack(s: string, w: string, from: nat, hi: int): (r: Option<nat>)
    ensures r.Some? ==> from <= r.value <= hi && HasAt(s, r.value, w)
    ensures r.Some? ==> forall t :: r.value < t <= hi ==> !HasAt(s, t, w)
    ensures r.None? ==> forall t :: from <= t <= hi ==> !HasAt(s, t, w)
    decreases hi - from + 1
  {
    if hi < from then None
    else if HasAt(s, hi, w) then Some(hi)
    else SearchBack(s, w, from, hi - 1)
  }

  /** The last occurrence of `w` at or after `from`: what a greedy `.*` before `w` finds. */
  function LastOccurrence(s: string, w: string, from: nat): (r: Option<nat>)
    ensures r.Some? ==> from <= r.value && HasAt(s, r.value, w) && forall t :: r.value < t ==> !HasAt(s, t, w)
    ensures r.None? ==> forall t :: from <= t ==> !HasAt(s, t, w)
  {
    SearchBack(s, w, from, |s|)
  }

  /** Rules 1 and 2: `^\s*#\s*<kw>\s\+NDEBUG` becomes `#if <digit>`, the rest is kept. */
  function GuardRule(s: string, kw: string, digit: string): (r: string)
    ensures r != s ==> exists q :: HasAt(s, q, "NDEBUG") && r == "#if " + digit + s[q + 6..]
  {
    match MatchHead(s, kw)
    case Some(p) =>
      if p < |s| && IsSedSpace(s[p]) then
        var q := SkipSpaces(s, p);
        if HasAt(s, q, "NDEBUG") then "#if " + digit + s[q + 6..] else s
      else s
    case None => s
  }

  /** Rules 3 and 4: on a `#if` line, the last occurrence of `pat` becomes `<digit>`. */
  function DefinedRule(s: string, pat: string, digit: string): (r: string)
    ensures r != s ==> exists j :: HasAt(s, j, pat) && r == s[..j] + digit + s[j + |pat|..]
  {
    match MatchHead(s, "if")
    case Some(p) =>
      if p < |s| && IsSedSpace(s[p]) then
        match LastOccurrence(s, pat, p + 1)
        case Some(j) => s[..j] + digit + s[j + |pat|..]
        case None => s
      else s
    case None => s
  }

  /** The digit that stands for "debug code on" (`<debug>`) and its negation (`<ndebug>`). */
  function DebugDigit(enableDebugging: bool): string { if enableDebugging then "1" else "0" }
  function NDebugDigit(enableDebugging: bool): string { if enableDebugging then "0" else "1" }

  /** The four substitutions applied to one line. */
  function PatchLine(line: string, enableDebugging: bool): string {
    var debug := DebugDigit(enableDebugging);
    var ndebug := NDebugDigit(enableDebugging);
    var l1 := GuardRule(line, "ifndef", debug);
    var l2 := GuardRule(l1, "ifdef", ndebug);
    var l3 := DefinedRule(l2, "!defined(NDEBUG)", debug);
    DefinedRule(l3, "defined(NDEBUG)", ndebug)
  }

  // ---------------------------------------------------------------------------
  // Occurrence facts

  /** An occurrence of `w` starts with `w[0]`; a text without that character has none. */
  lemma NoOccWithoutFirst(a: string, b: string, w: string)
    requires |w| > 0
    requires forall k :: 0 <= k < |a| ==> a[k] != w[0]
    requires NoOcc(b, w)
    ensures NoOcc(a + b, w)
  {
    var s := a + b;
    forall i ensures !HasAt(s, i, w) {
      if 0 <= i && i + |w| <= |s| {
        if i < |a| {
          assert s[i..i + |w|][0] == a[i];
        } else {
          assert s[i..i + |w|] == b[i - |a|..i - |a| + |w|];
          assert !HasAt(b, i - |a|, w);
        }
      }
    }
  }

  /** Joining two texts without `NDEBUG` at a character that does not occur in `NDEBUG`. */
  lemma NoOccJoin(a: string, c: char, b: string)
    requires NoOcc(a, "NDEBUG") && NoOcc(b, "NDEBUG")
    requires c !in "NDEBUG"
    ensures NoOcc(a + [c] + b, "NDEBUG")
  {
    var s := a + [c] + b;
    forall i ensures !HasAt(s, i, "NDEBUG") {
      if 0 <= i && i + 6 <= |s| {
        if i + 6 <= |a| {
          assert s[i..i + 6] == a[i..i + 6];
          assert !HasAt(a, i, "NDEBUG");
        } else if i <= |a| {
          assert s[i..i + 6][|a| - i] == c;
        } else {
          assert s[i..i + 6] == b[i - |a| - 1..i - |a| + 5];
          assert !HasAt(b, i - |a| - 1, "NDEBUG");
        }
      }
    }
  }

  /** `N` occurs in `NDEBUG` only at its start. */
  lemma OnlyFirstN(k: int)
    requires 1 <= k < 6
    ensures "NDEBUG"[k] != 'N'
  {
  }

  /** In `x + "NDEBUG" + y` with no `NDEBUG` in `x` or `y`, the middle one is the only one. */
  lemma OnlyOccurrence(x: string, y: string)
    requires NoOcc(x, "NDEBUG") && NoOcc(y, "NDEBUG")
    ensures forall t :: HasAt(x + "NDEBUG" + y, t, "NDEBUG") ==> t == |x|
  {
    var s := x + "NDEBUG" + y;
    forall t | t != |x| ensures !HasAt(s, t, "NDEBUG") {
      if 0 <= t && t + 6 <= |s| {
        if t + 6 <= |x| {
          assert s[t..t + 6] == x[t..t + 6];
          assert !HasAt(x, t, "NDEBUG");
        } else if t < |x| {
          OnlyFirstN(|x| - t);
          assert s[t..t + 6][|x| - t] == 'N';
        } else if t < |x| + 6 {
          OnlyFirstN(t - |x|);
          assert s[t..t + 6][0] == "NDEBUG"[t - |x|];
        } else {
          assert s[t..t + 6] == y[t - |x| - 6..t - |x|];
          assert !HasAt(y, t - |x| - 6, "NDEBUG");
        }
      }
    }
  }

  /** A pattern that contains `NDEBUG` cannot occur in a text without it. */
  lemma NoPatternWithoutNDEBUG(s: string, pat: string, off: nat)
    requires NoOcc(s, "NDEBUG")
    requires HasAt(pat, off, "NDEBUG")
    ensures NoOcc(s, pat)
  {
    forall j ensures !HasAt(s, j, pat) {
      if 0 <= j && j + |pat| <= |s| {
        assert !HasAt(s, j + off, "NDEBUG");
        assert pat[off..off + 6] == "NDEBUG";
        var u := s[j..j + |pat|];
        forall k | off <= k < off + 6 ensures u[k] == s[j + k] { }
        assert u[off..off + 6] == s[j + off..j + off + 6];
      }
    }
  }

  /** A line without `NDEBUG` passes every rule unchanged. */
  lemma {:induction false} RulesKeepPlainLine(s: string, kw: string, pat: string, off: nat, d: string)
    requires NoOcc(s, "NDEBUG")
    requires HasAt(pat, off, "NDEBUG")
    ensures GuardRule(s, kw, d) == s
    ensures DefinedRule(s, pat, d) == s
  {
    NoPatternWithoutNDEBUG(s, pat, off);
  }

  /** A line that never mentions `NDEBUG` is left exactly as it was. */
  lemma PatchLineNoNDEBUG(line: string, e: bool)
    requires NoOcc(line, "NDEBUG")
    ensures PatchLine(line, e) == line
  {
    RulesKeepPlainLine(line, "ifndef", "!defined(NDEBUG)", 9, DebugDigit(e));
    RulesKeepPlainLine(line, "ifdef", "defined(NDEBUG)", 8, NDebugDigit(e));
  }

  // ---------------------------------------------------------------------------
  // The four guard forms

  /** A guard head `<sp1>#<sp2><kw><sp3>`: no `N` anywhere in it. */
  predicate GuardHead(sp1: string, sp2: string, sp3: string) {
    AllSpace(sp1) && AllSpace(sp2) && AllSpace(sp3) && |sp3| > 0
  }

  lemma HeadHasNoN(sp1: string, sp2: string, kw: string, sp3: string)
    requires GuardHead(sp1, sp2, sp3)
    requires 'N' !in kw
    ensures forall k :: 0 <= k < |sp1 + "#" + sp2 + kw + sp3| ==> (sp1 + "#" + sp2 + kw + sp3)[k] != 'N'
  {
    var h := sp1 + "#" + sp2 + kw + sp3;
    forall k | 0 <= k < |h| ensures h[k] != 'N' {
      if k < |sp1| { assert h[k] == sp1[k]; }
      else if k == |sp1| { assert h[k] == '#'; }
      else if k < |sp1| + 1 + |sp2| { assert h[k] == sp2[k - |sp1| - 1]; }
      else if k < |sp1| + 1 + |sp2| + |kw| { assert h[k] == kw[k - |sp1| - 1 - |sp2|]; }
      else { assert h[k] == sp3[k - |sp1| - 1 - |sp2| - |kw|]; }
    }
  }

  /** Where `^\s*#\s*` ends on a guard line, and that it is followed by `kw`. */
  lemma HeadMatch(sp1: string, sp2: string, kw: string, tail: string)
    requires AllSpace(sp1) && AllSpace(sp2) && |kw| > 0 && !IsSedSpace(kw[0])
    ensures SkipSpaces(sp1 + "#" + sp2 + kw + tail, 0) == |sp1|
    ensures SkipSpaces(sp1 + "#" + sp2 + kw + tail, |sp1| + 1) == |sp1| + 1 + |sp2|
  {
    var s := sp1 + "#" + sp2 + kw + tail;
    assert s[|sp1|] == '#';
    assert forall k :: 0 <= k < |sp1| ==> s[k] == sp1[k];
    assert forall k :: |sp1| + 1 <= k < |sp1| + 1 + |sp2| ==> s[k] == sp2[k - |sp1| - 1];
    assert s[|sp1| + 1 + |sp2|] == kw[0];
  }

  /** Rules 1 and 2 on `<sp1>#<sp2><kw><sp3>NDEBUG<rest>`: the guard becomes `#if <d>`. */
  lemma GuardRuleOnGuard(sp1: string, sp2: string, kw: string, sp3: string, rest: string, d: string)
    requires GuardHead(sp1, sp2, sp3) && |kw| > 0 && !IsSedSpace(kw[0])
    ensures GuardRule(sp1 + "#" + sp2 + kw + sp3 + "NDEBUG" + rest, kw, d) == "#if " + d + rest
  {
    var s := sp1 + "#" + sp2 + kw + sp3 + "NDEBUG" + rest;
    var p := |sp1| + 1 + |sp2| + |kw|;
    KeywordHeadEnd(sp1, sp2, kw, sp3 + "NDEBUG" + rest);
    assert s == sp1 + "#" + sp2 + kw + (sp3 + "NDEBUG" + rest);
    assert s[p..] == sp3 + "NDEBUG" + rest;
    SpacesThenNDEBUG(s, p, sp3, rest);
  }

  /** Where `^\s*#\s*<kw>` ends on a line that starts with it. */
  lemma KeywordHeadEnd(sp1: string, sp2: string, kw: string, tail: string)
    requires AllSpace(sp1) && AllSpace(sp2) && |kw| > 0 && !IsSedSpace(kw[0])
    ensures MatchHead(sp1 + "#" + sp2 + kw + tail, kw) == Some(|sp1| + 1 + |sp2| + |kw|)
  {
    var s := sp1 + "#" + sp2 + kw + tail;
    HeadMatch(sp1, sp2, kw, tail);
    var b := |sp1| + 1 + |sp2|;
    assert s[b..b + |kw|] == kw;
  }

  /** `\s\+NDEBUG` at `p`, followed by `rest`. */
  lemma SpacesThenNDEBUG(s: string, p: nat, sp3: string, rest: string)
    requires p <= |s| && s[p..] == sp3 + "NDEBUG" + rest
    requires AllSpace(sp3) && |sp3| > 0
    ensures p < |s| && IsSedSpace(s[p])
    ensures SkipSpaces(s, p) == p + |sp3|
    ensures HasAt(s, p + |sp3|, "NDEBUG") && s[p + |sp3| + 6..] == rest
  {
    var t := s[p..];
    assert s[p] == t[0] == sp3[0];
    forall k | p <= k < p + |sp3| ensures IsSedSpace(s[k]) {
      assert s[k] == t[k - p] == sp3[k - p];
    }
    var q := p + |sp3|;
    assert s[q] == t[|sp3|] == 'N';
    assert s[q..q + 6] == t[|sp3|..|sp3| + 6] == "NDEBUG";
    assert s[q + 6..] == t[|sp3| + 6..] == rest;
  }

  /** A line that does not start with `^\s*#\s*<kw>` is not touched by rule 1 or 2. */
  lemma GuardRuleOtherKeyword(sp1: string, sp2: string, tail: string, kw: string, d: string)
    requires AllSpace(sp1) && AllSpace(sp2) && |tail| > 0 && !IsSedSpace(tail[0])
    requires |kw| > 0 && !HasAt(tail, 0, kw)
    ensures GuardRule(sp1 + "#" + sp2 + tail, kw, d) == sp1 + "#" + sp2 + tail
  {
    var s := sp1 + "#" + sp2 + tail;
    HeadMatch(sp1, sp2, tail, []);
    assert s == sp1 + "#" + sp2 + tail + [];
    var b := |sp1| + 1 + |sp2|;
    assert s[b..] == tail;
    if b + |kw| <= |s| {
      assert s[b..b + |kw|] == tail[..|kw|];
    }
    assert !HasAt(s, b, kw);
    assert MatchHead(s, kw).None?;
  }

  /** Rule 2 does not apply to the `#if <d>` that rule 1 produced. */
  lemma SecondRuleSkipsIf(d: string, rest: string, nd: string)
    requires |d| == 1
    ensures GuardRule("#if " + d + rest, "ifdef", nd) == "#if " + d + rest
  {
    var t := "if " + d + rest;
    assert !HasAt(t, 0, "ifdef") by { if |t| >= 5 { assert t[..5][2] == ' '; } }
    GuardRuleOtherKeyword("", "", t, "ifdef", nd);
    assert "#if " + d + rest == "" + "#" + "" + t;
  }

  /** Rules 3 and 4 leave `#if <digit><rest>` alone when `rest` has no `NDEBUG`. */
  lemma IfLineStable(digit: string, rest: string, d: string, nd: string)
    requires |digit| == 1 && digit[0] != 'N'
    requires NoOcc(rest, "NDEBUG")
    ensures DefinedRule("#if " + digit + rest, "!defined(NDEBUG)", d) == "#if " + digit + rest
    ensures DefinedRule("#if " + digit + rest, "defined(NDEBUG)", nd) == "#if " + digit + rest
  {
    var out := "#if " + digit + rest;
    NoOccWithoutFirst("#if " + digit, rest, "NDEBUG");
    assert out == ("#if " + digit) + rest;
    RulesKeepPlainLine(out, "ifdef", "!defined(NDEBUG)", 9, d);
    RulesKeepPlainLine(out, "ifdef", "defined(NDEBUG)", 8, nd);
  }

  /** Rule 1 does not apply to an `#ifdef` line. */
  lemma FirstRuleSkipsIfdef(sp1: string, sp2: string, sp3: string, rest: string, d: string)
    requires GuardHead(sp1, sp2, sp3)
    ensures GuardRule(sp1 + "#" + sp2 + "ifdef" + sp3 + "NDEBUG" + rest, "ifndef", d)
         == sp1 + "#" + sp2 + "ifdef" + sp3 + "NDEBUG" + rest
  {
    var t := "ifdef" + sp3 + "NDEBUG" + rest;
    assert !HasAt(t, 0, "ifndef") by { assert t[..6][2] == 'd'; }
    GuardRuleOtherKeyword(sp1, sp2, t, "ifndef", d);
    assert sp1 + "#" + sp2 + "ifdef" + sp3 + "NDEBUG" + rest == sp1 + "#" + sp2 + t;
  }

  /** With debugging enabled `#ifndef NDEBUG` becomes `#if 1`; disabled, `#if 0`; the rest
      of the line (when it holds no further `NDEBUG`) is kept. */
  lemma IfndefGuard(sp1: string, sp2: string, sp3: string, rest: string, e: bool)
    requires GuardHead(sp1, sp2, sp3)
    requires NoOcc(rest, "NDEBUG")
    ensures PatchLine(sp1 + "#" + sp2 + "ifndef" + sp3 + "NDEBUG" + rest, e) == "#if " + DebugDigit(e) + rest
  {
    var d, nd := DebugDigit(e), NDebugDigit(e);
    var line := sp1 + "#" + sp2 + "ifndef" + sp3 + "NDEBUG" + rest;
    var out := "#if " + d + rest;
    GuardRuleOnGuard(sp1, sp2, "ifndef", sp3, rest, d);
    assert GuardRule(line, "ifndef", d) == out;
    SecondRuleSkipsIf(d, rest, nd);
    assert GuardRule(out, "ifdef", nd) == out;
    IfLineStable(d, rest, d, nd);
  }

  /** With debugging enabled `#ifdef NDEBUG` becomes `#if 0`; disabled, `#if 1`. */
  lemma IfdefGuard(sp1: string, sp2: string, sp3: string, rest: string, e: bool)
    requires GuardHead(sp1, sp2, sp3)
    requires NoOcc(rest, "NDEBUG")
    ensures PatchLine(sp1 + "#" + sp2 + "ifdef" + sp3 + "NDEBUG" + rest, e) == "#if " + NDebugDigit(e) + rest
  {
    var d, nd := DebugDigit(e), NDebugDigit(e);
    var line := sp1 + "#" + sp2 + "ifdef" + sp3 + "NDEBUG" + rest;
    var out := "#if " + nd + rest;
    FirstRuleSkipsIfdef(sp1, sp2, sp3, rest, d);
    assert GuardRule(line, "ifndef", d) == line;
    GuardRuleOnGuard(sp1, sp2, "ifdef", sp3, rest, nd);
    assert GuardRule(line, "ifdef", nd) == out;
    IfLineStable(nd, rest, d, nd);
  }

  /** An occurrence of a pattern holds an occurrence of every piece of it. */
  lemma InnerOccurrence(s: string, t: int, pat: string, off: nat)
    requires HasAt(pat, off, "NDEBUG")
    ensures HasAt(s, t, pat) ==> HasAt(s, t + off, "NDEBUG")
  {
    if HasAt(s, t, pat) {
      var u := s[t..t + |pat|];
      forall k | off <= k < off + 6 ensures u[k] == s[t + k] { }
      assert u[off..off + 6] == s[t + off..t + off + 6];
    }
  }

  /** The head `<sp1>#<sp2>if<sp3>` followed by text without `NDEBUG` has none either. */
  lemma IfHeadNoOcc(sp1: string, sp2: string, sp3: string, mid: string)
    requires GuardHead(sp1, sp2, sp3) && NoOcc(mid, "NDEBUG")
    ensures NoOcc(sp1 + "#" + sp2 + "if" + sp3 + mid, "NDEBUG")
  {
    HeadHasNoN(sp1, sp2, "if", sp3);
    NoOccWithoutFirst(sp1 + "#" + sp2 + "if" + sp3, mid, "NDEBUG");
  }

  /** On `<sp1>#<sp2>if<sp3>...` rules 1 and 2 do nothing, and the `#if\s\+` part of
      rules 3 and 4 matches up to the first space. */
  lemma IfHeadMatch(sp1: string, sp2: string, sp3: string, tail: string, d: string, nd: string)
    requires GuardHead(sp1, sp2, sp3)
    ensures var line := sp1 + "#" + sp2 + "if" + sp3 + tail;
      && GuardRule(line, "ifndef", d) == line
      && GuardRule(line, "ifdef", nd) == line
      && MatchHead(line, "if") == Some(|sp1| + 3 + |sp2|)
      && IsSedSpace(line[|sp1| + 3 + |sp2|])
  {
    IfHeadSkipsGuardRules(sp1, sp2, sp3, tail, d, nd);
    IfHeadEnd(sp1, sp2, sp3, tail);
  }

  lemma IfHeadSkipsGuardRules(sp1: string, sp2: string, sp3: string, tail: string, d: string, nd: string)
    requires GuardHead(sp1, sp2, sp3)
    ensures var line := sp1 + "#" + sp2 + "if" + sp3 + tail;
      && GuardRule(line, "ifndef", d) == line
      && GuardRule(line, "ifdef", nd) == line
  {
    var line := sp1 + "#" + sp2 + "if" + sp3 + tail;
    var t := "if" + sp3 + tail;
    assert line == sp1 + "#" + sp2 + t;
    assert t[2] == sp3[0];
    assert !HasAt(t, 0, "ifndef") by { if |t| >= 6 { assert t[..6][2] == t[2]; } }
    assert !HasAt(t, 0, "ifdef") by { if |t| >= 5 { assert t[..5][2] == t[2]; } }
    GuardRuleOtherKeyword(sp1, sp2, t, "ifndef", d);
    GuardRuleOtherKeyword(sp1, sp2, t, "ifdef", nd);
  }

  lemma IfHeadEnd(sp1: string, sp2: string, sp3: string, tail: string)
    requires GuardHead(sp1, sp2, sp3)
    ensures var line := sp1 + "#" + sp2 + "if" + sp3 + tail;
      && MatchHead(line, "if") == Some(|sp1| + 3 + |sp2|)
      && IsSedSpace(line[|sp1| + 3 + |sp2|])
  {
    var line := sp1 + "#" + sp2 + "if" + sp3 + tail;
    HeadMatch(sp1, sp2, "if", sp3 + tail);
    assert line == sp1 + "#" + sp2 + "if" + (sp3 + tail);
    var b := |sp1| + 1 + |sp2|;
    assert line[b..b + 2] == "if";
    assert line[b + 2] == sp3[0];
  }

  lemma DefinedTextNoOcc()
    ensures NoOcc("defined(", "NDEBUG")
  {
    NoOccWithoutFirst("defined(", "", "NDEBUG");
    assert "defined(" + "" == "defined(";
  }

  /** Rules 3 and 4 on a `#if` line where `pat` occurs exactly once, at `j`. */
  lemma DefinedRuleAt(line: string, pat: string, p: nat, j: nat, digit: string)
    requires MatchHead(line, "if") == Some(p) && p < |line| && IsSedSpace(line[p])
    requires p + 1 <= j && HasAt(line, j, pat)
    requires forall t :: HasAt(line, t, pat) ==> t == j
    ensures DefinedRule(line, pat, digit) == line[..j] + digit + line[j + |pat|..]
  {
    var r := LastOccurrence(line, pat, p + 1);
    assert HasAt(line, j, pat);
    assert r == Some(j);
  }

  /** Rules 3 and 4 on a line where `pat` does not occur. */
  lemma DefinedRuleAbsent(line: string, pat: string, digit: string)
    requires NoOcc(line, pat)
    ensures DefinedRule(line, pat, digit) == line
  {
  }

  /** In `<head><mid>!defined(NDEBUG)<rest>` the guard holds the only `NDEBUG`. */
  lemma NotDefinedOnlyOcc(hm: string, rest: string)
    requires NoOcc(hm, "NDEBUG") && NoOcc(rest, "NDEBUG")
    ensures forall t :: HasAt(hm + "!defined(NDEBUG)" + rest, t, "NDEBUG") ==> t == |hm| + 9
  {
    DefinedTextNoOcc();
    NoOccJoin(hm, '!', "defined(");
    NoOccWithoutFirst(")", rest, "NDEBUG");
    var x := hm + ['!'] + "defined(";
    OnlyOccurrence(x, ")" + rest);
    assert hm + "!defined(NDEBUG)" + rest == x + "NDEBUG" + (")" + rest);
  }

  /** In `<head><mid>defined(NDEBUG)<rest>` the guard holds the only `NDEBUG`. */
  lemma DefinedOnlyOcc(hm: string, rest: string)
    requires NoOcc(hm, "NDEBUG") && NoOcc(rest, "NDEBUG")
    ensures forall t :: HasAt(hm + "defined(NDEBUG)" + rest, t, "NDEBUG") ==> t == |hm| + 8
  {
    NoOccWithoutFirst("efined(", "", "NDEBUG");
    assert "efined(" + "" == "efined(";
    NoOccJoin(hm, 'd', "efined(");
    NoOccWithoutFirst(")", rest, "NDEBUG");
    var x := hm + ['d'] + "efined(";
    OnlyOccurrence(x, ")" + rest);
    assert hm + "defined(NDEBUG)" + rest == x + "NDEBUG" + (")" + rest);
  }

  /** The guarded pattern occurs exactly once, where it was written. */
  lemma GuardOccursOnce(hm: string, pat: string, off: nat, rest: string)
    requires HasAt(pat, off, "NDEBUG")
    requires forall t :: HasAt(hm + pat + rest, t, "NDEBUG") ==> t == |hm| + off
    ensures HasAt(hm + pat + rest, |hm|, pat)
    ensures forall t :: HasAt(hm + pat + rest, t, pat) ==> t == |hm|
  {
    var line := hm + pat + rest;
    assert line[|hm|..|hm| + |pat|] == pat;
    forall t | HasAt(line, t, pat) ensures t == |hm| {
      InnerOccurrence(line, t, pat, off);
    }
  }

  /** `#if ... !defined(NDEBUG) <rest>`: the last test becomes `<debug>`. */
  lemma NotDefinedGuard(sp1: string, sp2: string, sp3: string, mid: string, rest: string, e: bool)
    requires GuardHead(sp1, sp2, sp3)
    requires NoOcc(mid, "NDEBUG") && NoOcc(rest, "NDEBUG")
    ensures PatchLine(sp1 + "#" + sp2 + "if" + sp3 + mid + "!defined(NDEBUG)" + rest, e)
         == sp1 + "#" + sp2 + "if" + sp3 + mid + DebugDigit(e) + rest
  {
    IfHeadMatch(sp1, sp2, sp3, mid + "!defined(NDEBUG)" + rest, DebugDigit(e), NDebugDigit(e));
    IfHeadNoOcc(sp1, sp2, sp3, mid);
    NotDefinedAfterHead(sp1 + "#" + sp2 + "if" + sp3, mid, rest, |sp1| + 3 + |sp2|, e);
  }

  /** `NotDefinedCore` for a line given as a head followed by the rest of the line. */
  lemma NotDefinedAfterHead(head: string, mid: string, rest: string, p: nat, e: bool)
    requires NoOcc(head + mid, "NDEBUG") && NoOcc(rest, "NDEBUG")
    requires p + 1 <= |head|
    requires var line := head + (mid + "!defined(NDEBUG)" + rest);
      && GuardRule(line, "ifndef", DebugDigit(e)) == line
      && GuardRule(line, "ifdef", NDebugDigit(e)) == line
      && MatchHead(line, "if") == Some(p) && IsSedSpace(line[p])
    ensures PatchLine(head + mid + "!defined(NDEBUG)" + rest, e) == head + mid + DebugDigit(e) + rest
  {
    Regroup(head, mid, "!defined(NDEBUG)", rest);
    NotDefinedCore(head + mid, rest, p, e);
  }

  lemma Regroup(a: string, b: string, c: string, d: string)
    ensures a + (b + c + d) == a + b + c + d
  {
  }

  /** Rules 1 to 4 on an `#if` line `<hm>!defined(NDEBUG)<rest>` whose head ends at `p`. */
  lemma NotDefinedCore(hm: string, rest: string, p: nat, e: bool)
    requires NoOcc(hm, "NDEBUG") && NoOcc(rest, "NDEBUG")
    requires p + 1 <= |hm|
    requires var line := hm + "!defined(NDEBUG)" + rest;
      && GuardRule(line, "ifndef", DebugDigit(e)) == line
      && GuardRule(line, "ifdef", NDebugDigit(e)) == line
      && MatchHead(line, "if") == Some(p) && IsSedSpace(line[p])
    ensures PatchLine(hm + "!defined(NDEBUG)" + rest, e) == hm + DebugDigit(e) + rest
  {
    NotDefinedRules(hm, rest, p, DebugDigit(e), NDebugDigit(e));
    PatchLineSteps(hm + "!defined(NDEBUG)" + rest, e, hm + DebugDigit(e) + rest, hm + DebugDigit(e) + rest);
  }

  /** Rules 3 and 4 on `<hm>!defined(NDEBUG)<rest>`: rule 3 rewrites the guard, and rule 4
      finds nothing left to rewrite. */
  lemma NotDefinedRules(hm: string, rest: string, p: nat, d: string, nd: string)
    requires NoOcc(hm, "NDEBUG") && NoOcc(rest, "NDEBUG")
    requires |d| == 1 && d[0] !in "NDEBUG"
    requires p + 1 <= |hm|
    requires MatchHead(hm + "!defined(NDEBUG)" + rest, "if") == Some(p)
    requires IsSedSpace((hm + "!defined(NDEBUG)" + rest)[p])
    ensures DefinedRule(hm + "!defined(NDEBUG)" + rest, "!defined(NDEBUG)", d) == hm + d + rest
    ensures DefinedRule(hm + d + rest, "defined(NDEBUG)", nd) == hm + d + rest
  {
    var pat := "!defined(NDEBUG)";
    NotDefinedOnlyOcc(hm, rest);
    assert pat[9..15] == "NDEBUG";
    RewriteOnly(hm, pat, 9, rest, p, d);
    var out := hm + d + rest;
    NoOccJoin(hm, d[0], rest);
    assert out == hm + [d[0]] + rest;
    RulesKeepPlainLine(out, "ifdef", "defined(NDEBUG)", 8, nd);
  }

  /** The four rules in order, given the result of each. */
  lemma PatchLineSteps(line: string, e: bool, l3: string, out: string)
    requires GuardRule(line, "ifndef", DebugDigit(e)) == line
    requires GuardRule(line, "ifdef", NDebugDigit(e)) == line
    requires DefinedRule(line, "!defined(NDEBUG)", DebugDigit(e)) == l3
    requires DefinedRule(l3, "defined(NDEBUG)", NDebugDigit(e)) == out
    ensures PatchLine(line, e) == out
  {
  }

  /** Rules 3 and 4 on an `#if` line whose only `NDEBUG` lies in the one occurrence of
      `pat`: that occurrence becomes the digit. */
  lemma RewriteOnly(hm: string, pat: string, off: nat, rest: string, p: nat, digit: string)
    requires HasAt(pat, off, "NDEBUG")
    requires forall t :: HasAt(hm + pat + rest, t, "NDEBUG") ==> t == |hm| + off
    requires MatchHead(hm + pat + rest, "if") == Some(p) && p + 1 <= |hm| && IsSedSpace((hm + pat + rest)[p])
    ensures DefinedRule(hm + pat + rest, pat, digit) == hm + digit + rest
  {
    var line := hm + pat + rest;
    GuardOccursOnce(hm, pat, off, rest);
    DefinedRuleAt(line, pat, p, |hm|, digit);
    assert line[..|hm|] == hm && line[|hm| + |pat|..] == rest;
  }

  /** Rule 3 leaves a `defined(NDEBUG)` guard without `!` alone. */
  lemma NoNegatedGuard(hm: string, rest: string)
    requires NoOcc(hm, "NDEBUG") && NoOcc(rest, "NDEBUG")
    requires |hm| > 0 && hm[|hm| - 1] != '!'
    ensures NoOcc(hm + "defined(NDEBUG)" + rest, "!defined(NDEBUG)")
  {
    var line := hm + "defined(NDEBUG)" + rest;
    DefinedOnlyOcc(hm, rest);
    assert line[|hm| - 1] == hm[|hm| - 1];
    forall t ensures !HasAt(line, t, "!defined(NDEBUG)") {
      InnerOccurrence(line, t, "!defined(NDEBUG)", 9);
      if t == |hm| - 1 {
        assert line[t..t + 16][0] == line[t];
      }
    }
  }

  lemma LastBeforeGuard(sp1: string, sp2: string, sp3: string, mid: string)
    requires GuardHead(sp1, sp2, sp3)
    requires |mid| > 0 ==> mid[|mid| - 1] != '!'
    ensures var hm := sp1 + "#" + sp2 + "if" + sp3 + mid; |hm| > 0 && hm[|hm| - 1] != '!'
  {
    var hm := sp1 + "#" + sp2 + "if" + sp3 + mid;
    if |mid| > 0 { assert hm[|hm| - 1] == mid[|mid| - 1]; }
    else { assert hm[|hm| - 1] == sp3[|sp3| - 1]; }
  }

  /** `#if ... defined(NDEBUG) <rest>` (not preceded by `!`): the last test becomes `<ndebug>`. */
  lemma DefinedGuard(sp1: string, sp2: string, sp3: string, mid: string, rest: string, e: bool)
    requires GuardHead(sp1, sp2, sp3)
    requires NoOcc(mid, "NDEBUG") && NoOcc(rest, "NDEBUG")
    requires |mid| > 0 ==> mid[|mid| - 1] != '!'
    ensures PatchLine(sp1 + "#" + sp2 + "if" + sp3 + mid + "defined(NDEBUG)" + rest, e)
         == sp1 + "#" + sp2 + "if" + sp3 + mid + NDebugDigit(e) + rest
  {
    IfHeadMatch(sp1, sp2, sp3, mid + "defined(NDEBUG)" + rest, DebugDigit(e), NDebugDigit(e));
    IfHeadNoOcc(sp1, sp2, sp3, mid);
    LastBeforeGuard(sp1, sp2, sp3, mid);
    DefinedAfterHead(sp1 + "#" + sp2 + "if" + sp3, mid, rest, |sp1| + 3 + |sp2|, e);
  }

  /** `DefinedCore` for a line given as a head followed by the rest of the line. */
  lemma DefinedAfterHead(head: string, mid: string, rest: string, p: nat, e: bool)
    requires NoOcc(head + mid, "NDEBUG") && NoOcc(rest, "NDEBUG")
    requires p + 1 <= |head|
    requires |head + mid| > 0 && (head + mid)[|head + mid| - 1] != '!'
    requires var line := head + (mid + "defined(NDEBUG)" + rest);
      && GuardRule(line, "ifndef", DebugDigit(e)) == line
      && GuardRule(line, "ifdef", NDebugDigit(e)) == line
      && MatchHead(line, "if") == Some(p) && IsSedSpace(line[p])
    ensures PatchLine(head + mid + "defined(NDEBUG)" + rest, e) == head + mid + NDebugDigit(e) + rest
  {
    Regroup(head, mid, "defined(NDEBUG)", rest);
    DefinedCore(head + mid, rest, p, e);
  }

  /** Rules 1 to 4 on an `#if` line `<hm>defined(NDEBUG)<rest>` whose head ends at `p`. */
  lemma DefinedCore(hm: string, rest: string, p: nat, e: bool)
    requires NoOcc(hm, "NDEBUG") && NoOcc(rest, "NDEBUG")
    requires p + 1 <= |hm| && hm[|hm| - 1] != '!'
    requires var line := hm + "defined(NDEBUG)" + rest;
      && GuardRule(line, "ifndef", DebugDigit(e)) == line
      && GuardRule(line, "ifdef", NDebugDigit(e)) == line
      && MatchHead(line, "if") == Some(p) && IsSedSpace(line[p])
    ensures PatchLine(hm + "defined(NDEBUG)" + rest, e) == hm + NDebugDigit(e) + rest
  {
    DefinedRules(hm, rest, p, DebugDigit(e), NDebugDigit(e));
    PatchLineSteps(hm + "defined(NDEBUG)" + rest, e, hm + "defined(NDEBUG)" + rest, hm + NDebugDigit(e) + rest);
  }

  /** Rules 3 and 4 on `<hm>defined(NDEBUG)<rest>`: rule 3 finds no `!defined(NDEBUG)`,
      and rule 4 rewrites the guard. */
  lemma DefinedRules(hm: string, rest: string, p: nat, d: string, nd: string)
    requires NoOcc(hm, "NDEBUG") && NoOcc(rest, "NDEBUG")
    requires p + 1 <= |hm| && hm[|hm| - 1] != '!'
    requires MatchHead(hm + "defined(NDEBUG)" + rest, "if") == Some(p)
    requires IsSedSpace((hm + "defined(NDEBUG)" + rest)[p])
    ensures DefinedRule(hm + "defined(NDEBUG)" + rest, "!defined(NDEBUG)", d) == hm + "defined(NDEBUG)" + rest
    ensures DefinedRule(hm + "defined(NDEBUG)" + rest, "defined(NDEBUG)", nd) == hm + nd + rest
  {
    var pat := "defined(NDEBUG)";
    NoNegatedGuard(hm, rest);
    DefinedRuleAbsent(hm + pat + rest, "!defined(NDEBUG)", d);
    DefinedOnlyOcc(hm, rest);
    assert pat[8..14] == "NDEBUG";
    RewriteOnly(hm, pat, 8, rest, p, nd);
  }
}

=== FILE: order.dfy ===
/** Python's ordering of strings (code point by code point, a proper prefix first) and
    `list.sort(reverse=True)` over it. */
module Order {

  /** `a < b` on Python strings. */
  predicate Less(a: string, b: string)
    decreases |a|
  {
    |b| > 0 && (|a| == 0 || a[0] < b[0] || (a[0] == b[0] && Less(a[1..], b[1..])))
  }

  /** `a <= b` on Python strings. */
  predicate LessEq(a: string, b: string) {
    a == b || Less(a, b)
  }

  lemma {:induction false} LessIrreflexive(a: string)
    ensures !Less(a, a)
    decreases |a|
  {
    if |a| > 0 { LessIrreflexive(a[1..]); }
  }

  lemma {:induction false} LessAsymmetric(a: string, b: string)
    requires Less(a, b)
    ensures !Less(b, a) && a != b
    decreases |a|
  {
    if |a| > 0 && a[0] == b[0] {
      LessAsymmetric(a[1..], b[1..]);
      if a == b { LessIrreflexive(a); }
    }
  }

  lemma {:induction false} LessTransitive(a: string, b: string, c: string)
    requires Less(a, b) && Less(b, c)
    ensures Less(a, c)
    decreases |a|
  {
    if |a| > 0 && a[0] == b[0] && b[0] == c[0] {
      LessTransitive(a[1..], b[1..], c[1..]);
    }
  }

  lemma {:induction false} LessTotal(a: string, b: string)
    ensures a == b || Less(a, b) || Less(b, a)
    decreases |a|
  {
    if |a| > 0 && |b| > 0 && a[0] == b[0] {
      LessTotal(a[1..], b[1..]);
      if a[1..] == b[1..] { assert a == [a[0]] + a[1..] && b == [b[0]] + b[1..]; }
    }
  }

  /** A string is strictly below any string that extends it with a larger character at
      the first point where they differ. */
  lemma {:induction false} LessAtFirstDifference(p: string, x: string, y: string)
    requires |y| > 0 && (|x| == 0 || x[0] < y[0])
    ensures Less(p + x, p + y)
    decreases |p|
  {
    if |p| > 0 {
      assert (p + x)[1..] == p[1..] + x && (p + y)[1..] == p[1..] + y;
      LessAtFirstDifference(p[1..], x, y);
    }
  }

  /** Descending order, as `list.sort(reverse=True)` leaves it. */
  predicate SortedDesc(s: seq<string>) {
    forall i, j :: 0 <= i < j < |s| ==> LessEq(s[j], s[i])
  }

  /** Inserting into a descending list, before the first element that is not greater. */
  function InsertDesc(x: string, s: seq<string>): (r: seq<string>)
    requires SortedDesc(s)
    ensures SortedDesc(r)
    ensures multiset(r) == multiset(s) + multiset{x}
  {
    if |s| == 0 then [x]
    else if LessEq(s[0], x) then
      BelowHead(s, x);
      PrependAbove(x, s);
      [x] + s
    else
      var t := InsertDesc(x, s[1..]);
      LessTotal(s[0], x);
      TailBelowHead(s, x, t);
      PrependAbove(s[0], t);
      assert s == [s[0]] + s[1..];
      [s[0]] + t
  }

  /** A descending list stays descending under a new head no smaller than its own. */
  lemma PrependAbove(h: string, s: seq<string>)
    requires SortedDesc(s)
    requires forall e | e in multiset(s) :: LessEq(e, h)
    ensures SortedDesc([h] + s)
  {
    forall i, j | 0 <= i < j < |s| + 1 ensures LessEq(([h] + s)[j], ([h] + s)[i]) {
      if i == 0 { assert s[j - 1] in multiset(s); }
    }
  }

  /** Every element of the recursive insertion's result is at most the list's head. */
  lemma TailBelowHead(s: seq<string>, x: string, t: seq<string>)
    requires SortedDesc(s) && |s| > 0
    requires LessEq(x, s[0])
    requires multiset(t) == multiset(s[1..]) + multiset{x}
    ensures forall e | e in multiset(t) :: LessEq(e, s[0])
  {
    forall e | e in multiset(t) ensures LessEq(e, s[0]) {
      if e != x {
        assert e in multiset(s[1..]);
        var j :| 0 <= j < |s[1..]| && s[1..][j] == e;
        assert s[j + 1] == e;
      }
    }
  }

  /** Every element of a descending list is at most its head. */
  lemma BelowHead(s: seq<string>, h: string)
    requires SortedDesc(s) && |s| > 0 && LessEq(s[0], h)
    ensures forall e | e in multiset(s) :: LessEq(e, h)
  {
    forall e | e in multiset(s) ensures LessEq(e, h) {
      var j :| 0 <= j < |s| && s[j] == e;
      if s[j] != s[0] && s[0] != h { LessTransitive(s[j], s[0], h); }
    }
  }

  /** `sorted(s, reverse=True)`: a descending permutation of `s`. */
  function SortDesc(s: seq<string>): (r: seq<string>)
    ensures SortedDesc(r)
    ensures multiset(r) == multiset(s)
  {
    if |s| == 0 then []
    else
      assert s == [s[0]] + s[1..];
      InsertDesc(s[0], SortDesc(s[1..]))
  }

  /** In a descending list a strictly smaller element always comes later. */
  lemma SmallerComesLater(s: seq<string>, i: int, j: int)
    requires SortedDesc(s)
    requires 0 <= i < |s| && 0 <= j < |s|
    requires Less(s[i], s[j])
    ensures j < i
  {
    if i <= j {
      if i == j { LessIrreflexive(s[i]); } else { LessAsymmetric(s[i], s[j]); }
    }
  }
}

=== FILE: posixpath.dfy ===
/** The part of `pathlib.PurePosixPath` that `get_worktree_root` relies on: parsing a
    string into a root and components, `.parent`, `/`, `str()` and equality. */
module PosixPath {
  import opened Text
  import opened FileSystem

  /** `root` is `""` for a relative path, `"/"` for an absolute one, and `"//"` when the
      string starts with exactly two slashes, which POSIX leaves implementation-defined and
      pathlib therefore keeps apart from `"/"`. */
  datatype PurePath = PurePath(root: string, parts: seq<string>)

  predicate ValidRoot(r: string) {
    r == "" || r == "/" || r == "//"
  }

  /** A component as pathlib stores it: non-empty, no `/`, and not `.`. */
  predicate CleanPart(x: string) {
    |x| > 0 && Free(x, '/') && x != "."
  }

  predicate ValidPath(p: PurePath) {
    ValidRoot(p.root) && forall x :: x in p.parts ==> CleanPart(x)
  }

  /** Drops the empty and `.` pieces of a split path. */
  function Keep(xs: seq<string>): (r: seq<string>)
    requires forall x :: x in xs ==> Free(x, '/')
    ensures forall x :: x in r ==> CleanPart(x)
    ensures |r| <= |xs|
  {
    if |xs| == 0 then []
    else
      assert xs[0] in xs && forall x :: x in xs[1..] ==> x in xs;
      if xs[0] == "" || xs[0] == "." then Keep(xs[1..])
      else [xs[0]] + Keep(xs[1..])
  }

  lemma {:induction false} KeepClean(xs: seq<string>)
    requires forall x :: x in xs ==> CleanPart(x)
    ensures (forall x :: x in xs ==> Free(x, '/')) && Keep(xs) == xs
  {
    if |xs| > 0 {
      assert xs[0] in xs && forall x :: x in xs[1..] ==> x in xs;
      KeepClean(xs[1..]);
      assert xs == [xs[0]] + xs[1..];
    }
  }

  /** The root of `s`: no leading slash, exactly two, or any other number. */
  function RootOf(s: string): (r: string)
    ensures ValidRoot(r)
    ensures r != "" <==> |s| > 0 && s[0] == '/'
  {
    if |s| > 0 && s[0] == '/' then
      if |s| >= 2 && s[1] == '/' && (|s| == 2 || s[2] != '/') then "//" else "/"
    else ""
  }

  /** pathlib's rule: the root is `//` exactly when stripping leading slashes removes two
      of them, `/` for any other positive number, and empty when there is none. */
  lemma RootOfCountsSlashes(s: string)
    ensures RootOf(s) == "//" <==> |s| - |LStrip(s, '/')| == 2
    ensures RootOf(s) == "/" <==> |s| - |LStrip(s, '/')| !in {0, 2}
  {
    var r := LStrip(s, '/');
    var n := |s| - |r|;
    assert |r| > 0 ==> s[n] == r[0];
    assert |"/"| == 1;
  }

  /** `PurePosixPath(s)` */
  function Parse(s: string): (p: PurePath)
    ensures ValidPath(p)
    ensures p.root == RootOf(s)
  {
    PurePath(RootOf(s), Keep(Split(LStrip(s, '/'), '/')))
  }

  /** `str(p)` */
  function Str(p: PurePath): string {
    if p.root == "" && |p.parts| == 0 then "." else p.root + Join(p.parts, "/")
  }

  /** `p.is_absolute()` */
  predicate IsAbsolute(p: PurePath) {
    p.root != ""
  }

  /** `p.parent`: the last component dropped; a bare root (or `.`) is its own parent. */
  function ParentOf(p: PurePath): (r: PurePath)
    ensures r.root == p.root
    ensures |p.parts| > 0 ==> r.parts + [p.parts[|p.parts| - 1]] == p.parts
    ensures |p.parts| == 0 ==> r == p
  {
    if |p.parts| == 0 then p else PurePath(p.root, p.parts[..|p.parts| - 1])
  }

  /** `p / name` for a single clean component. */
  function Child(p: PurePath, name: string): PurePath
    requires CleanPart(name)
  {
    PurePath(p.root, p.parts + [name])
  }

  lemma JoinFirst(parts: seq<string>)
    requires |parts| > 0 && |parts[0]| > 0
    ensures |Join(parts, "/")| > 0 && Join(parts, "/")[0] == parts[0][0]
  {
    if |parts| > 1 {
      assert Join(parts, "/") == parts[0] + ("/" + Join(parts[1..], "/"));
    }
  }

  lemma PartsFree(parts: seq<string>)
    requires forall x :: x in parts ==> CleanPart(x)
    ensures forall k :: 0 <= k < |parts| ==> Free(parts[k], '/')
  {
    forall k | 0 <= k < |parts| ensures Free(parts[k], '/') {
      assert parts[k] in parts;
    }
  }

  /** The components of a valid path survive joining, splitting and filtering. */
  lemma PartsOfJoin(parts: seq<string>)
    requires forall x :: x in parts ==> CleanPart(x)
    ensures Keep(Split(Join(parts, "/"), '/')) == parts
  {
    PartsFree(parts);
    if |parts| == 0 {
      assert Split("", '/') == [""];
    } else {
      assert "/" == ['/'];
      SplitOfJoin(parts, '/');
      KeepClean(parts);
    }
  }

  /** The joined components never start with a slash. */
  lemma JoinNoLeadingSlash(parts: seq<string>)
    requires forall x :: x in parts ==> CleanPart(x)
    ensures var j := Join(parts, "/"); |j| == 0 || j[0] != '/'
  {
    if |parts| > 0 {
      assert parts[0] in parts;
      JoinFirst(parts);
    }
  }

  /** Stripping the slashes of a root put in front of `j`. */
  lemma StripRoot(r: string, j: string)
    requires r == "" || r == "/" || r == "//"
    requires |j| == 0 || j[0] != '/'
    ensures LStrip(r + j, '/') == j
    ensures |r + j| - |LStrip(r + j, '/')| == |r|
  {
    if r == "/" {
      assert (r + j)[1..] == j;
    } else if r == "//" {
      assert (r + j)[1..] == "/" + j;
      assert ("/" + j)[1..] == j;
    } else {
      assert r + j == j;
    }
  }

  /** A root followed by a relative part has that root. */
  lemma RootOfRooted(r: string, j: string)
    requires ValidRoot(r)
    requires |j| == 0 || j[0] != '/'
    ensures RootOf(r + j) == r
  {
    if r == "/" {
      assert (r + j)[0] == '/' && (|j| == 0 || (r + j)[1] == j[0]);
    } else if r == "//" {
      assert (r + j)[0] == '/' && (r + j)[1] == '/' && (|j| == 0 || (r + j)[2] == j[0]);
    } else {
      assert r + j == j;
    }
  }

  /** Parsing the printed form of a valid path gives the path back. */
  lemma ParseStr(p: PurePath)
    requires ValidPath(p)
    ensures Parse(Str(p)) == p
  {
    var j := Join(p.parts, "/");
    PartsOfJoin(p.parts);
    JoinNoLeadingSlash(p.parts);
    if p.root == "" && |p.parts| == 0 {
      assert Str(p) == ".";
      assert Split(".", '/') == ["."];
    } else {
      assert Str(p) == p.root + j;
      StripRoot(p.root, j);
      RootOfRooted(p.root, j);
    }
  }

  /** Two valid paths print the same exactly when they are the same path, so comparing
      paths (as pathlib does, through their printed form) is comparing the datatype. */
  lemma StrInjective(p: PurePath, q: PurePath)
    requires ValidPath(p) && ValidPath(q)
    ensures Str(p) == Str(q) <==> p == q
  {
    if Str(p) == Str(q) {
      ParseStr(p);
      ParseStr(q);
    }
  }
}

=== FILE: rpath.dfy ===
/** The RPATH rewrite of `_fix_rpath`: every ELF file found under the staged prefix gets
    `$ORIGIN/<path from the file's directory back to the prefix root>` in place of the
    placeholder, computed by `realpath --relative-to="$(dirname "$EXECUTABLE")" "."`. */
module Rpath {
  import opened Wrappers
  import opened Text
  import opened FileSystem

  /** Number of directories from the prefix root down to `d` (0 for the root). */
  function Levels(d: string): nat
    decreases |d|
  {
    if d == [] then 0 else 1 + Levels(Parent(d))
  }

  /** `n` copies of `..`. */
  function Ups(n: nat): (r: seq<string>)
    ensures |r| == n && forall k :: 0 <= k < n ==> r[k] == ".."
  {
    seq(n, _ => "..")
  }

  /** What `realpath --relative-to=d .` prints: `.` at the root, `..` once per level. */
  function RelativeToRoot(d: string): string {
    if Levels(d) == 0 then "." else Join(Ups(Levels(d)), "/")
  }

  /** The replacement written into the dynamic string table of the ELF file at `exe`. */
  function RpathReplacement(exe: string): string {
    "$ORIGIN/" + RelativeToRoot(Parent(exe))
  }

  /** Resolves relative components one at a time starting from directory `d`; going above
      the prefix root is `None`. */
  function Walk(d: string, comps: seq<string>): (r: Option<string>)
    decreases |comps|
  {
    if |comps| == 0 then Some(d)
    else if comps[0] == "." then Walk(d, comps[1..])
    else if comps[0] == ".." then (if d == [] then None else Walk(Parent(d), comps[1..]))
    else Walk(JoinPath(d, comps[0]), comps[1..])
  }

  /** `Levels(d)` steps up from `d` reach the prefix root and no further. */
  lemma {:induction false} UpsReachRoot(d: string)
    ensures Walk(d, Ups(Levels(d))) == Some([])
    decreases |d|
  {
    if d != [] {
      UpsReachRoot(Parent(d));
      assert Ups(Levels(d))[1..] == Ups(Levels(Parent(d)));
    }
  }

  /** One step fewer stays strictly below the root. */
  lemma {:induction false} FewerUpsStayBelow(d: string, n: nat)
    requires n < Levels(d)
    ensures Walk(d, Ups(n)).Some? && Walk(d, Ups(n)).value != []
    decreases n
  {
    if n > 0 {
      assert Ups(n)[1..] == Ups(n - 1);
      FewerUpsStayBelow(Parent(d), n - 1);
    }
  }

  /** Following the replacement from the file's directory leads exactly to the prefix root:
      the split path is the right number of `..` (or a single `.`), and walking it from
      the file's directory ends at the root. */
  lemma RpathResolvesToRoot(exe: string)
    ensures StartsWith(RpathReplacement(exe), "$ORIGIN/")
    ensures var rel := RemovePrefix(RpathReplacement(exe), "$ORIGIN/");
      Walk(Parent(exe), Split(rel, '/')) == Some([])
  {
    var d := Parent(exe);
    var rel := RelativeToRoot(d);
    assert RpathReplacement(exe)[..8] == "$ORIGIN/";
    assert RemovePrefix(RpathReplacement(exe), "$ORIGIN/") == rel;
    if Levels(d) == 0 {
      assert d == [];
      assert Split(".", '/') == ["."];
    } else {
      SplitOfJoin(Ups(Levels(d)), '/');
      UpsReachRoot(d);
    }
  }
}

=== FILE: text.dfy ===
/** Python `str` operations the install engine relies on, over `string = seq<char>`. */
module Text {

  /** `s.startswith(p)` */
  predicate StartsWith(s: string, p: string) {
    |p| <= |s| && s[..|p|] == p
  }

  /** `remove_prefix(string, prefix)`: the prefix is cut off when present, otherwise the
      string is returned unchanged. */
  function RemovePrefix(s: string, p: string): (r: string)
    ensures StartsWith(s, p) ==> p + r == s
    ensures !StartsWith(s, p) ==> r == s
  {
    if StartsWith(s, p) then s[|p|..] else s
  }

  /** `c.isspace()` for Python strings: the ASCII whitespace, the four ASCII information
      separators and the Unicode space characters. */
  predicate IsSpace(c: char) {
    || ('\t' <= c <= '\r') || ('\U{1c}' <= c <= '\U{1f}') || c == ' '
    || c == '\U{85}' || c == '\U{a0}' || c == '\U{1680}' || ('\U{2000}' <= c <= '\U{200a}')
    || c == '\U{2028}' || c == '\U{2029}' || c == '\U{202f}' || c == '\U{205f}' || c == '\U{3000}'
  }

  /** True when `s` neither starts nor ends with whitespace, so `strip` leaves it alone. */
  predicate NoEdgeSpace(s: string) {
    |s| == 0 || (!IsSpace(s[0]) && !IsSpace(s[|s| - 1]))
  }

  /** Index of the first non-whitespace character (or `|s|`). */
  function StripStart(s: string): (i: nat)
    ensures i <= |s|
    ensures forall k :: 0 <= k < i ==> IsSpace(s[k])
    ensures i < |s| ==> !IsSpace(s[i])
  {
    if |s| == 0 || !IsSpace(s[0]) then 0 else 1 + StripStart(s[1..])
  }

  /** End index of the last non-whitespace character (or `0`). */
  function StripEnd(s: string): (j: nat)
    ensures j <= |s|
    ensures forall k :: j <= k < |s| ==> IsSpace(s[k])
    ensures 0 < j ==> !IsSpace(s[j - 1])
  {
    if |s| == 0 || !IsSpace(s[|s| - 1]) then |s| else StripEnd(s[..|s| - 1])
  }

  /** `s.strip()`: the infix left after removing leading and trailing whitespace. */
  function Strip(s: string): (r: string)
    ensures NoEdgeSpace(r)
    ensures |r| <= |s|
    ensures (forall k :: 0 <= k < |s| ==> IsSpace(s[k])) <==> r == []
  {
    var i := StripStart(s);
    var j := StripEnd(s);
    if i < j then s[i..j] else []
  }

  /** Stripping a string with clean edges and some trailing whitespace gives the string back. */
  lemma StripPadded(s: string, w: string)
    requires NoEdgeSpace(s)
    requires forall k :: 0 <= k < |w| ==> IsSpace(w[k])
    ensures Strip(s + w) == s
  {
    var t := s + w;
    var i := StripStart(t);
    var j := StripEnd(t);
    if |s| > 0 {
      assert t[0] == s[0];
      assert i == 0;
      assert t[|s| - 1] == s[|s| - 1];
      assert !IsSpace(t[|s| - 1]);
      assert forall k :: |s| <= k < |t| ==> IsSpace(t[k]) by {
        forall k | |s| <= k < |t| ensures IsSpace(t[k]) { assert t[k] == w[k - |s|]; }
      }
      assert j == |s|;
      assert t[i..j] == s;
    } else {
      assert forall k :: 0 <= k < |t| ==> IsSpace(t[k]) by {
        forall k | 0 <= k < |t| ensures IsSpace(t[k]) { assert t[k] == w[k]; }
      }
    }
  }

  /** `s.lstrip(c)` for a one-character argument. */
  function LStrip(s: string, c: char): (r: string)
    ensures |r| <= |s| && r == s[|s| - |r|..]
    ensures forall k :: 0 <= k < |s| - |r| ==> s[k] == c
    ensures |r| == 0 || r[0] != c
  {
    if |s| > 0 && s[0] == c then LStrip(s[1..], c) else s
  }

  /** Index of the first occurrence of `c` in `s`, or `|s|` when there is none. */
  function IndexOf(s: string, c: char): (i: nat)
    ensures i <= |s|
    ensures i < |s| ==> s[i] == c
    ensures forall k :: 0 <= k < i ==> s[k] != c
  {
    if |s| == 0 || s[0] == c then 0 else 1 + IndexOf(s[1..], c)
  }

  /** Concatenation of a sequence of strings. */
  function Concat(xs: seq<string>): string {
    if |xs| == 0 then [] else xs[0] + Concat(xs[1..])
  }

  /** `sep.join(xs)` */
  function Join(xs: seq<string>, sep: string): string {
    if |xs| == 0 then [] else if |xs| == 1 then xs[0] else xs[0] + sep + Join(xs[1..], sep)
  }

  /** `w` occurs in `s` starting at index `i`. */
  predicate HasAt(s: string, i: int, w: string) {
    0 <= i && i + |w| <= |s| && s[i..i + |w|] == w
  }

  /** `c` does not occur in `s`. */
  predicate Free(s: string, c: char) {
    forall k :: 0 <= k < |s| ==> s[k] != c
  }

  /** `s.split(c)`: the pieces between occurrences of `c`, at least one. */
  function Split(s: string, c: char): (r: seq<string>)
    ensures |r| > 0
    ensures Join(r, [c]) == s
    ensures forall k :: 0 <= k < |r| ==> Free(r[k], c)
    decreases |s|
  {
    var i := IndexOf(s, c);
    if i == |s| then [s]
    else
      var rest := Split(s[i + 1..], c);
      assert s == s[..i] + [c] + s[i + 1..];
      [s[..i]] + rest
  }

  /** Splitting undoes joining, when no piece holds the separator. */
  lemma {:induction false} SplitOfJoin(xs: seq<string>, c: char)
    requires |xs| > 0
    requires forall k :: 0 <= k < |xs| ==> Free(xs[k], c)
    ensures Split(Join(xs, [c]), c) == xs
    decreases |xs|
  {
    var s := Join(xs, [c]);
    if |xs| == 1 {
      assert IndexOf(s, c) == |s|;
    } else {
      var tail := Join(xs[1..], [c]);
      assert s == xs[0] + [c] + tail;
      assert s[|xs[0]|] == c;
      assert IndexOf(s, c) == |xs[0]| by {
        assert forall k :: 0 <= k < |xs[0]| ==> s[k] == xs[0][k];
      }
      assert s[|xs[0]| + 1..] == tail;
      SplitOfJoin(xs[1..], c);
      assert s[..|xs[0]|] == xs[0];
      assert xs == [xs[0]] + xs[1..];
    }
  }

  /** The string contains no line terminator at all. */
  predicate NoLineBreak(s: string) {
    forall k :: 0 <= k < |s| ==> s[k] != '\n' && s[k] != '\r'
  }

  /** A line as `readlines` returns it: non-empty, with a newline only as its last
      character. */
  predicate IsLine(l: string) {
    |l| > 0 && forall k :: 0 <= k < |l| - 1 ==> l[k] != '\n'
  }

  /** `readlines()` on already-decoded text: cut after every `\n`, keeping the `\n`; the
      last piece lacks it when the text does not end with a newline. */
  function SplitLines(t: string): (r: seq<string>)
    ensures Concat(r) == t
    ensures forall k :: 0 <= k < |r| ==> IsLine(r[k])
    ensures forall k :: 0 <= k < |r| - 1 ==> |r[k]| > 0 && r[k][|r[k]| - 1] == '\n'
    decreases |t|
  {
    if |t| == 0 then []
    else
      var i := IndexOf(t, '\n');
      if i < |t| then [t[..i + 1]] + SplitLines(t[i + 1..]) else [t]
  }

  /** Splitting a line that ends in `\n` off the front of a text. */
  lemma SplitLinesCons(l: string, rest: string)
    requires forall k :: 0 <= k < |l| ==> l[k] != '\n'
    ensures SplitLines(l + "\n" + rest) == [l + "\n"] + SplitLines(rest)
  {
    var t := l + "\n" + rest;
    assert t[|l|] == '\n';
    assert forall k :: 0 <= k < |l| ==> t[k] == l[k];
    assert IndexOf(t, '\n') == |l|;
    assert t[..|l| + 1] == l + "\n";
    assert t[|l| + 1..] == rest;
  }

  /** A text with no `\n` is one line (or none when empty). */
  lemma SplitLinesSingle(l: string)
    requires |l| > 0 && forall k :: 0 <= k < |l| ==> l[k] != '\n'
    ensures SplitLines(l) == [l]
  {
    assert IndexOf(l, '\n') == |l|;
  }

  /** Python's universal-newline translation when a text file is read: `\r\n` and a lone
      `\r` both become `\n`. */
  function NormalizeNewlines(t: string): (r: string)
    ensures forall k :: 0 <= k < |r| ==> r[k] != '\r'
    ensures |r| <= |t|
  {
    if |t| == 0 then []
    else if t[0] == '\r' then
      if |t| > 1 && t[1] == '\n' then "\n" + NormalizeNewlines(t[2..]) else "\n" + NormalizeNewlines(t[1..])
    else [t[0]] + NormalizeNewlines(t[1..])
  }

  /** A text without carriage returns is read back unchanged. */
  lemma {:induction false} NormalizeNewlinesNoCR(t: string)
    requires forall k :: 0 <= k < |t| ==> t[k] != '\r'
    ensures NormalizeNewlines(t) == t
    decreases |t|
  {
    if |t| > 0 {
      NormalizeNewlinesNoCR(t[1..]);
      assert [t[0]] + t[1..] == t;
    }
  }
}

=== FILE: tmproot.dfy ===
/** `_prepare_tmproot`: the skeleton of directories created in the freshly emptied staging
    prefix before the build's install script runs. Paths are lists of components relative
    to the staged prefix (`$TMP_ROOT$ORCHESTRA_ROOT`), which is the root `""` here. */
module Tmproot {
  import opened Wrappers
  import opened FileSystem

  datatype MkdirError =
    | FileExists(path: string)   // something other than a directory is in the way
    | TooManyLinks(path: string) // ELOOP while resolving a component
    | NotASymlink(path: string)  // `test -L` failed

  /** Resolves `comps` from directory `cur`, following symbolic links at every component;
      the directory reached, when every component is (or leads to) a directory. */
  function Walk(fs: Fs, cur: string, comps: seq<string>): Option<string>
    decreases |comps|
  {
    if |comps| == 0 then Some(cur)
    else
      match Follow(fs, JoinPath(cur, comps[0]), MaxSymlinkHops)
      case Some(t) => if t in fs && fs[t].Dir? then Walk(fs, t, comps[1..]) else None
      case None => None
  }

  /** `os.makedirs(path, exist_ok=True)` and `mkdir -p`: every missing component becomes a
      directory; an existing directory, or a link to one, is entered. */
  function MakeDirs(fs: Fs, cur: string, comps: seq<string>): (r: Result<Fs, MkdirError>)
    ensures r.Success? ==> Submap(fs, r.value)
    ensures r.Success? ==> forall k :: k in r.value && k !in fs ==> r.value[k] == Dir
    decreases |comps|
  {
    if |comps| == 0 then Success(fs)
    else
      var k := JoinPath(cur, comps[0]);
      match Follow(fs, k, MaxSymlinkHops)
      case None => Failure(TooManyLinks(k))
      case Some(t) =>
        if t in fs then
          if fs[t].Dir? then MakeDirs(fs, t, comps[1..]) else Failure(FileExists(k))
        else if k in fs then Failure(FileExists(k))
        else MakeDirs(fs[k := Dir], k, comps[1..])
  }

  /** Adding entries never breaks a path that already resolved. */
  lemma {:induction false} WalkSubmap(small: Fs, big: Fs, cur: string, comps: seq<string>)
    requires Submap(small, big)
    requires Walk(small, cur, comps).Some?
    ensures Walk(big, cur, comps) == Walk(small, cur, comps)
    decreases |comps|
  {
    if |comps| > 0 {
      var k := JoinPath(cur, comps[0]);
      FollowSubmap(small, big, k, MaxSymlinkHops);
      WalkSubmap(small, big, Follow(small, k, MaxSymlinkHops).value, comps[1..]);
    }
  }

  /** After `makedirs` succeeds, the whole path resolves to a directory. */
  lemma {:induction false} MakeDirsWalks(fs: Fs, cur: string, comps: seq<string>)
    requires MakeDirs(fs, cur, comps).Success?
    ensures Walk(MakeDirs(fs, cur, comps).value, cur, comps).Some?
    decreases |comps|
  {
    if |comps| > 0 {
      var r := MakeDirs(fs, cur, comps).value;
      var k := JoinPath(cur, comps[0]);
      var t := Follow(fs, k, MaxSymlinkHops).value;
      if t in fs {
        MakeDirsWalks(fs, t, comps[1..]);
        FollowSubmap(fs, r, k, MaxSymlinkHops);
      } else {
        MakeDirsWalks(fs[k := Dir], k, comps[1..]);
        assert k in r && r[k] == Dir;
      }
    }
  }

  /** `exist_ok=True`: creating a path that already resolves changes nothing. */
  lemma {:induction false} MakeDirsExisting(fs: Fs, cur: string, comps: seq<string>)
    requires Walk(fs, cur, comps).Some?
    ensures MakeDirs(fs, cur, comps) == Success(fs)
    decreases |comps|
  {
    if |comps| > 0 {
      var t := Follow(fs, JoinPath(cur, comps[0]), MaxSymlinkHops).value;
      MakeDirsExisting(fs, t, comps[1..]);
    }
  }

  /** Re-running a successful `makedirs` is harmless. */
  lemma MakeDirsIdempotent(fs: Fs, comps: seq<string>)
    requires MakeDirs(fs, [], comps).Success?
    ensures var r := MakeDirs(fs, [], comps).value; MakeDirs(r, [], comps) == Success(r)
  {
    MakeDirsWalks(fs, [], comps);
    MakeDirsExisting(MakeDirs(fs, [], comps).value, [], comps);
  }

  /** The commands of the preparation script and of the directory loop. */
  datatype Step =
    | MkdirP(path: seq<string>)                  // `mkdir -p` / `os.makedirs(..., exist_ok=True)`
    | LinkUnlessExists(name: string, target: string) // `test -e name || ln -s target name`
    | CheckLink(name: string)                    // `test -L name`
    | Touch(dir: seq<string>, name: string)      // `touch dir/name`

  function RunStep(fs: Fs, s: Step): (r: Result<Fs, MkdirError>)
    ensures r.Success? ==> Submap(fs, r.value)
  {
    match s
    case MkdirP(p) => MakeDirs(fs, [], p)
    case LinkUnlessExists(n, t) =>
      if Exists(fs, n) then Success(fs)
      else if n in fs then Failure(FileExists(n))
      else Success(fs[n := Symlink(t)])
    case CheckLink(n) =>
      if n in fs && fs[n].Symlink? then Success(fs) else Failure(NotASymlink(n))
    case Touch(d, n) =>
      match Walk(fs, [], d)
      case Some(dd) =>
        var k := JoinPath(dd, n);
        if k in fs then Success(fs) else Success(fs[k := File])
      case None => Failure(FileExists(n))
  }

  /** Runs the steps in order, stopping at the first failure. */
  function RunSteps(fs: Fs, steps: seq<Step>): (r: Result<Fs, MkdirError>)
    ensures r.Success? ==> Submap(fs, r.value)
    decreases |steps|
  {
    if |steps| == 0 then Success(fs)
    else
      match RunStep(fs, steps[0])
      case Success(next) => RunSteps(next, steps[1..])
      case Failure(e) => Failure(e)
  }

  /** Every `mkdir -p` step of a successful run resolves to a directory at the end. */
  lemma {:induction false} RunStepsWalks(fs: Fs, steps: seq<Step>)
    requires RunSteps(fs, steps).Success?
    ensures forall i :: 0 <= i < |steps| && steps[i].MkdirP? ==>
      Walk(RunSteps(fs, steps).value, [], steps[i].path).Some?
    decreases |steps|
  {
    if |steps| > 0 {
      var next := RunStep(fs, steps[0]).value;
      var last := RunSteps(fs, steps).value;
      RunStepsWalks(next, steps[1..]);
      if steps[0].MkdirP? {
        MakeDirsWalks(fs, [], steps[0].path);
        WalkSubmap(next, last, [], steps[0].path);
      }
      forall i | 1 <= i < |steps| && steps[i].MkdirP? ensures Walk(last, [], steps[i].path).Some? {
        assert steps[i] == steps[1..][i - 1];
      }
    }
  }

  /** A freshly emptied staging prefix. */
  const Fresh: Fs := map["" := Dir]

  /** The script of `orchestra/model/actions/install.py`, then its `paths_to_create`. */
  const ModelScript: seq<Step> := [
    MkdirP(["include"]), MkdirP(["lib64"]),
    LinkUnlessExists("lib", "lib64"), CheckLink("lib"),
    MkdirP(["bin"]), MkdirP(["libexec"])
  ]
  const PathsToCreate: seq<seq<string>> := [
    ["share", "info"], ["share", "doc"], ["share", "man"], ["include"], ["lib64"], ["bin"],
    ["libexec"], ["lib", "include"], ["lib", "pkgconfig"], ["usr", "lib"], ["usr", "include"]
  ]

  function ModelSteps(): seq<Step> {
    ModelScript + seq(|PathsToCreate|, i requires 0 <= i < |PathsToCreate| => MkdirP(PathsToCreate[i]))
  }

  /** The script of `orchestra/actions/install.py`. */
  const ActionsSteps: seq<Step> := [
    MkdirP(["include"]),
    MkdirP(["lib64"]), MkdirP(["lib64", "include"]), MkdirP(["lib64", "pkgconfig"]),
    LinkUnlessExists("lib", "lib64"), CheckLink("lib"),
    MkdirP(["bin"]),
    MkdirP(["usr", "lib"]), MkdirP(["usr", "include"]),
    MkdirP(["share", "info"]), MkdirP(["share", "doc"]), MkdirP(["share", "man"]),
    Touch(["share", "info"], "dir"),
    MkdirP(["libexec"])
  ]

  /** `mkdir -p a/b` where `a` resolves to the directory `t` and `t/b` is missing. */
  lemma MakeUnder(fs: Fs, a: string, t: string, b: string)
    requires a != [] && Follow(fs, a, MaxSymlinkHops) == Some(t) && t in fs && fs[t].Dir?
    requires JoinPath(t, b) !in fs
    ensures MakeDirs(fs, [], [a, b]) == Success(fs[JoinPath(t, b) := Dir])
  {
    var k := JoinPath(t, b);
    assert [a, b][1..] == [b];
    assert MakeDirs(fs[k := Dir], k, []) == Success(fs[k := Dir]);
    assert MakeDirs(fs, t, [b]) == Success(fs[k := Dir]);
  }

  /** `mkdir -p a/b` where `a` is a link to the directory `t` and `t/b` is missing. */
  lemma MakeUnderLink(fs: Fs, a: string, t: string, b: string)
    requires a != [] && a in fs && fs[a] == Symlink(t) && t in fs && fs[t] == Dir
    requires JoinPath(t, b) !in fs
    ensures MakeDirs(fs, [], [a, b]) == Success(fs[JoinPath(t, b) := Dir])
  {
    assert Follow(fs, t, MaxSymlinkHops - 1) == Some(t);
    MakeUnder(fs, a, t, b);
  }

  /** `mkdir -p a/b` where neither `a` nor `a/b` exists. */
  lemma MakeBoth(fs: Fs, a: string, b: string)
    requires a != [] && a !in fs && JoinPath(a, b) !in fs
    ensures MakeDirs(fs, [], [a, b]) == Success(fs[a := Dir][JoinPath(a, b) := Dir])
  {
    var k := JoinPath(a, b);
    var fs1 := fs[a := Dir];
    assert |k| > |a|;
    assert [a, b][1..] == [b];
    assert MakeDirs(fs1[k := Dir], k, []) == Success(fs1[k := Dir]);
    assert MakeDirs(fs1, a, [b]) == Success(fs1[k := Dir]);
  }

  /** The states the model script passes through, starting from a fresh prefix. */
  const S1: Fs := Fresh["include" := Dir]
  const S2: Fs := S1["lib64" := Dir]
  const S3: Fs := S2["lib" := Symlink("lib64")]
  const S4: Fs := S3["bin" := Dir]
  const S5: Fs := S4["libexec" := Dir]
  const S6: Fs := S5["share" := Dir]["share/info" := Dir]
  const S7: Fs := S6["share/doc" := Dir]
  const S8: Fs := S7["share/man" := Dir]
  const S9: Fs := S8["lib64/include" := Dir]
  const S10: Fs := S9["lib64/pkgconfig" := Dir]
  const S11: Fs := S10["usr" := Dir]["usr/lib" := Dir]
  const ModelTree: Fs := S11["usr/include" := Dir]

  lemma ModelStep0()
    ensures RunStep(Fresh, ModelSteps()[0]) == Success(S1)
  {
    assert ModelSteps()[0] == MkdirP(["include"]);
  }

  lemma ModelStep1()
    ensures RunStep(S1, ModelSteps()[1]) == Success(S2)
  {
    assert ModelSteps()[1] == MkdirP(["lib64"]);
  }

  lemma ModelStep2()
    ensures RunStep(S2, ModelSteps()[2]) == Success(S3)
  {
    assert ModelSteps()[2] == LinkUnlessExists("lib", "lib64");
  }

  lemma ModelStep3()
    ensures RunStep(S3, ModelSteps()[3]) == Success(S3)
  {
    assert ModelSteps()[3] == CheckLink("lib");
  }

  lemma ModelStep4()
    ensures RunStep(S3, ModelSteps()[4]) == Success(S4)
  {
    assert ModelSteps()[4] == MkdirP(["bin"]);
  }

  lemma ModelStep5()
    ensures RunStep(S4, ModelSteps()[5]) == Success(S5)
  {
    assert ModelSteps()[5] == MkdirP(["libexec"]);
  }

  lemma ModelStep6()
    ensures RunStep(S5, ModelSteps()[6]) == Success(S6)
  {
    assert JoinPath("share", "info") == "share/info";
    assert ModelSteps()[6] == MkdirP(["share", "info"]);
    MakeBoth(S5, "share", "info");
  }

  lemma ModelStep7()
    ensures RunStep(S6, ModelSteps()[7]) == Success(S7)
  {
    assert JoinPath("share", "doc") == "share/doc";
    assert ModelSteps()[7] == MkdirP(["share", "doc"]);
    MakeUnder(S6, "share", "share", "doc");
  }

  lemma ModelStep8()
    ensures RunStep(S7, ModelSteps()[8]) == Success(S8)
  {
    assert JoinPath("share", "man") == "share/man";
    assert ModelSteps()[8] == MkdirP(["share", "man"]);
    MakeUnder(S7, "share", "share", "man");
  }

  lemma ModelStep9()
    ensures RunStep(S8, ModelSteps()[9]) == Success(S8)
  {
    assert ModelSteps()[9] == MkdirP(["include"]);
  }

  lemma ModelStep10()
    ensures RunStep(S8, ModelSteps()[10]) == Success(S8)
  {
    assert ModelSteps()[10] == MkdirP(["lib64"]);
  }

  lemma ModelStep11()
    ensures RunStep(S8, ModelSteps()[11]) == Success(S8)
  {
    assert ModelSteps()[11] == MkdirP(["bin"]);
  }

  lemma ModelStep12()
    ensures RunStep(S8, ModelSteps()[12]) == Success(S8)
  {
    assert ModelSteps()[12] == MkdirP(["libexec"]);
  }

  lemma ModelStep13()
    ensures RunStep(S8, ModelSteps()[13]) == Success(S9)
  {
    assert JoinPath("lib64", "include") == "lib64/include";
    assert ModelSteps()[13] == MkdirP(["lib", "include"]);
    LibLinkInS8();
    MakeUnderLink(S8, "lib", "lib64", "include");
  }

  /** From step 3 on, `lib` is the link to the directory `lib64`. */
  lemma LibLinkInS8()
    ensures S8["lib"] == Symlink("lib64") && S8["lib64"] == Dir
  {
    assert S4["lib"] == S3["lib"] == Symlink("lib64");
    assert S4["lib64"] == S3["lib64"] == S2["lib64"] == Dir;
    assert S5["lib"] == S4["lib"] && S5["lib64"] == S4["lib64"];
    assert S6["lib"] == S5["lib"] && S6["lib64"] == S5["lib64"];
    assert S7["lib"] == S6["lib"] && S7["lib64"] == S6["lib64"];
  }

  lemma ModelStep14()
    ensures RunStep(S9, ModelSteps()[14]) == Success(S10)
  {
    assert JoinPath("lib64", "pkgconfig") == "lib64/pkgconfig";
    assert ModelSteps()[14] == MkdirP(["lib", "pkgconfig"]);
    LibLinkInS9();
    MakeUnderLink(S9, "lib", "lib64", "pkgconfig");
  }

  lemma LibLinkInS9()
    ensures "lib" in S9 && S9["lib"] == Symlink("lib64") && "lib64" in S9 && S9["lib64"] == Dir
  {
    LibLinkInS8();
    assert S9["lib"] == S8["lib"] && S9["lib64"] == S8["lib64"];
  }

  lemma ModelStep15()
    ensures RunStep(S10, ModelSteps()[15]) == Success(S11)
  {
    assert JoinPath("usr", "lib") == "usr/lib";
    assert ModelSteps()[15] == MkdirP(["usr", "lib"]);
    MakeBoth(S10, "usr", "lib");
  }

  lemma ModelStep16()
    ensures RunStep(S11, ModelSteps()[16]) == Success(ModelTree)
  {
    assert JoinPath("usr", "include") == "usr/include";
    assert ModelSteps()[16] == MkdirP(["usr", "include"]);
    MakeUnder(S11, "usr", "usr", "include");
  }

  lemma RunStepsCons(fs: Fs, steps: seq<Step>, next: Fs)
    requires |steps| > 0 && RunStep(fs, steps[0]) == Success(next)
    ensures RunSteps(fs, steps) == RunSteps(next, steps[1..])
  {
  }

  /** Running from step `i` on is step `i`, then running from step `i + 1` on. */
  lemma RunFrom(fs: Fs, steps: seq<Step>, i: nat, next: Fs)
    requires i < |steps| && RunStep(fs, steps[i]) == Success(next)
    ensures RunSteps(fs, steps[i..]) == RunSteps(next, steps[i + 1..])
  {
    assert steps[i..][0] == steps[i];
    assert steps[i..][1..] == steps[i + 1..];
    RunStepsCons(fs, steps[i..], next);
  }

  /** The run of the model script from step `k` on, one lemma per `k`. */
  lemma ModelRunFrom17()
    ensures RunSteps(ModelTree, ModelSteps()[17..]) == Success(ModelTree)
  {
    assert ModelSteps()[17..] == [];
  }

  lemma ModelRunFrom16()
    ensures RunSteps(S11, ModelSteps()[16..]) == Success(ModelTree)
  {
    ModelStep16();
    RunFrom(S11, ModelSteps(), 16, ModelTree);
    ModelRunFrom17();
  }

  lemma ModelRunFrom15()
    ensures RunSteps(S10, ModelSteps()[15..]) == Success(ModelTree)
  {
    ModelStep15();
    RunFrom(S10, ModelSteps(), 15, S11);
    ModelRunFrom16();
  }

  lemma ModelRunFrom14()
    ensures RunSteps(S9, ModelSteps()[14..]) == Success(ModelTree)
  {
    ModelStep14();
    RunFrom(S9, ModelSteps(), 14, S10);
    ModelRunFrom15();
  }

  lemma ModelRunFrom13()
    ensures RunSteps(S8, ModelSteps()[13..]) == Success(ModelTree)
  {
    ModelStep13();
    RunFrom(S8, ModelSteps(), 13, S9);
    ModelRunFrom14();
  }

  lemma ModelRunFrom12()
    ensures RunSteps(S8, ModelSteps()[12..]) == Success(ModelTree)
  {
    ModelStep12();
    RunFrom(S8, ModelSteps(), 12, S8);
    ModelRunFrom13();
  }

  lemma ModelRunFrom11()
    ensures RunSteps(S8, ModelSteps()[11..]) == Success(ModelTree)
  {
    ModelStep11();
    RunFrom(S8, ModelSteps(), 11, S8);
    ModelRunFrom12();
  }

  lemma ModelRunFrom10()
    ensures RunSteps(S8, ModelSteps()[10..]) == Success(ModelTree)
  {
    ModelStep10();
    RunFrom(S8, ModelSteps(), 10, S8);
    ModelRunFrom11();
  }

  lemma ModelRunFrom9()
    ensures RunSteps(S8, ModelSteps()[9..]) == Success(ModelTree)
  {
    ModelStep9();
    RunFrom(S8, ModelSteps(), 9, S8);
    ModelRunFrom10();
  }

  lemma ModelRunFrom8()
    ensures RunSteps(S7, ModelSteps()[8..]) == Success(ModelTree)
  {
    ModelStep8();
    RunFrom(S7, ModelSteps(), 8, S8);
    ModelRunFrom9();
  }

  lemma ModelRunFrom7()
    ensures RunSteps(S6, ModelSteps()[7..]) == Success(ModelTree)
  {
    ModelStep7();
    RunFrom(S6, ModelSteps(), 7, S7);
    ModelRunFrom8();
  }

  lemma ModelRunFrom6()
    ensures RunSteps(S5, ModelSteps()[6..]) == Success(ModelTree)
  {
    ModelStep6();
    RunFrom(S5, ModelSteps(), 6, S6);
    ModelRunFrom7();
  }

  lemma ModelRunFrom5()
    ensures RunSteps(S4, ModelSteps()[5..]) == Success(ModelTree)
  {
    ModelStep5();
    RunFrom(S4, ModelSteps(), 5, S5);
    ModelRunFrom6();
  }

  lemma ModelRunFrom4()
    ensures RunSteps(S3, ModelSteps()[4..]) == Success(ModelTree)
  {
    ModelStep4();
    RunFrom(S3, ModelSteps(), 4, S4);
    ModelRunFrom5();
  }

  lemma ModelRunFrom3()
    ensures RunSteps(S3, ModelSteps()[3..]) == Success(ModelTree)
  {
    ModelStep3();
    RunFrom(S3, ModelSteps(), 3, S3);
    ModelRunFrom4();
  }

  lemma ModelRunFrom2()
    ensures RunSteps(S2, ModelSteps()[2..]) == Success(ModelTree)
  {
    ModelStep2();
    RunFrom(S2, ModelSteps(), 2, S3);
    ModelRunFrom3();
  }

  lemma ModelRunFrom1()
    ensures RunSteps(S1, ModelSteps()[1..]) == Success(ModelTree)
  {
    ModelStep1();
    RunFrom(S1, ModelSteps(), 1, S2);
    ModelRunFrom2();
  }

  lemma ModelRunFrom0()
    ensures RunSteps(Fresh, ModelSteps()[0..]) == Success(ModelTree)
  {
    ModelStep0();
    RunFrom(Fresh, ModelSteps(), 0, S1);
    ModelRunFrom1();
  }

  lemma ModelRun()
    ensures RunSteps(Fresh, ModelSteps()) == Success(ModelTree)
  {
    ModelRunFrom0();
    assert ModelSteps()[0..] == ModelSteps();
  }

  /** `_prepare_tmproot` of `orchestra/model/actions/install.py`: the run succeeds, `lib`
      is the link to `lib64`, each of the eleven listed directories resolves to a directory
      (`lib/...` through the link into `lib64`), and creating them again changes nothing. */
  lemma ModelTmprootPrepared()
    ensures RunSteps(Fresh, ModelSteps()) == Success(ModelTree)
    ensures "lib" in ModelTree && ModelTree["lib"] == Symlink("lib64")
    ensures forall i :: 0 <= i < |PathsToCreate| ==>
      Walk(ModelTree, [], PathsToCreate[i]).Some? && MakeDirs(ModelTree, [], PathsToCreate[i]) == Success(ModelTree)
  {
    ModelRun();
    ModelPathsResolve();
    ModelTreeLib();
  }

  lemma ModelTreeLib()
    ensures "lib" in ModelTree && ModelTree["lib"] == Symlink("lib64")
  {
    assert S4["lib"] == S3["lib"] == Symlink("lib64");
    assert S5["lib"] == S4["lib"];
    assert S6["lib"] == S5["lib"];
    assert S7["lib"] == S6["lib"];
    assert S8["lib"] == S7["lib"];
    assert S9["lib"] == S8["lib"];
    assert S10["lib"] == S9["lib"];
    assert S11["lib"] == S10["lib"];
  }

  lemma ModelStepsCreate(i: nat)
    requires i < |PathsToCreate|
    ensures 6 + i < |ModelSteps()| && ModelSteps()[6 + i] == MkdirP(PathsToCreate[i])
  {
  }

  /** The directories created by the `mkdir -p` steps at positions `off ..` of a successful
      run all resolve at its end, and creating them again changes nothing. */
  lemma {:induction false} CreatedPathsResolve(fs: Fs, steps: seq<Step>, r: Fs, paths: seq<seq<string>>, off: nat)
    requires RunSteps(fs, steps) == Success(r)
    requires off + |paths| <= |steps|
    requires forall i :: 0 <= i < |paths| ==> steps[off + i] == MkdirP(paths[i])
    ensures forall i :: 0 <= i < |paths| ==>
      Walk(r, [], paths[i]).Some? && MakeDirs(r, [], paths[i]) == Success(r)
  {
    RunStepsWalks(fs, steps);
    forall i | 0 <= i < |paths| ensures Walk(r, [], paths[i]).Some? && MakeDirs(r, [], paths[i]) == Success(r) {
      assert steps[off + i].MkdirP? && steps[off + i].path == paths[i];
      MakeDirsExisting(r, [], paths[i]);
    }
  }

  lemma ModelPathsResolve()
    ensures forall i :: 0 <= i < |PathsToCreate| ==>
      Walk(ModelTree, [], PathsToCreate[i]).Some? && MakeDirs(ModelTree, [], PathsToCreate[i]) == Success(ModelTree)
  {
    ModelRun();
    forall i | 0 <= i < |PathsToCreate| ensures ModelSteps()[6 + i] == MkdirP(PathsToCreate[i]) {
      ModelStepsCreate(i);
    }
    CreatedPathsResolve(Fresh, ModelSteps(), ModelTree, PathsToCreate, 6);
  }
  /** `walk a/b` where `a` and `a/b` are plain directories. */
  lemma WalkUnder(fs: Fs, a: string, b: string)
    requires a != [] && a in fs && fs[a] == Dir
    requires JoinPath(a, b) in fs && fs[JoinPath(a, b)] == Dir
    ensures Walk(fs, [], [a, b]) == Some(JoinPath(a, b))
  {
    var k := JoinPath(a, b);
    assert JoinPath([], a) == a;
    assert Follow(fs, a, MaxSymlinkHops) == Some(a);
    assert Follow(fs, k, MaxSymlinkHops) == Some(k);
    assert [a, b][1..] == [b];
    assert Walk(fs, k, []) == Some(k);
    assert Walk(fs, a, [b]) == Some(k);
  }

  /** The states the script of `orchestra/actions/install.py` passes through. */
  const A1: Fs := Fresh["include" := Dir]
  const A2: Fs := A1["lib64" := Dir]
  const A3: Fs := A2["lib64/include" := Dir]
  const A4: Fs := A3["lib64/pkgconfig" := Dir]
  const A5: Fs := A4["lib" := Symlink("lib64")]
  const A6: Fs := A5["bin" := Dir]
  const A7: Fs := A6["usr" := Dir]["usr/lib" := Dir]
  const A8: Fs := A7["usr/include" := Dir]
  const A9: Fs := A8["share" := Dir]["share/info" := Dir]
  const A10: Fs := A9["share/doc" := Dir]
  const A11: Fs := A10["share/man" := Dir]
  const A12: Fs := A11["share/info/dir" := File]
  const ActionsTree: Fs := A12["libexec" := Dir]

  lemma ActionsStep0()
    ensures RunStep(Fresh, ActionsSteps[0]) == Success(A1)
  {
  }

  lemma ActionsStep1()
    ensures RunStep(A1, ActionsSteps[1]) == Success(A2)
  {
  }

  lemma ActionsStep2()
    ensures RunStep(A2, ActionsSteps[2]) == Success(A3)
  {
    assert JoinPath("lib64", "include") == "lib64/include";
    MakeUnder(A2, "lib64", "lib64", "include");
  }

  lemma ActionsStep3()
    ensures RunStep(A3, ActionsSteps[3]) == Success(A4)
  {
    assert JoinPath("lib64", "pkgconfig") == "lib64/pkgconfig";
    MakeUnder(A3, "lib64", "lib64", "pkgconfig");
  }

  lemma ActionsStep4()
    ensures RunStep(A4, ActionsSteps[4]) == Success(A5)
  {
  }

  lemma ActionsStep5()
    ensures RunStep(A5, ActionsSteps[5]) == Success(A5)
  {
  }

  lemma ActionsStep6()
    ensures RunStep(A5, ActionsSteps[6]) == Success(A6)
  {
  }

  lemma ActionsStep7()
    ensures RunStep(A6, ActionsSteps[7]) == Success(A7)
  {
    assert JoinPath("usr", "lib") == "usr/lib";
    MakeBoth(A6, "usr", "lib");
  }

  lemma ActionsStep8()
    ensures RunStep(A7, ActionsSteps[8]) == Success(A8)
  {
    assert JoinPath("usr", "include") == "usr/include";
    MakeUnder(A7, "usr", "usr", "include");
  }

  lemma ActionsStep9()
    ensures RunStep(A8, ActionsSteps[9]) == Success(A9)
  {
    assert JoinPath("share", "info") == "share/info";
    MakeBoth(A8, "share", "info");
  }

  lemma ActionsStep10()
    ensures RunStep(A9, ActionsSteps[10]) == Success(A10)
  {
    assert JoinPath("share", "doc") == "share/doc";
    MakeUnder(A9, "share", "share", "doc");
  }

  lemma ActionsStep11()
    ensures RunStep(A10, ActionsSteps[11]) == Success(A11)
  {
    assert JoinPath("share", "man") == "share/man";
    MakeUnder(A10, "share", "share", "man");
  }

  lemma ActionsStep12()
    ensures RunStep(A11, ActionsSteps[12]) == Success(A12)
  {
    assert JoinPath("share", "info") == "share/info";
    assert JoinPath("share/info", "dir") == "share/info/dir";
    WalkUnder(A11, "share", "info");
  }

  lemma ActionsStep13()
    ensures RunStep(A12, ActionsSteps[13]) == Success(ActionsTree)
  {
  }

  /** The run of the script from step `k` on, one lemma per `k`. */
  lemma ActionsRunFrom14()
    ensures RunSteps(ActionsTree, ActionsSteps[14..]) == Success(ActionsTree)
  {
    assert ActionsSteps[14..] == [];
  }

  lemma ActionsRunFrom13()
    ensures RunSteps(A12, ActionsSteps[13..]) == Success(ActionsTree)
  {
    ActionsStep13();
    RunFrom(A12, ActionsSteps, 13, ActionsTree);
    ActionsRunFrom14();
  }

  lemma ActionsRunFrom12()
    ensures RunSteps(A11, ActionsSteps[12..]) == Success(ActionsTree)
  {
    ActionsStep12();
    RunFrom(A11, ActionsSteps, 12, A12);
    ActionsRunFrom13();
  }

  lemma ActionsRunFrom11()
    ensures RunSteps(A10, ActionsSteps[11..]) == Success(ActionsTree)
  {
    ActionsStep11();
    RunFrom(A10, ActionsSteps, 11, A11);
    ActionsRunFrom12();
  }

  lemma ActionsRunFrom10()
    ensures RunSteps(A9, ActionsSteps[10..]) == Success(ActionsTree)
  {
    ActionsStep10();
    RunFrom(A9, ActionsSteps, 10, A10);
    ActionsRunFrom11();
  }

  lemma ActionsRunFrom9()
    ensures RunSteps(A8, ActionsSteps[9..]) == Success(ActionsTree)
  {
    ActionsStep9();
    RunFrom(A8, ActionsSteps, 9, A9);
    ActionsRunFrom10();
  }

  lemma ActionsRunFrom8()
    ensures RunSteps(A7, ActionsSteps[8..]) == Success(ActionsTree)
  {
    ActionsStep8();
    RunFrom(A7, ActionsSteps, 8, A8);
    ActionsRunFrom9();
  }

  lemma ActionsRunFrom7()
    ensures RunSteps(A6, ActionsSteps[7..]) == Success(ActionsTree)
  {
    ActionsStep7();
    RunFrom(A6, ActionsSteps, 7, A7);
    ActionsRunFrom8();
  }

  lemma ActionsRunFrom6()
    ensures RunSteps(A5, ActionsSteps[6..]) == Success(ActionsTree)
  {
    ActionsStep6();
    RunFrom(A5, ActionsSteps, 6, A6);
    ActionsRunFrom7();
  }

  lemma ActionsRunFrom5()
    ensures RunSteps(A5, ActionsSteps[5..]) == Success(ActionsTree)
  {
    ActionsStep5();
    RunFrom(A5, ActionsSteps, 5, A5);
    ActionsRunFrom6();
  }

  lemma ActionsRunFrom4()
    ensures RunSteps(A4, ActionsSteps[4..]) == Success(ActionsTree)
  {
    ActionsStep4();
    RunFrom(A4, ActionsSteps, 4, A5);
    ActionsRunFrom5();
  }

  lemma ActionsRunFrom3()
    ensures RunSteps(A3, ActionsSteps[3..]) == Success(ActionsTree)
  {
    ActionsStep3();
    RunFrom(A3, ActionsSteps, 3, A4);
    ActionsRunFrom4();
  }

  lemma ActionsRunFrom2()
    ensures RunSteps(A2, ActionsSteps[2..]) == Success(ActionsTree)
  {
    ActionsStep2();
    RunFrom(A2, ActionsSteps, 2, A3);
    ActionsRunFrom3();
  }

  lemma ActionsRunFrom1()
    ensures RunSteps(A1, ActionsSteps[1..]) == Success(ActionsTree)
  {
    ActionsStep1();
    RunFrom(A1, ActionsSteps, 1, A2);
    ActionsRunFrom2();
  }

  lemma ActionsRunFrom0()
    ensures RunSteps(Fresh, ActionsSteps[0..]) == Success(ActionsTree)
  {
    ActionsStep0();
    RunFrom(Fresh, ActionsSteps, 0, A1);
    ActionsRunFrom1();
  }

  lemma ActionsRun()
    ensures RunSteps(Fresh, ActionsSteps) == Success(ActionsTree)
  {
    ActionsRunFrom0();
    assert ActionsSteps[0..] == ActionsSteps;
  }

  lemma ActionsTreeEntries()
    ensures "lib" in ActionsTree && ActionsTree["lib"] == Symlink("lib64")
    ensures "share/info/dir" in ActionsTree && ActionsTree["share/info/dir"] == File
  {
    assert A6["lib"] == A5["lib"] == Symlink("lib64");
    assert A7["lib"] == A6["lib"];
    assert A8["lib"] == A7["lib"];
    assert A9["lib"] == A8["lib"];
    assert A10["lib"] == A9["lib"];
    assert A11["lib"] == A10["lib"];
    assert A12["lib"] == A11["lib"];
    assert A12["share/info/dir"] == File;
  }

  /** `_prepare_tmproot` of `orchestra/actions/install.py`: the script succeeds on a fresh
      prefix, `lib` is the link to `lib64`, `share/info/dir` is an (empty) file, and every
      directory the script creates resolves to a directory at its end. */
  lemma ActionsTmprootPrepared()
    ensures RunSteps(Fresh, ActionsSteps) == Success(ActionsTree)
    ensures "lib" in ActionsTree && ActionsTree["lib"] == Symlink("lib64")
    ensures "share/info/dir" in ActionsTree && ActionsTree["share/info/dir"] == File
    ensures forall i :: 0 <= i < |ActionsSteps| && ActionsSteps[i].MkdirP? ==>
      Walk(ActionsTree, [], ActionsSteps[i].path).Some?
  {
    ActionsRun();
    ActionsTreeEntries();
    RunStepsWalks(Fresh, ActionsSteps);
  }
}

=== FILE: uninstall.dfy ===
/** Manifest-driven uninstall. The two versions of the engine differ in one test:
    `orchestra/actions/install.py` deletes anything that is a file or a symbolic link,
    `orchestra/model/actions/install.py` deletes only what `os.path.isfile` accepts, that
    is what resolves to a regular file. */
module Uninstall {
  import opened Wrappers
  import opened FileSystem
  import opened Manifest

  datatype Variant =
    | FilesAndLinks     // orchestra/actions/install.py
    | RegularFilesOnly  // orchestra/model/actions/install.py

  datatype UninstallError =
    | MissingManifest(component: string)  // `open(index_path)` fails
    | NotADirectory(path: string)         // `os.rmdir` on a link to an empty directory

  /** `k` is a symbolic link that resolves to a directory with nothing inside. */
  predicate LinkToEmptyDir(fs: Fs, k: string) {
    && k in fs && fs[k].Symlink? && IsDir(fs, k)
    && var t := Follow(fs, k, MaxSymlinkHops); t.Some? && !HasChild(fs, t.value)
  }

  /** A listed symbolic link whose resolution passes only through unlisted paths: the loop
      cannot change where it leads before visiting it. */
  ghost predicate SteadyLink(fs0: Fs, keys: seq<string>, q: string) {
    && q in keys && q in fs0 && fs0[q].Symlink?
    && forall h :: h in Hops(fs0, q, MaxSymlinkHops) ==> h !in keys
  }

  /** One iteration of the loop over the listed paths. */
  function VisitEntry(v: Variant, fs: Fs, k: string): (r: Result<Fs, UninstallError>)
    // only the visited path can disappear, and nothing is added
    ensures r.Success? ==> Submap(r.value, fs) && forall q :: q in fs && q != k ==> q in r.value
    // a missing path is skipped silently
    ensures k !in fs ==> r == Success(fs)
    // a directory goes exactly when it is empty
    ensures r.Success? && k in fs && fs[k].Dir? ==> (k in r.value <==> HasChild(fs, k))
    // files and links go unconditionally in one version, regular files in the other
    ensures v == FilesAndLinks ==> r.Success? && (k in fs && !fs[k].Dir? ==> k !in r.value)
    ensures v == RegularFilesOnly && IsFile(fs, k) ==> r == Success(fs - {k})
    // the second version leaves a dangling link alone
    ensures v == RegularFilesOnly && Dangling(fs, k) ==> r == Success(fs)
    // and fails exactly on a link to an empty directory, which `os.rmdir` refuses
    ensures r.Failure? <==> v == RegularFilesOnly && LinkToEmptyDir(fs, k)
  {
    match v
    case FilesAndLinks =>
      if k in fs && (fs[k].File? || fs[k].Symlink?) then Success(fs - {k})
      else if k in fs && fs[k].Dir? then
        if HasChild(fs, k) then Success(fs) else Success(fs - {k})
      else Success(fs)
    case RegularFilesOnly =>
      if IsFile(fs, k) then Success(fs - {k})
      else if IsDir(fs, k) then
        var t := Follow(fs, k, MaxSymlinkHops).value;
        if HasChild(fs, t) then Success(fs)
        else if fs[k].Dir? then Success(fs - {k})
        else Failure(NotADirectory(k))
      else Success(fs)
  }

  /** The loop of `uninstall` over the visiting order. On failure the filesystem is the one
      left behind when the exception was raised.
      The contract is the final state: nothing unlisted changes, listed files (and, in the
      first version, links) are gone, and a listed directory survives exactly when it
      still has contents; the last part needs every entry to come before its parent. */
  method RemoveListed(v: Variant, fs0: Fs, keys: seq<string>) returns (fs: Fs, err: Option<UninstallError>)
    ensures Submap(fs, fs0)
    ensures forall q :: q in fs0 && q !in keys ==> q in fs
    ensures v == FilesAndLinks ==> err.None?
    ensures err.None? ==> forall q :: q in keys && q in fs0 && fs0[q].Dir? && q !in fs ==> !HasChild(fs, q)
    ensures err.None? && ChildrenFirst(keys) ==>
      forall q :: q in keys && q in fs && fs[q].Dir? ==> HasChild(fs, q)
    ensures v == FilesAndLinks ==> forall q :: q in keys && q in fs0 && !fs0[q].Dir? ==> q !in fs
    ensures v == RegularFilesOnly && err.None? ==> forall q :: q in keys && q in fs0 && fs0[q].File? ==> q !in fs
    ensures v == RegularFilesOnly ==> forall q :: Dangling(fs0, q) ==> q in fs
    // a failure stops at a listed link to an empty directory, after the earlier entries
    ensures err.Some? ==> StoppedAt(keys, fs0, fs, err.value)
    // in the second version a steady listed link to a file goes, and one to an empty
    // directory makes the loop fail
    ensures v == RegularFilesOnly && err.None? ==> forall q :: SteadyLink(fs0, keys, q) && IsFile(fs0, q) ==> q !in fs
    ensures v == RegularFilesOnly && err.None? ==> forall q :: SteadyLink(fs0, keys, q) ==> !LinkToEmptyDir(fs0, q)
  {
    fs := fs0;
    err := None;
    var i := 0;
    while i < |keys|
      invariant 0 <= i <= |keys|
      invariant Submap(fs, fs0)
      invariant forall q :: q in fs0 && q !in keys[..i] ==> q in fs
      invariant forall j :: 0 <= j < i && keys[j] in fs0 && fs0[keys[j]].Dir? && keys[j] !in fs ==> !HasChild(fs, keys[j])
      invariant ChildrenFirst(keys) ==> forall j :: 0 <= j < i && keys[j] in fs && fs[keys[j]].Dir? ==> HasChild(fs, keys[j])
      invariant v == FilesAndLinks ==> forall j :: 0 <= j < i && keys[j] in fs0 && !fs0[keys[j]].Dir? ==> keys[j] !in fs
      invariant v == RegularFilesOnly ==> forall j :: 0 <= j < i && keys[j] in fs0 && fs0[keys[j]].File? ==> keys[j] !in fs
      invariant v == RegularFilesOnly ==> forall q :: Dangling(fs0, q) ==> q in fs
      invariant v == RegularFilesOnly ==> SteadyBefore(fs0, fs, keys, i)
    {
      var k := keys[i];
      if v == RegularFilesOnly && k in fs && Dangling(fs0, k) {
        DanglingStaysDangling(fs, fs0, k);
      }
      var step := VisitEntry(v, fs, k);
      if step.Failure? {
        err := Some(step.error);
        assert StoppedBefore(keys, fs0, fs, i) && err.value == NotADirectory(keys[i]);
        return;
      }
      var next := step.value;
      EmptyStaysEmpty(fs, next, keys, i, fs0);
      KeptStaysFull(fs, next, keys, i);
      VisitKeeps(v, fs0, fs, next, keys, i);
      if v == RegularFilesOnly {
        SteadyStep(fs0, fs, next, keys, i);
      }
      fs := next;
      i := i + 1;
    }
    assert keys[..i] == keys;
    if v == RegularFilesOnly {
      SteadyAll(fs0, fs, keys);
    }
  }

  /** Among the first `n` listed paths, the steady links to files are gone and none is a
      link to an empty directory. */
  ghost predicate SteadyBefore(fs0: Fs, fs: Fs, keys: seq<string>, n: int)
    requires 0 <= n <= |keys|
  {
    && (forall j :: 0 <= j < n && SteadyLink(fs0, keys, keys[j]) && IsFile(fs0, keys[j]) ==> keys[j] !in fs)
    && (forall j :: 0 <= j < n && SteadyLink(fs0, keys, keys[j]) ==> !LinkToEmptyDir(fs0, keys[j]))
  }

  lemma SteadyAll(fs0: Fs, fs: Fs, keys: seq<string>)
    requires SteadyBefore(fs0, fs, keys, |keys|)
    ensures forall q :: SteadyLink(fs0, keys, q) && IsFile(fs0, q) ==> q !in fs
    ensures forall q :: SteadyLink(fs0, keys, q) ==> !LinkToEmptyDir(fs0, q)
  {
    forall q | SteadyLink(fs0, keys, q) ensures (IsFile(fs0, q) ==> q !in fs) && !LinkToEmptyDir(fs0, q) {
      var j :| 0 <= j < |keys| && keys[j] == q;
    }
  }

  /** A steady link still in the tree resolves as it did at the start. */
  lemma SteadyFollow(fs0: Fs, fs: Fs, keys: seq<string>, i: nat, k: string)
    requires i <= |keys| && Submap(fs, fs0)
    requires forall q :: q in fs0 && q !in keys[..i] ==> q in fs
    requires SteadyLink(fs0, keys, k) && k in fs
    ensures IsFile(fs0, k) ==> IsFile(fs, k)
    ensures LinkToEmptyDir(fs0, k) ==> LinkToEmptyDir(fs, k)
  {
    forall h | h in Hops(fs0, k, MaxSymlinkHops) && h in fs0 ensures h in fs {
      assert h !in keys;
    }
    FollowKept(fs, fs0, k, MaxSymlinkHops);
  }

  /** Invariant step for the steady links of the second version. */
  lemma SteadyStep(fs0: Fs, fs: Fs, next: Fs, keys: seq<string>, i: nat)
    requires i < |keys| && Submap(fs, fs0) && Submap(next, fs)
    requires forall q :: q in fs0 && q !in keys[..i] ==> q in fs
    requires VisitEntry(RegularFilesOnly, fs, keys[i]) == Success(next)
    requires SteadyBefore(fs0, fs, keys, i)
    ensures SteadyBefore(fs0, next, keys, i + 1)
  {
    var k := keys[i];
    if k in fs && SteadyLink(fs0, keys, k) {
      SteadyFollow(fs0, fs, keys, i, k);
    }
  }

  /** The second version leaves a listed link dangling when its listed target is visited
      first: with `a -> b` and `b` both listed, the reverse sort visits `b`, removes it, and
      then keeps the now dangling `a`. The first version's `islink` test removes `a`. */
  lemma ListedTargetStrandsLink()
    ensures var fs0 := map["a" := Symlink("b"), "b" := File];
      var fs1 := map["a" := Symlink("b")];
      && VisitEntry(RegularFilesOnly, fs0, "b") == Success(fs1)
      && VisitEntry(RegularFilesOnly, fs1, "a") == Success(fs1)
      && Dangling(fs1, "a")
      && VisitEntry(FilesAndLinks, fs1, "a") == Success(map[])
  {
    var fs0 := map["a" := Symlink("b"), "b" := File];
    var fs1 := map["a" := Symlink("b")];
    assert fs0 - {"b"} == fs1;
    assert fs1 - {"a"} == map[];
    assert Follow(fs1, "b", MaxSymlinkHops - 1) == Some("b");
  }

  /** What the loop has done to the first `n` listed paths of `fs0`, leaving `fs`: files are
      gone, a removed directory was empty, and visited children first, a kept directory
      still has an entry. */
  ghost predicate VisitedBefore(keys: seq<string>, fs0: Fs, fs: Fs, n: int)
    requires 0 <= n <= |keys|
  {
    && (forall j :: 0 <= j < n && keys[j] in fs0 && fs0[keys[j]].File? ==> keys[j] !in fs)
    && (forall j :: 0 <= j < n && keys[j] in fs0 && fs0[keys[j]].Dir? && keys[j] !in fs ==> !HasChild(fs, keys[j]))
    && (ChildrenFirst(keys) ==> forall j :: 0 <= j < n && keys[j] in fs && fs[keys[j]].Dir? ==> HasChild(fs, keys[j]))
  }

  /** The second version's loop stopped at the `n`-th listed path, a link to an empty
      directory, having done its work on the paths before it. */
  ghost predicate StoppedBefore(keys: seq<string>, fs0: Fs, fs: Fs, n: int) {
    && 0 <= n < |keys|
    && LinkToEmptyDir(fs, keys[n])
    && VisitedBefore(keys, fs0, fs, n)
  }

  /** The error a stopped loop raises names a listed link to an empty directory, and every
      path listed before it was handled. */
  ghost predicate StoppedAt(keys: seq<string>, fs0: Fs, fs: Fs, e: UninstallError) {
    exists n :: StoppedBefore(keys, fs0, fs, n) && e == NotADirectory(keys[n])
  }

  /** No listed path is a symbolic link. */
  ghost predicate NoListedLink(keys: seq<string>, fs: Fs) {
    forall q :: q in keys && q in fs ==> !fs[q].Symlink?
  }

  /** A loop that stopped early stopped at a listed link. */
  lemma StopNamesLink(keys: seq<string>, fs0: Fs, fs: Fs, e: UninstallError)
    requires Submap(fs, fs0) && StoppedAt(keys, fs0, fs, e)
    ensures exists q :: q in keys && q in fs0 && fs0[q].Symlink?
  {
    var n :| StoppedBefore(keys, fs0, fs, n) && e == NotADirectory(keys[n]);
    assert keys[n] in keys;
  }

  /** Invariant step: unlisted paths survive, listed files (and, in the first version,
      links) stay gone, and dangling links survive in the second version. */
  lemma VisitKeeps(v: Variant, fs0: Fs, fs: Fs, next: Fs, keys: seq<string>, i: nat)
    requires i < |keys|
    requires Submap(fs, fs0)
    requires VisitEntry(v, fs, keys[i]) == Success(next)
    requires forall q :: q in fs0 && q !in keys[..i] ==> q in fs
    requires v == FilesAndLinks ==> forall j :: 0 <= j < i && keys[j] in fs0 && !fs0[keys[j]].Dir? ==> keys[j] !in fs
    requires v == RegularFilesOnly ==> forall j :: 0 <= j < i && keys[j] in fs0 && fs0[keys[j]].File? ==> keys[j] !in fs
    requires v == RegularFilesOnly ==> forall q :: Dangling(fs0, q) ==> q in fs
    ensures Submap(next, fs0)
    ensures forall q :: q in fs0 && q !in keys[..i + 1] ==> q in next
    ensures v == FilesAndLinks ==> forall j :: 0 <= j <= i && keys[j] in fs0 && !fs0[keys[j]].Dir? ==> keys[j] !in next
    ensures v == RegularFilesOnly ==> forall j :: 0 <= j <= i && keys[j] in fs0 && fs0[keys[j]].File? ==> keys[j] !in next
    ensures v == RegularFilesOnly ==> forall q :: Dangling(fs0, q) ==> q in next
  {
    var k := keys[i];
    assert keys[..i + 1] == keys[..i] + [k];
    if v == RegularFilesOnly {
      forall q | Dangling(fs0, q) ensures q in next {
        if q == k { DanglingStaysDangling(fs, fs0, k); }
      }
    }
  }

  /** Everything inside a listed directory is listed too, and no listed path is a symbolic
      link (so both versions treat every listed non-directory alike). */
  predicate ClosedTree(fs: Fs, keys: seq<string>) {
    && (forall c, d :: d in keys && c in fs && IsChildOf(c, d) ==> c in keys)
    && (forall q :: q in keys && q in fs ==> !fs[q].Symlink?)
  }

  lemma ChildIsLonger(c: string, d: string)
    requires IsChildOf(c, d)
    ensures |c| > |d|
  {
  }

  /** Among finitely many paths, one is at least as long as every other. */
  lemma {:induction false} Longest(paths: set<string>) returns (m: string)
    requires paths != {}
    ensures m in paths && forall x :: x in paths ==> |x| <= |m|
    decreases |paths|
  {
    var x :| x in paths;
    if paths == {x} {
      m := x;
    } else {
      var m' := Longest(paths - {x});
      m := if |x| <= |m'| then m' else x;
    }
  }

  /** The longest listed survivor of a closed listed tree is a directory with nothing left
      inside: a child of it would be a longer listed survivor. */
  lemma ChildlessSurvivor(fs0: Fs, keys: seq<string>, fs: Fs) returns (d: string)
    requires Submap(fs, fs0) && ClosedTree(fs0, keys)
    requires forall q :: q in keys && q in fs0 && fs0[q].File? ==> q !in fs
    requires exists q :: q in keys && q in fs
    ensures d in keys && d in fs && fs[d].Dir? && !HasChild(fs, d)
  {
    var left := set q | q in keys && q in fs;
    var q0 :| q0 in keys && q0 in fs;
    assert q0 in left;
    d := Longest(left);
    assert d in keys && d in fs0 && fs0[d] == fs[d];
    forall c | c in fs && IsChildOf(c, d) ensures c in left && |c| > |d| {
      ChildIsLonger(c, d);
    }
  }

  /** When every listed file is gone and every surviving listed directory still has an
      entry, nothing of a closed listed tree survives. */
  lemma TreeGone(fs0: Fs, keys: seq<string>, fs: Fs)
    requires Submap(fs, fs0) && ClosedTree(fs0, keys)
    requires forall q :: q in keys && q in fs0 && fs0[q].File? ==> q !in fs
    requires forall q :: q in keys && q in fs && fs[q].Dir? ==> HasChild(fs, q)
    ensures forall q :: q in keys ==> q !in fs
  {
    if exists q :: q in keys && q in fs {
      var d := ChildlessSurvivor(fs0, keys, fs);
    }
  }

  /** Invariant step: directories found empty stay empty, and a directory removed at this
      step was empty. */
  lemma EmptyStaysEmpty(fs: Fs, next: Fs, keys: seq<string>, i: nat, fs0: Fs)
    requires i < |keys|
    requires Submap(fs, fs0) && Submap(next, fs)
    requires forall q :: q in fs && q != keys[i] ==> q in next
    requires forall q :: q in fs0 && q !in keys[..i] ==> q in fs
    requires forall j :: 0 <= j < i && keys[j] in fs0 && fs0[keys[j]].Dir? && keys[j] !in fs ==> !HasChild(fs, keys[j])
    requires keys[i] in fs && fs[keys[i]].Dir? ==> (keys[i] in next <==> HasChild(fs, keys[i]))
    ensures forall j :: 0 <= j <= i && keys[j] in fs0 && fs0[keys[j]].Dir? && keys[j] !in next ==> !HasChild(next, keys[j])
  {
    forall j | 0 <= j <= i && keys[j] in fs0 && fs0[keys[j]].Dir? && keys[j] !in next
      ensures !HasChild(next, keys[j])
    {
      var d := keys[j];
      if d in fs {
        assert d == keys[i];
      } else if j == i {
        assert d in keys[..i];
        var j' :| 0 <= j' < i && keys[j'] == d;
      }
      assert !HasChild(fs, d);
      assert forall c :: c in next ==> c in fs;
    }
  }

  /** Invariant step: a kept directory keeps a child, because no later entry is its child. */
  lemma KeptStaysFull(fs: Fs, next: Fs, keys: seq<string>, i: nat)
    requires i < |keys|
    requires Submap(next, fs) && forall q :: q in fs && q != keys[i] ==> q in next
    requires ChildrenFirst(keys) ==> forall j :: 0 <= j < i && keys[j] in fs && fs[keys[j]].Dir? ==> HasChild(fs, keys[j])
    requires keys[i] in fs && fs[keys[i]].Dir? ==> (keys[i] in next <==> HasChild(fs, keys[i]))
    ensures ChildrenFirst(keys) ==> forall j :: 0 <= j <= i && keys[j] in next && next[keys[j]].Dir? ==> HasChild(next, keys[j])
  {
    if ChildrenFirst(keys) {
      forall j | 0 <= j <= i && keys[j] in next && next[keys[j]].Dir? ensures HasChild(next, keys[j]) {
        var d := keys[j];
        assert HasChild(fs, d);
        var c :| c in fs && IsChildOf(c, d);
        if d != keys[i] {
          assert !IsChildOf(keys[i], keys[j]);
        }
        assert c in next;
      }
    }
  }

  /** What visiting `keys` removed from `fs0`, leaving `fs`; `ok` says the loop finished.
      Files (and, in the first version, links) are gone, dangling links stay in the second,
      a listed directory survives exactly when it still has contents and whenever it holds
      something unlisted, and a listed tree with nothing unlisted inside goes entirely. In
      the second version a steady link to a file goes, and a steady link to an empty
      directory rules out finishing. */
  ghost predicate ListedRemoved(v: Variant, keys: seq<string>, fs0: Fs, fs: Fs, ok: bool) {
    && (v == FilesAndLinks ==> forall q :: q in keys && q in fs0 && !fs0[q].Dir? ==> q !in fs)
    && (v == RegularFilesOnly && ok ==> forall q :: q in keys && q in fs0 && fs0[q].File? ==> q !in fs)
    && (v == RegularFilesOnly ==> forall q :: Dangling(fs0, q) ==> q in fs)
    && (ok && ChildrenFirst(keys) ==>
          forall q :: q in keys && q in fs0 && fs0[q].Dir? ==> (q in fs <==> HasChild(fs, q)))
    && (ok ==> forall q, c ::
          (q in keys && q in fs0 && fs0[q].Dir? && c in fs0 && c !in keys && IsChildOf(c, q)) ==> q in fs)
    && (ok && ChildrenFirst(keys) && ClosedTree(fs0, keys) ==> forall q :: q in keys ==> q !in fs)
    && (v == RegularFilesOnly && ok ==> forall q :: SteadyLink(fs0, keys, q) && IsFile(fs0, q) ==> q !in fs)
    && (v == RegularFilesOnly && ok ==> forall q :: SteadyLink(fs0, keys, q) ==> !LinkToEmptyDir(fs0, q))
  }

  /** `uninstall(component)`: read the manifest, visit its paths in reverse order, then
      delete the manifest. When the loop raises, the manifest is still there. */
  method UninstallComponent(v: Variant, st: State, component: string) returns (st': State, err: Option<UninstallError>)
    ensures component !in st.manifests ==> st' == st && err == Some(MissingManifest(component))
    ensures component in st.manifests ==>
      var keys := VisitOrder(st.manifests[component]);
      && Submap(st'.root, st.root)
      && (forall q :: q in st.root && q !in keys ==> q in st'.root)
      && (err.None? ==> st'.manifests == st.manifests - {component})
      && (err.Some? ==> st'.manifests == st.manifests && v == RegularFilesOnly)
      && ListedRemoved(v, keys, st.root, st'.root, err.None?)
      && (err.Some? ==> StoppedAt(keys, st.root, st'.root, err.value))
      && (NoListedLink(keys, st.root) ==> err.None?)
  {
    if component !in st.manifests {
      return st, Some(MissingManifest(component));
    }
    var keys := VisitOrder(st.manifests[component]);
    var root, e := RemoveListed(v, st.root, keys);
    if e.Some? {
      StopNamesLink(keys, st.root, root, e.value);
      return State(root, st.manifests), e;
    }
    forall q, c | q in keys && q in st.root && st.root[q].Dir? && c in st.root && c !in keys && IsChildOf(c, q)
      ensures q in root
    {
      assert c in root;
    }
    if ChildrenFirst(keys) && ClosedTree(st.root, keys) {
      TreeGone(st.root, keys, root);
    }
    st' := State(root, st.manifests - {component});
    err := None;
  }
}

=== FILE: wrappers.dfy ===
/** Failure-carrying datatypes shared by the whole model. */
module Wrappers {

  /** An optional value: `None` stands for Python's `None`. */
  datatype Option<+T> = None | Some(value: T)

  /** The outcome of an operation that may raise: `Failure` carries what was raised. */
  datatype Result<+R, +E> = Success(value: R) | Failure(error: E)
}
